=== FILE: README.md ===
# Acceptance-test harness core, modelled in Dafny

This project models the deterministic core of a Java acceptance-test harness
for a background log-collecting service, and proves properties of that model.
The harness does four things. It builds SQL statements from spreadsheet test
cases and judges a database's replies against them. It rewrites the
timestamps in canned log files so that they sit relative to "now". It drives
the service through a fixed stop, clean, copy, start, wait, archive, stop
cycle. And it compares an expected SQLite database with the one the service
produced.

The modules, one per file:

- `Records` (`records.dfy`): test-case records (`map<string,string>`), the
  `keyInHashMap` test (`Present`), key normalisation, and last-write-wins
  assignment.
- `Excel` (`excel.dfy`): the reading side of `ExcelHandler`. It covers the
  choice of workbook, the global test-data sheet and the rows of test cases.
- `Sql` (`sql.dfy`): the construction of `OperationTest`, `quoteAdd`, and the
  INSERT, SELECT and DELETE text. `concatInsert` and `concatSelect` are loop
  methods proved against the statement functions.
- `Operation` (`operation.dfy`): class `OperationTest` and its
  `innerRunAction` verdicts. The connection is an oracle `reply: nat -> DbReply`.
- `Rebase` (`rebase.dfy`): `getOffsetTime` with Java's truncating division,
  the two timestamp patterns, ISO rendering, and the two-pass rebaser. The
  rebaser appears twice in the source, in `TestBase.updateLogLineDates` and in
  `KPITest.kpiFileEdit`, and both copies are proved equal to one function,
  `Rebased`.
- `Staging` (`staging.dfy`): class `Project`, the filesystem seen as values,
  with a ghost event trace. It covers clean, copy, the rebasing walk, archive
  and `performProjectAction`.
- `Gating` (`gating.dfy`): the `runAction` of `DataCollectionTest` and
  `DataPushTest`. It covers their path arrays, the dialect each uses, and the
  `include` and `logsourcepathpart2` gates.
- `Compare` (`compare.dfy`): class `SqliteCompareTest`, covering its path
  arrays, the count phase, the lockstep row phase and the report entries.
  Its path arrays are field initialisers, which Java runs before the
  constructor body sets `sourcePath`, and no base class sets it first. So the
  copy sources are "nullAgent Logs", "nullLogs", "nullDG", "nullRCP" and
  "nullRCT", and the first archive path is "nullLogs". Unless such folders
  exist, every cycle throws before the service starts and no comparison
  runs (`Compare.NullSourcesStopCycle`).

Inputs the model takes as parameters:

- The clock (`now`).
- The calendar. `Calendar` holds functions for date parsing and printing, for
  `Period` subtraction, and for the agent-format parser and formatter.
  `Lawful(cal)` asks only that subtracting an empty period is the identity.
- The database replies.
- `Math.round(Double.parseDouble(..))`, as `round`.
- The order in which `Files.walk` lists the regular files inside a
  directory, as the function `listing` of the files that exist.
- The paths the filesystem refuses to delete, as the set `undeletable`.
- The archive folder name, which the source builds from the working directory
  and the clock.

## Model

| member | source | states |
|---|---|---|
| Records.StripWhitespace | src/client/ExcelHandler.java:28 | removing whitespace leaves no whitespace character and never lengthens the text |
| Records.NormaliseKey | src/client/ExcelHandler.java:83 | a normalised column title contains no whitespace and no upper-case letter |
| Records.NormaliseOrderIrrelevant | src/client/ExcelHandler.java:28 | lowercasing then stripping (test-data keys) gives the same key as stripping then lowercasing (column titles) |
| Records.NormaliseIdempotent | src/client/ExcelHandler.java:83 | normalising a normalised key changes nothing |
| Records.NormalForm | src/client/ExcelHandler.java:83 | a text without whitespace or upper case is its own normal form |
| Records.NormaliseMatchesLookup | src/client/OperationTest.java:90 | for a vocabulary name without whitespace, `key.toLowerCase()` equals the normalised title, so the lookup finds the column |
| Records.AssignKeys | src/client/ExcelHandler.java:31 | after a sequence of `put`s a key is present iff some put used it |
| Records.AssignLastWins | src/client/ExcelHandler.java:27-32 | a key holds the value of the last put that used it |
| Excel.WorkbookFor | src/client/ExcelHandler.java:65-74 | the three known test types select their workbook; any other type raises InvalidArgument |
| Excel.ErrorPersists | src/client/ExcelHandler.java:91-96 | once a cell of a row has raised, reading the rest of the row raises the same error |
| Excel.CellPairsOk | src/client/ExcelHandler.java:91-96 | a row can be read iff every non-null cell lies under a title |
| Excel.RowRecordKeys | src/client/ExcelHandler.java:91-96 | a row's record has exactly the titles of its non-null cells as keys; a null cell adds no key |
| Excel.RowRecordLastWins | src/client/ExcelHandler.java:91-96 | when two columns normalise to the same title, the later non-null cell's text wins |
| Excel.ReadRow | src/client/ExcelHandler.java:89-97 | the per-row loop computes the row's record: every non-null cell put under its column title, a null row or a cell past the last title raising |
| Excel.GetOperationTestCases | src/client/ExcelHandler.java:59-102 | an unknown type raises before reading; otherwise one record per sheet row 1..lastRowNum in order, each the row's record, or the error of the first row that cannot be read |
| Excel.TestDataKeysNormalised | src/client/ExcelHandler.java:27-31 | every key of the test data is lowercased and has no whitespace |
| Excel.GetTestData | src/client/ExcelHandler.java:18-35 | it raises (the NullPointerException of a missing cell) iff some row lacks cell 0 or cell 1, naming the first such row; otherwise the test data is the last-wins assignment of (normalised cell-0 text, cell-1 text) over the rows in order, and every key is normalised |
| Sql.MakeCase | src/client/OperationTest.java:34-61 | construction fails iff `actiontype` is absent or empty; SELECT and INSERT without `numberofrows` fail; other actions get -1 rows |
| Sql.QuotingRule | src/client/OperationTest.java:70-80 | over the vocabulary, seven text columns are always quoted; ModificationTime and CollectionTimestamp are quoted except in an INSERT; the rest never are |
| Sql.PresentColumnsMembers | src/client/OperationTest.java:89-93 | a name is listed iff it is in the vocabulary and its lowercased key holds a non-empty value |
| Sql.Values | src/client/OperationTest.java:96-100 | one value per listed column |
| Sql.ReplaceSeparator | src/client/OperationTest.java:94 | `replaceAll(sep + "$", repl)` on text ending in `sep` replaces exactly that final separator |
| Sql.TerminatedIsJoined | src/client/OperationTest.java:91 | appending `item + sep` for each item gives the items joined by `sep` plus one trailing `sep` |
| Sql.InsertShape | src/client/OperationTest.java:87-103 | INSERT lists exactly the present columns in vocabulary order, and VALUES has their quoted values in the same order; with no present column the text is `INSERT INTO t(VALUES(` |
| Sql.ConcatInsert | src/client/OperationTest.java:87-103 | the loop that appends column by column builds exactly the INSERT text |
| Sql.SelectOperator | src/client/OperationTest.java:113 | the operator is ` = ` iff the dialect is "mysql", and ` == ` otherwise |
| Sql.SelectShape | src/client/OperationTest.java:112-129 | SELECT joins `column op value` with AND; with no present column the WHERE keyword is dropped |
| Sql.ConcatSelect | src/client/OperationTest.java:112-129 | the loop builds exactly the SELECT text |
| Sql.ClearSql | src/client/OperationTest.java:138-146 | DELETE FROM the table; for mysql a NodeId condition is added, and the case fails iff `nodeid` is missing |
| Operation.FirstError | src/client/OperationTest.java:167-170 | the index of the first execution whose reply is not an update count, or n when there is none |
| Operation.OperationTest.constructor | src/client/TestBase.java:67 | a new case starts passing, with nothing done on the connection |
| Operation.OperationTest.RunInsert | src/client/OperationTest.java:164-176 | the statement runs `numberOfRows` times before any check. An exception at run k stops after k+1 runs, clears pass and rethrows. Otherwise pass holds iff every run returned 1, and the first other count fails the assertion. Cleanup always ends the log |
| Operation.OperationTest.RunSelect | src/client/OperationTest.java:177-199 | one query; pass iff the row count equals `numberOfRows`; a wrong reply clears pass and rethrows |
| Operation.OperationTest.RunClear | src/client/OperationTest.java:200-205 | a mysql case without a node id fails before executing anything; otherwise one delete runs and pass iff it deleted 0 rows |
| Operation.OperationTest.InnerRunAction | src/client/OperationTest.java:158-216 | dispatches on the action type; an unknown action only cleans up; every rethrown SQLException leaves pass false |
| Rebase.WholeSeconds | src/client/TestBase.java:198-199 | the seconds of a duration with a sub-second remainder are the whole seconds |
| Rebase.TruncatedSplit | src/client/TestBase.java:200-202 | h*3600 + m*60 + s gives back the total under truncating `/` and `%`, with \|m\|, \|s\| < 60 and all three parts sharing the total's sign |
| Rebase.OffsetIdentity | src/client/TestBase.java:194-204 | the offset adds up to tod(last) - tod(prev); the copy in src/client/KPITest.java:19-29 is the same function |
| Rebase.OffsetSigns | src/client/TestBase.java:194-204 | minutes and seconds stay below 60 in size and carry the sign of the difference |
| Rebase.FromAbs | src/client/TestBase.java:242-243 | a count of seconds since the epoch maps back to a date and a time of day in range |
| Rebase.Shifted | src/client/TestBase.java:240-244 | the rebased time is a valid time with its nanos cut off |
| Rebase.ShiftedValue | src/client/TestBase.java:240-244 | the rebased time is the period-shifted day at now's time of day, less tod(last) - tod(prev) |
| Rebase.ShiftSameDate | src/client/TestBase.java:240-244 | on the reference's date, the rebased time is truncated now less tod(last) - tod(prev) seconds |
| Rebase.ShiftReference | src/client/TestBase.java:240-244 | the reference time itself becomes now truncated to whole seconds |
| Rebase.Trim | src/client/TestBase.java:236 | `trim` never lengthens, and leaves no character <= ' ' at either end |
| Rebase.MatchSurvivesTrim | src/client/TestBase.java:225 | a line that matches the pattern untrimmed also matches once trimmed |
| Rebase.Before | src/client/TestBase.java:226-227 | `split(sep)[0]` is the longest prefix without `sep` |
| Rebase.FractionBounds | src/client/TestBase.java:227 | a parsed fraction of a second lies in [0, 10^9) |
| Rebase.ParseIsoValid | src/client/TestBase.java:227 | a parsed ISO timestamp has a time of day and nanos in range |
| Rebase.IsoRenderHasSeconds | src/client/TestBase.java:247-248 | the ISO text always has the form date T hh:mm:ss; ":00" is appended when the second is 0 |
| Rebase.IsoRenderRoundTrip | src/client/TestBase.java:245-248 | parsing the rendered ISO text of a whole-second time gives the time back |
| Rebase.ReplaceIsoNoOccurrence | src/client/TestBase.java:245 | `replaceAll` leaves a line without an occurrence unchanged |
| Rebase.ReplaceIsoStamps | src/client/TestBase.java:245 | every occurrence in a line is replaced with the same rendered time, left to right |
| Rebase.LastMatchIsLast | src/client/TestBase.java:223-230 | the reference is the parse of some matching line, the last one in file order |
| Rebase.LastMatchNone | src/client/TestBase.java:223-230 | there is no reference iff no line matches |
| Rebase.LastMatchPrefixErr | src/client/TestBase.java:223-230 | a parse error in a prefix of the file is the error of the whole first pass |
| Rebase.MapLines | src/client/TestBase.java:232-257 | the second pass succeeds iff every line does; each input line yields exactly its own output line; a failure names a failing line |
| Rebase.MapLinesPrefixErr | src/client/TestBase.java:232-257 | a failure in a prefix of the file is the failure of the whole second pass |
| Rebase.RebasedShape | src/client/TestBase.java:232-257 | one output line per input line; a line that does not match once trimmed is written unchanged |
| Rebase.UnmatchedFileReproduced | src/client/TestBase.java:232-259 | a file with no matching line is reproduced line for line rather than rejected |
| Rebase.ReferenceLineBecomesNow | src/client/TestBase.java:240-248 | a line stamped with the reference time is rewritten to truncated now |
| Rebase.SameDateLineShifted | src/client/TestBase.java:240-248 | a line on the reference's date is rewritten to truncated now less the distance between the times of day |
| Rebase.FindReference | src/client/TestBase.java:223-230 | the first-pass loop computes the reference function |
| Rebase.RewriteLine | src/client/TestBase.java:236-254 | the per-line step computes the line's rewrite |
| Rebase.RewriteLines | src/client/TestBase.java:232-257 | the second-pass loop computes the line-by-line rewrite, and what it has written when it stops is `Emitted` |
| Rebase.Emitted | src/client/KPITest.java:52-77 | the lines written are the rewrites of the lines before the first line whose rewrite raises, in order, and stop exactly at that line |
| Rebase.EmittedUnique | src/client/KPITest.java:52-77 | any sequence of rewrites that stops at a raising line is the written output |
| Rebase.EmittedAtFailure | src/client/KPITest.java:52-77 | a pass that raises at line i has written the rewrites of the lines before i |
| Rebase.EmittedBeforeError | src/client/KPITest.java:52-84 | a pass that succeeds writes its whole result; one that fails writes the lines before the first failing line, whose error is the pass's error |
| Rebase.UpdateLogLineDates | src/client/TestBase.java:216-261 | the two-argument rebaser is `Rebased` on the file's lines, in the dialect the flag selects |
| Rebase.KpiFileEdit | src/client/KPITest.java:31-86 | the KPI rebaser takes its reference from the raw lines and rewrites the lines with the byte-order mark removed; output.log is left untouched when the first pass raises, and otherwise holds the lines written before the failing line (all of them on success), as the `finally` flushes them |
| Rebase.StripBom | src/client/KPITest.java:54 | removing the mark leaves no mark |
| Rebase.StripBomNoMark | src/client/KPITest.java:54 | a line without the mark is unchanged |
| Rebase.KpiAgreesWithTestBase | src/client/KPITest.java:40-76 | on input without a mark, the KPI copy computes exactly the ISO-dialect TestBase rewrite |
| Staging.RebaseAllTouchesOnlySelected | src/client/TestBase.java:273-315 | the rebasing walk changes no file outside its selected .log/.dg/.rcp/.rct paths, and creates or removes none |
| Staging.RebaseAllRewritesListed | src/client/TestBase.java:273-315 | a selected readable file that the walk lists once is rewritten to the rebasing of its own lines, in the dialect its name selects |
| Staging.RebaseAllUnmatchedFile | src/client/TestBase.java:273-315 | a file with no matching line comes out of the walk unchanged |
| Staging.CleanEventsShape | src/client/TestBase.java:165-178 | cleaning reports only clean events, at most one per entry, each about a path that exists, and a failure exactly for a folder holding something that cannot be deleted |
| Staging.CleanEventsReport | src/client/TestBase.java:165-178 | an existing entry that no earlier usable entry contains is reported: cleaned, or failed when something inside it cannot be deleted |
| Staging.EmptiedShape | src/client/TestBase.java:166-173 | `cleanDirectory` keeps the folder and every undeletable path, changes nothing outside the folder, and removes every path inside it that neither is nor holds an undeletable path; with nothing undeletable inside the folder nothing inside stays, and otherwise something does, so a clean that throws leaves the folder partly emptied |
| Staging.RemainingKeepsStuck | src/client/TestBase.java:166-173 | a clean only removes paths, keeps every undeletable one, and does not change which paths are stuck or which folders fail to clean |
| Staging.AfterCleanKeepsStuck | src/client/TestBase.java:163-184 | the whole clean creates no path and does not change which paths are stuck |
| Staging.AfterCleanNone | src/client/TestBase.java:163-184 | when no entry exists, the clean leaves the disk as it was |
| Staging.CleanStep | src/client/TestBase.java:165-178 | entry by entry, the clean empties each entry's folder, as far as it can be deleted, exactly when the entry exists at its turn, and otherwise changes nothing |
| Staging.Project.Clean | src/client/TestBase.java:163-184 | the new disk is the old one less everything deletable inside each existing folder (the folders themselves stay, and so does whatever is or holds an undeletable path); each existing entry leaves its Cleaned or CleanFailed event, failed iff something inside stays; it throws NothingToClean, changing nothing, iff no entry existed |
| Staging.Project.CleanFolder | src/client/TestBase.java:166-178 | everything inside the folder that can be deleted, files and subfolders, is removed and the folder kept; what is or holds an undeletable path stays, and the folder is reported failed iff something stays, cleaned otherwise |
| Staging.Project.RebaseTree | src/client/TestBase.java:273-315 | every walked file of a directory (or the path itself) is rebased in walk order, in the agent dialect iff the name ends in agentProgramV3.log; an unreadable file is reported and skipped; a rewrite error ends the walk; no path is created or removed |
| Staging.CopyIntoInside | src/client/TestBase.java:326-333 | after a copy the destination and every folder above it exist, a missing one created as a folder (`mkdirs`); the copy adds only those and what lies inside the destination, and changes no file outside it |
| Staging.AncestorsUnder | src/client/TestBase.java:326-333 | the folders above a path, which the copy creates when missing, are exactly the non-empty paths it lies under |
| Staging.CopyDirBrings | src/client/TestBase.java:333-334 | copying a directory brings each readable file inside it to the same relative place inside the destination, with the same lines |
| Staging.CopyFileBrings | src/client/TestBase.java:335-336 | copying a file puts its lines into the destination under the file's name |
| Staging.CopyAll | src/client/TestBase.java:348-368 | a copy that throws does so for a null destination or a failing rebase, nothing else |
| Staging.CopiedLogRebased | src/client/TestBase.java:352-362 | with rebasing on, a log file that a folder copy brings into the destination holds the rebased lines of its fixture |
| Staging.Project.CopyFoldersOrFiles | src/client/TestBase.java:326-333 | the new disk is the copy of a directory's contents, or of a file, into the destination, which is a directory afterwards, with every missing folder above it created |
| Staging.Project.CopyOne | src/client/TestBase.java:352-362 | `from` is set first; a null destination throws before anything is copied; otherwise the disk is the copy followed, iff the flag is set, by the rebasing walk over the destination, whose error ends the copy |
| Staging.Project.Copy | src/client/TestBase.java:348-368 | source i goes to destination i when it exists at its turn, and the disk is what the copies leave; it throws NothingToCopy, changing nothing, iff no source existed |
| Staging.ArchiveAllShape | src/client/TestBase.java:380-393 | archiving reports only archive events, at most one per entry |
| Staging.ArchiveAllCoversExisting | src/client/TestBase.java:383-387 | every entry that existed, and that no null entry precedes, is copied into the archive folder |
| Staging.ArchiveAllSilentOnMissing | src/client/TestBase.java:383-390 | a missing entry that is neither the archive folder, nor inside it, nor a folder above it (which an earlier copy would create), and whose name does not mention "sqlite", leaves no trace |
| Staging.ArchiveAllKeepsOutside | src/client/TestBase.java:380-393 | archiving changes no file outside the archive folder |
| Staging.Project.ArchiveEntry | src/client/TestBase.java:383-390 | one entry: `from` and `to` are set; an existing entry is copied into the archive folder, a missing database is reported, anything else is passed over |
| Staging.Project.Archive | src/client/TestBase.java:380-393 | existing entries are copied into the archive folder in order and missing databases reported; only a null entry throws, ending the walk there; `from` and `to` are left as the last entry set them |
| Staging.Project.PerformProjectAction | src/client/TestBase.java:408-421 | the disk is the clean, copy and archive stages chained, the first stage that throws ending the cycle; the trace holds the full stop, clean, copy, start, wait, archive, stop cycle iff no stage throws; a clean or copy that throws never reaches start, and a null archive entry throws after the start and the wait |
| Gating.CopyTo | src/client/DataCollectionTest.java:13-16 | the destination array has the length of the source array |
| Gating.ServiceTest.constructor | src/client/DataCollectionTest.java:11-32 | fixed path arrays of equal copy lengths; dates are rebased iff the type is data collection and `updatedatesinlogs` is present |
| Gating.ServiceTest.RunAction | src/client/DataCollectionTest.java:41-57 | without `include` the case fails and nothing else changes; without a log source the database is verified at once; with one the service cycle runs first with this type's wait, and the case ends StagingFailed, with the cycle's error, iff the cycle throws, iff the trace lacks the complete cycle; otherwise the disk is what the cycle leaves and a collection case verifies with "sqlite". The copy in src/client/DataPushTest.java:41-58 is the same with the push wait, no rebasing and "mysql", so a CLEAR push case without `nodeid` fails with pass untouched |
| Compare.FoldErrorPersists | src/client/SQLiteCompareTest.java:270-274 | once a step has raised, the rest of the comparison raises the same |
| Compare.FoldOk | src/client/SQLiteCompareTest.java:175-236 | a phase succeeds iff each of its steps does, and reports a mismatch iff one of its steps does |
| Compare.FoldSingletons | src/client/SQLiteCompareTest.java:136-158 | steps that report one entry each are reported in step order |
| Compare.FoldMembers | src/client/SQLiteCompareTest.java:175-236 | every entry of a phase comes from one of its steps |
| Compare.FoldPrefixKept | src/client/SQLiteCompareTest.java:175-236 | entries written early stay in the report |
| Compare.CountReport | src/client/SQLiteCompareTest.java:136-158 | the count phase runs for all three tables with no early exit and reports both counts of each table in order |
| Compare.RowReport | src/client/SQLiteCompareTest.java:181-234 | a row pair reports a mismatch iff some int or string column differs, and one manual-check entry per blob column |
| Compare.TableRowNumbers | src/client/SQLiteCompareTest.java:176-235 | every entry of a table's walk names the table and a row counter between 1 and the number of row pairs |
| Compare.TableMismatches | src/client/SQLiteCompareTest.java:176-236 | a walk over two tables reports a mismatch iff some int or string column of some walked row pair differs |
| Compare.DataMismatches | src/client/SQLiteCompareTest.java:175-249 | the data phase reports a mismatch iff some column of some walked row pair differs in a table whose counts agreed |
| Compare.MatchingDatabasesPass | src/client/SQLiteCompareTest.java:136-249 | two databases with equal row counts and equal int and string values row by row (blobs may differ) agree on every count, and the data phase reports no mismatch |
| Compare.SameDatabasePasses | src/client/SQLiteCompareTest.java:136-249 | comparing a database with itself: every count agrees and no mismatch is reported |
| Compare.SqliteCompareTest.constructor | src/client/SQLiteCompareTest.java:36-65 | every table starts with its count passed, and the case starts passing; the path arrays are the initialisers' ones, built while `sourcePath` is still null, the wait is the data-collection wait, and `sourcePath` is set last |
| Compare.CompareCopyFrom | src/client/SQLiteCompareTest.java:44-45 | every copy source is present and starts with the text "null" |
| Compare.NullSourcesStopCycle | src/client/SQLiteCompareTest.java:42-49 | with the initialisers' path arrays and none of the five "null..." sources on disk, the cycle throws NothingToClean or NothingToCopy, so the service is never started and no comparison runs |
| Compare.SqliteCompareTest.CountPhase | src/client/SQLiteCompareTest.java:136-158 | `tableCountPass[i]` is cleared iff the counts differ; any difference clears pass |
| Compare.SqliteCompareTest.CountTable | src/client/SQLiteCompareTest.java:137-157 | both counts of one table are reported; a difference clears that table's count pass and pass, and no other table's count pass changes |
| Compare.SqliteCompareTest.CompareRow | src/client/SQLiteCompareTest.java:181-234 | a differing int or string adds an entry with table, row, column, both values and both timestamps, and clears pass; a blob adds a manual-check entry only |
| Compare.SqliteCompareTest.CompareCell | src/client/SQLiteCompareTest.java:182-232 | one column as the cell function gives it: an int compared by value, a string by `equals` on the expected text (a NULL expected string raises), a blob always reported for a manual check |
| Compare.SqliteCompareTest.CompareTable | src/client/SQLiteCompareTest.java:176-236 | rows are compared in lockstep with a counter from 1, until either result set ends |
| Compare.SqliteCompareTest.DataTable | src/client/SQLiteCompareTest.java:177-248 | a table whose count passed is walked; any other table reports one "count failed" entry |
| Compare.SqliteCompareTest.DataPhase | src/client/SQLiteCompareTest.java:175-249 | the three tables in order, with the report and pass as the data-phase function gives them |
| Compare.SqliteCompareTest.Compare | src/client/SQLiteCompareTest.java:128-282 | the report is the count entries then the data entries; pass is the initial pass, and all counts agreeing, and no mismatch; `assertTrue(pass)` decides the outcome; both connections are closed on every exit |
| Compare.SqliteCompareTest.RunAction | src/client/SQLiteCompareTest.java:76-84 | the service cycle runs first, with the path arrays and wait set at construction and without rebasing, and the outcome is StagingFailed, with the cycle's error and nothing else changed, iff the cycle throws, iff the trace lacks the complete cycle; otherwise the disk is what the cycle leaves, then the report and the outcome are those of the comparison and both connections are closed |

## Left out

- JDBC connections, statement execution and result sets. The database is an
  oracle of replies (`Operation`) or a map of tables to rows (`Compare`).
- A failure of `createStatement` or of opening a connection is not modelled.
- Apache POI: opening workbooks, and all writing and styling of result
  sheets. `ExcelHandler`'s result writers are not part of this model.
- The comparison's failure sheet: the model keeps only the count, mismatch,
  manual-check and "count failed" entries. The "COUNT TEST" and "DATA TEST"
  PASS/FAIL rows, the "SQLException!" row and the write of the workbook,
  which happens only when no exception was raised, are not modelled.
- `Runtime.exec` (`net start`/`net stop`) and every sleep. They appear only
  as `Stop`, `Start` and `Wait` events.
- The disk after a stage that throws midway is not modelled beyond what the
  stage did before it threw: a partly copied tree and the `.tmp` file a
  failed rewrite leaves behind are not.
- Paths are compared as text. `..`, `.` and trailing separators are not
  normalised, and a destination inside its own source is not modelled.
- Cleaning an entry that is a regular file is not modelled as the source
  does it: `cleanDirectory` throws an `IllegalArgumentException` that the
  `catch` does not handle, while the model reports the entry cleaned and
  leaves it in place.
- I/O errors during copy or archive are not modelled, including a folder
  above the destination that exists as a regular file, where `mkdirs`
  fails; the copy of a file that cannot be read cannot be read either. Neither is the console output.
- `listing` is an input. The lemmas that follow a fixture through a copy
  ask of it only that it lists each existing regular file inside the
  directory exactly once (`Lists`).
- Java's `Period` arithmetic (month and day clamping) is the calendar's
  `minusPeriod`. Only the same-date shift and the identity for an empty
  period are claimed.
- The agent timestamp format (`EEE MMM ppd HH:mm:ss yyyy`, weekday and month
  names) is the calendar's `agentParse` and `agentText`. Its pattern is
  modelled character class by character class.
- `Double.parseDouble` with `Math.round` is the input `round`.
- `System.getenv` and the `TestBase` constructor are not modelled: `Settings`
  holds their results.
- `LocalDateTime.now()` is the parameter `now`, read once per rebased file. A
  whole tree is rebased against one `now`, while the source reads the clock
  again for every file.
- Lowercasing covers ASCII letters only. Java's `toLowerCase` also folds
  other scripts.
- Files are sequences of lines. Line splitting and the final newline are
  not modelled.
- KpiFileEdit: a missing input.log (`FileNotFoundException`) is not
  modelled; the file's lines are a parameter.
- GetTestData: a missing "Test Data" sheet is not modelled. A missing cell
  is, as the `MissingCell` error; the cell text is `toString` of the cell.
- `ProjectClientTestSuite.java` and `toString` are not part of this model.
- Cleaning deletes children in `listFiles` order and throws the last
  failure. The model gives the state after the whole loop, which does not
  depend on that order, and names no particular failure.
- Sql.SelectShape: requires that the last present value does not end in
  "WHERE". Otherwise the source's second `replaceAll` also cuts that value's
  tail, and the lemma does not describe that case.

Two behaviours of the code that may look unintended are modelled as
written:

- A log file in which no line matches the timestamp pattern is reproduced
  unchanged (`Rebase.UnmatchedFileReproduced`). It is not rejected.
- A CLEAR case passes iff the delete reports 0 affected rows
  (`Operation.OperationTest.RunClear`).

=== FILE: compare.dfy ===
/**
  The dual-database comparison: after one service cycle, the three
  observation tables of the expected database (the canned one) and of the
  actual one (the service's cache) are compared, first by row count and then,
  for each table whose counts agree, row by row in lockstep and column by
  column. A database is a map from table name to its rows; a row maps column
  names to fields, and a column a row lacks is what JDBC reports as an
  SQLException. The failure spreadsheet is modelled as the list of entries
  written to it.
*/
module Compare {
  import opened Records
  import Operation
  import Rebase
  import opened Staging
  import Gating

  datatype ColumnKind = IntColumn | StringColumn | BlobColumn

  datatype Column = Column(name: string, kind: ColumnKind)

  /** The three tables, in the order both phases visit them. */
  const TableNames: seq<string> := ["Observation", "ObservationAttribute", "ObservationArchive"]

  /** The columns compared in each table, paired by position with `TableNames`. */
  const Schema: seq<seq<Column>> := [
    [Column("ObservationId", IntColumn), Column("DataPointId", StringColumn),
     Column("CollectionTimestamp", StringColumn), Column("ObservationHash", BlobColumn)],
    [Column("ObservationId", IntColumn), Column("DataPointId", StringColumn),
     Column("CollectionTimestamp", StringColumn), Column("AttributeId", IntColumn),
     Column("AttributeValue", StringColumn)],
    [Column("ObservationId", IntColumn), Column("DataPointId", StringColumn),
     Column("CollectionTimestamp", StringColumn), Column("StartLine", IntColumn), Column("EndLine", IntColumn)]]

  /** The column every report entry quotes from both rows. */
  const Timestamp: string := "CollectionTimestamp"

  /** A stored value: SQL NULL, or a value with the views `getInt` and
      `getString` give of it. */
  datatype Field = Null | Value(number: int, text: string)

  type Row = map<string, Field>

  type Database = map<string, seq<Row>>

  /** `getInt`: NULL reads as 0. */
  function AsInt(f: Field): int {
    if f.Null? then 0 else f.number
  }

  /** `getString`: NULL reads as a Java null. */
  function AsText(f: Field): Option<string> {
    if f.Null? then None else Some(f.text)
  }

  /** One row of the failure spreadsheet. */
  datatype Entry =
    | CountRow(table: string, expectedCount: nat, actualCount: nat)
    | Mismatch(table: string, row: nat, column: string, expected: Option<string>, expectedStamp: Option<string>,
               actual: Option<string>, actualStamp: Option<string>)
    | BlobCheck(table: string, row: nat, column: string, expectedStamp: Option<string>, actualStamp: Option<string>)
    | CountFailed(table: string)

  /** What stops a comparison: an SQLException, or the NullPointerException
      of `equals` called on a NULL expected string. */
  datatype Fault = SqlFault | NullFault

  /** How `runAction` ends. */
  datatype CompareOutcome =
    | Passed
    | AssertionFailed               // `assertTrue(pass)` with `pass` false
    | SqlErrorRaised
    | NullPointer
    | StagingFailed(error: StageError)

  predicate NoMismatch(entries: seq<Entry>) {
    forall e :: e in entries ==> !e.Mismatch?
  }

  // ---------------------------------------------------------------------
  // The report as a function of the two databases

  /** The steps a comparison runs, as data: the columns of one row pair, the
      row pairs of one table, the three table counts, the three tables. */
  datatype Step =
    | Cells(table: string, n: nat, cols: seq<Column>, e: Row, a: Row)
    | Rows(table: string, cols: seq<Column>, es: seq<Row>, acts: seq<Row>)
    | Counts(expected: Database, actual: Database)
    | Tables(expected: Database, actual: Database, countPass: seq<bool>)

  /** How deep a step nests: a table's walk runs row pairs, which run cells. */
  function Rank(step: Step): nat {
    match step
    case Cells(_, _, _, _, _) => 0
    case Counts(_, _) => 0
    case Rows(_, _, _, _) => 1
    case Tables(_, _, _) => 2
  }

  /** Running steps 0..k-1 in order and concatenating what they report; the
      first step that faults ends the run with its fault. */
  function Fold(step: Step, k: nat): Result<seq<Entry>, Fault>
    decreases Rank(step), 1, k
  {
    if k == 0 then Ok([])
    else
      var front := Fold(step, k - 1);
      if front.Err? then front
      else
        var last := StepAt(step, k - 1);
        if last.Err? then last else Ok(front.value + last.value)
  }

  /** What step `i` reports; a step past the end reports nothing. */
  function StepAt(step: Step, i: nat): Result<seq<Entry>, Fault>
    decreases Rank(step), 0, 0
  {
    match step
    case Cells(table, n, cols, e, a) =>
      if i < |cols| then CellEntries(table, n, cols[i], e, a) else Ok([])
    case Rows(table, cols, es, acts) =>
      if i < |es| && i < |acts| then RowEntries(table, i + 1, cols, es[i], acts[i]) else Ok([])
    case Counts(expected, actual) =>
      if i < 3 then
        var t := TableNames[i];
        if t in expected && t in actual then Ok([CountRow(t, |expected[t]|, |actual[t]|)]) else Err(SqlFault)
      else Ok([])
    case Tables(expected, actual, countPass) =>
      if i < 3 && i < |countPass| then TableReport(expected, actual, countPass[i], i) else Ok([])
  }

  /** Whether the comparison of a column reports a mismatch. */
  predicate Differs(col: Column, e: Row, a: Row) {
    col.kind != BlobColumn && col.name in e && col.name in a
    && (if col.kind == IntColumn then AsInt(e[col.name]) != AsInt(a[col.name])
        else AsText(e[col.name]) != AsText(a[col.name]))
  }

  /** What one column of row pair `n` adds to the report. */
  function CellEntries(table: string, n: nat, col: Column, e: Row, a: Row): Result<seq<Entry>, Fault> {
    if col.kind == BlobColumn then
      if Timestamp in e && Timestamp in a then
        Ok([BlobCheck(table, n, col.name, AsText(e[Timestamp]), AsText(a[Timestamp]))])
      else Err(SqlFault)
    else if col.name !in e || col.name !in a then Err(SqlFault)
    else if col.kind == StringColumn && e[col.name].Null? then Err(NullFault)
    else if !Differs(col, e, a) then Ok([])
    else if Timestamp in e && Timestamp in a then
      Ok([Mismatch(table, n, col.name, AsText(e[col.name]), AsText(e[Timestamp]),
                   AsText(a[col.name]), AsText(a[Timestamp]))])
    else Err(SqlFault)
  }

  /** What row pair `n` (counted from 1) adds, column by column. */
  function RowEntries(table: string, n: nat, cols: seq<Column>, e: Row, a: Row): Result<seq<Entry>, Fault>
    decreases 0, 2
  {
    Fold(Cells(table, n, cols, e, a), |cols|)
  }

  function Min(x: nat, y: nat): nat {
    if x <= y then x else y
  }

  /** The lockstep walk over both result sets: it stops when either ends. */
  function TableEntries(table: string, cols: seq<Column>, es: seq<Row>, acts: seq<Row>): Result<seq<Entry>, Fault>
    decreases 1, 2
  {
    Fold(Rows(table, cols, es, acts), Min(|es|, |acts|))
  }

  /** Whether table `i` has the same number of rows in both databases. */
  predicate Agrees(expected: Database, actual: Database, i: nat)
    requires i < 3
  {
    var t := TableNames[i];
    t in expected && t in actual && |expected[t]| == |actual[t]|
  }

  /** The count phase: one count row per table. */
  function CountEntries(expected: Database, actual: Database): Result<seq<Entry>, Fault> {
    Fold(Counts(expected, actual), 3)
  }

  /** What table `i` adds to the data phase, given its count verdict. */
  function TableReport(expected: Database, actual: Database, counted: bool, i: nat): Result<seq<Entry>, Fault>
    requires i < 3
    decreases 1, 3
  {
    var t := TableNames[i];
    if t !in expected || t !in actual then Err(SqlFault)
    else if counted then TableEntries(t, Schema[i], expected[t], actual[t])
    else Ok([CountFailed(t)])
  }

  /** The data phase, given the per-table count verdicts. */
  function DataEntries(expected: Database, actual: Database, countPass: seq<bool>): Result<seq<Entry>, Fault> {
    Fold(Tables(expected, actual, countPass), 3)
  }

  // ---------------------------------------------------------------------
  // Properties of the report

  /** Once a prefix of the steps has faulted, the whole run reports that fault. */
  lemma {:induction false} FoldErrorPersists(step: Step, m: nat, k: nat)
    requires m <= k && Fold(step, m).Err?
    ensures Fold(step, k) == Fold(step, m)
    decreases k - m
  {
    if m < k {
      FoldErrorPersists(step, m + 1, k);
    }
  }

  /** A run succeeds iff every step does, and then reports a mismatch iff
      some step does. */
  lemma {:induction false} FoldOk(step: Step, k: nat)
    ensures Fold(step, k).Ok? ==> forall i :: 0 <= i < k ==> StepAt(step, i).Ok?
    ensures (forall i :: 0 <= i < k ==> StepAt(step, i).Ok?) ==> Fold(step, k).Ok?
    ensures Fold(step, k).Ok? && NoMismatch(Fold(step, k).value) ==>
              forall i :: 0 <= i < k ==> NoMismatch(StepAt(step, i).value)
    ensures Fold(step, k).Ok? && (forall i :: 0 <= i < k ==> NoMismatch(StepAt(step, i).value)) ==>
              NoMismatch(Fold(step, k).value)
  {
    if k > 0 {
      FoldOk(step, k - 1);
      var front, last := Fold(step, k - 1), StepAt(step, k - 1);
      if front.Ok? && last.Ok? {
        NoMismatchConcat(front.value, last.value);
      }
    }
  }

  /** Every entry of a run comes from one of its steps. */
  lemma {:induction false} FoldMembers(step: Step, k: nat, x: Entry)
    requires Fold(step, k).Ok? && x in Fold(step, k).value
    ensures exists i :: 0 <= i < k && StepAt(step, i).Ok? && x in StepAt(step, i).value
  {
    if x in Fold(step, k - 1).value {
      FoldMembers(step, k - 1, x);
    }
  }

  /** A run whose every step reports exactly one entry reports them in order. */
  lemma {:induction false} FoldSingletons(step: Step, k: nat)
    requires forall i :: 0 <= i < k ==> StepAt(step, i).Ok? && |StepAt(step, i).value| == 1
    ensures Fold(step, k).Ok? && |Fold(step, k).value| == k
    ensures forall i :: 0 <= i < k ==> Fold(step, k).value[i] == StepAt(step, i).value[0]
  {
    if k > 0 {
      FoldSingletons(step, k - 1);
      assert StepAt(step, k - 1).Ok?;
    }
  }

  /** The count phase succeeds iff all three tables exist in both databases,
      and then reports each table's two counts, in table order. */
  lemma CountReport(expected: Database, actual: Database)
    ensures CountEntries(expected, actual).Ok?
        <==> forall i :: 0 <= i < 3 ==> TableNames[i] in expected && TableNames[i] in actual
    ensures CountEntries(expected, actual).Ok? ==>
              var r := CountEntries(expected, actual).value;
              |r| == 3 && forall i :: 0 <= i < 3 ==>
                r[i] == CountRow(TableNames[i], |expected[TableNames[i]]|, |actual[TableNames[i]]|)
  {
    var step := Counts(expected, actual);
    FoldOk(step, 3);
    assert forall i :: 0 <= i < 3 ==>
      StepAt(step, i) == if TableNames[i] in expected && TableNames[i] in actual
                         then Ok([CountRow(TableNames[i], |expected[TableNames[i]]|, |actual[TableNames[i]]|)])
                         else Err(SqlFault);
    if forall i :: 0 <= i < 3 ==> TableNames[i] in expected && TableNames[i] in actual {
      FoldSingletons(step, 3);
    }
  }

  /** A successful row comparison reports a mismatch iff some column
      differs, and one manual-check entry per blob column. */
  lemma RowReport(table: string, n: nat, cols: seq<Column>, e: Row, a: Row)
    requires RowEntries(table, n, cols, e, a).Ok?
    ensures NoMismatch(RowEntries(table, n, cols, e, a).value)
        <==> forall j :: 0 <= j < |cols| ==> !Differs(cols[j], e, a)
    ensures forall j :: 0 <= j < |cols| && cols[j].kind == BlobColumn ==>
              Timestamp in e && Timestamp in a
              && BlobCheck(table, n, cols[j].name, AsText(e[Timestamp]), AsText(a[Timestamp]))
                 in RowEntries(table, n, cols, e, a).value
  {
    var step := Cells(table, n, cols, e, a);
    assert RowEntries(table, n, cols, e, a) == Fold(step, |cols|);
    FoldOk(step, |cols|);
    forall j | 0 <= j < |cols|
      ensures NoMismatch(StepAt(step, j).value) <==> !Differs(cols[j], e, a)
    {
      var c := CellEntries(table, n, cols[j], e, a);
      assert StepAt(step, j) == c && c.Ok?;
      if Differs(cols[j], e, a) {
        assert c.value[0] in c.value && c.value[0].Mismatch?;
      }
    }
    forall j | 0 <= j < |cols| && cols[j].kind == BlobColumn
      ensures Timestamp in e && Timestamp in a
      ensures BlobCheck(table, n, cols[j].name, AsText(e[Timestamp]), AsText(a[Timestamp]))
              in RowEntries(table, n, cols, e, a).value
    {
      assert StepAt(step, j) == CellEntries(table, n, cols[j], e, a);
      FoldPrefixKept(step, j + 1, |cols|);
      assert Fold(step, j + 1).value == Fold(step, j).value + StepAt(step, j).value;
    }
  }

  /** The entries of a run's first m steps stay in the whole run. */
  lemma {:induction false} FoldPrefixKept(step: Step, m: nat, k: nat)
    requires m <= k && Fold(step, k).Ok?
    ensures Fold(step, m).Ok?
    ensures forall x :: x in Fold(step, m).value ==> x in Fold(step, k).value
    decreases k - m
  {
    if m < k {
      FoldPrefixKept(step, m + 1, k);
    }
  }

  /** Every entry of a table's walk names its table and a row counter
      between 1 and the number of row pairs walked. */
  lemma TableRowNumbers(table: string, cols: seq<Column>, es: seq<Row>, acts: seq<Row>, x: Entry)
    requires TableEntries(table, cols, es, acts).Ok? && x in TableEntries(table, cols, es, acts).value
    ensures (x.Mismatch? || x.BlobCheck?) && x.table == table && 1 <= x.row <= Min(|es|, |acts|)
  {
    var step := Rows(table, cols, es, acts);
    assert TableEntries(table, cols, es, acts) == Fold(step, Min(|es|, |acts|));
    FoldMembers(step, Min(|es|, |acts|), x);
    var r :| 0 <= r < Min(|es|, |acts|) && StepAt(step, r).Ok? && x in StepAt(step, r).value;
    assert StepAt(step, r) == RowEntries(table, r + 1, cols, es[r], acts[r]);
    RowNumber(table, r + 1, cols, es[r], acts[r], x);
  }

  /** Every entry of a row pair's comparison carries that pair's number. */
  lemma RowNumber(table: string, n: nat, cols: seq<Column>, e: Row, a: Row, x: Entry)
    requires RowEntries(table, n, cols, e, a).Ok? && x in RowEntries(table, n, cols, e, a).value
    ensures (x.Mismatch? || x.BlobCheck?) && x.table == table && x.row == n
  {
    var step := Cells(table, n, cols, e, a);
    assert RowEntries(table, n, cols, e, a) == Fold(step, |cols|);
    FoldMembers(step, |cols|, x);
    var j :| 0 <= j < |cols| && StepAt(step, j).Ok? && x in StepAt(step, j).value;
    assert StepAt(step, j) == CellEntries(table, n, cols[j], e, a);
  }

  /** A successful walk over two tables reports a mismatch iff some column
      of some walked row pair differs. */
  lemma TableMismatches(table: string, cols: seq<Column>, es: seq<Row>, acts: seq<Row>)
    requires TableEntries(table, cols, es, acts).Ok?
    ensures NoMismatch(TableEntries(table, cols, es, acts).value)
        <==> forall r, j :: 0 <= r < Min(|es|, |acts|) && 0 <= j < |cols| ==> !Differs(cols[j], es[r], acts[r])
  {
    var step := Rows(table, cols, es, acts);
    assert TableEntries(table, cols, es, acts) == Fold(step, Min(|es|, |acts|));
    FoldOk(step, Min(|es|, |acts|));
    forall r | 0 <= r < Min(|es|, |acts|)
      ensures NoMismatch(StepAt(step, r).value) <==> forall j :: 0 <= j < |cols| ==> !Differs(cols[j], es[r], acts[r])
    {
      assert StepAt(step, r) == RowEntries(table, r + 1, cols, es[r], acts[r]);
      RowReport(table, r + 1, cols, es[r], acts[r]);
    }
  }

  /** The data phase over two databases reports a mismatch iff some column
      of some walked row pair of a table whose counts agreed differs. */
  lemma DataMismatches(expected: Database, actual: Database, countPass: seq<bool>)
    requires |countPass| == 3 && DataEntries(expected, actual, countPass).Ok?
    ensures forall i :: 0 <= i < 3 ==> TableNames[i] in expected && TableNames[i] in actual
    ensures NoMismatch(DataEntries(expected, actual, countPass).value)
        <==> forall i, r, j :: 0 <= i < 3 && countPass[i]
               && 0 <= r < Min(|expected[TableNames[i]]|, |actual[TableNames[i]]|) && 0 <= j < |Schema[i]|
               ==> !Differs(Schema[i][j], expected[TableNames[i]][r], actual[TableNames[i]][r])
  {
    var step := Tables(expected, actual, countPass);
    FoldOk(step, 3);
    forall i | 0 <= i < 3
      ensures TableNames[i] in expected && TableNames[i] in actual
      ensures NoMismatch(StepAt(step, i).value)
          <==> (countPass[i] ==>
                 forall r, j :: 0 <= r < Min(|expected[TableNames[i]]|, |actual[TableNames[i]]|) && 0 <= j < |Schema[i]|
                   ==> !Differs(Schema[i][j], expected[TableNames[i]][r], actual[TableNames[i]][r]))
    {
      var t := TableNames[i];
      assert StepAt(step, i) == TableReport(expected, actual, countPass[i], i);
      if countPass[i] {
        TableMismatches(t, Schema[i], expected[t], actual[t]);
      } else {
        assert StepAt(step, i).value == [CountFailed(t)];
      }
    }
  }

  /** Two databases whose compared tables agree column by column on every
      walked row pair pass: the counts that were checked agree and the data
      phase, if it completes, reports no mismatch. */
  lemma MatchingDatabasesPass(expected: Database, actual: Database, countPass: seq<bool>)
    requires |countPass| == 3 && DataEntries(expected, actual, countPass).Ok?
    requires forall i :: 0 <= i < 3 && TableNames[i] in expected && TableNames[i] in actual ==>
               |expected[TableNames[i]]| == |actual[TableNames[i]]|
    requires forall i, r, j :: 0 <= i < 3 && TableNames[i] in expected && TableNames[i] in actual
               && 0 <= r < |expected[TableNames[i]]| && r < |actual[TableNames[i]]| && 0 <= j < |Schema[i]|
               ==> !Differs(Schema[i][j], expected[TableNames[i]][r], actual[TableNames[i]][r])
    ensures forall i :: 0 <= i < 3 ==> Agrees(expected, actual, i)
    ensures NoMismatch(DataEntries(expected, actual, countPass).value)
  {
    DataMismatches(expected, actual, countPass);
  }

  /** Comparing a database with itself: every count agrees and a data
      phase that completes reports no mismatch. */
  lemma SameDatabasePasses(db: Database, countPass: seq<bool>)
    requires |countPass| == 3 && DataEntries(db, db, countPass).Ok?
    ensures forall i :: 0 <= i < 3 ==> Agrees(db, db, i)
    ensures NoMismatch(DataEntries(db, db, countPass).value)
  {
    MatchingDatabasesPass(db, db, countPass);
  }

  /** One more step of a run that has not faulted. */
  lemma FoldNext(step: Step, i: nat, acc: seq<Entry>)
    requires Fold(step, i) == Ok(acc) && StepAt(step, i).Ok?
    ensures Fold(step, i + 1) == Ok(acc + StepAt(step, i).value)
    ensures NoMismatch(acc + StepAt(step, i).value) <==> NoMismatch(acc) && NoMismatch(StepAt(step, i).value)
  {
    NoMismatchConcat(acc, StepAt(step, i).value);
  }

  /** The first step that faults decides the whole run. */
  lemma FoldFault(step: Step, i: nat, k: nat)
    requires i < k && Fold(step, i).Ok? && StepAt(step, i).Err?
    ensures Fold(step, k) == StepAt(step, i)
  {
    FoldErrorPersists(step, i + 1, k);
  }

  lemma NoMismatchConcat(a: seq<Entry>, b: seq<Entry>)
    ensures NoMismatch(a + b) <==> NoMismatch(a) && NoMismatch(b)
  {
    assert forall x :: x in a + b <==> x in a || x in b;
  }

  // ---------------------------------------------------------------------
  // The path arrays

  /* The path arrays are field initialisers. Java runs them before the
     constructor body, and `sourcePath` is still null then (the base class
     never sets it), so every copy source and the first archive path start
     with the text "null". */

  function ComparePathsToClean(s: Gating.Settings): seq<Option<string>> {
    [s.agentLogsDestination, s.logDestination, s.mcmLogFolder, s.agentProgramCache]
  }

  function CompareCopyFrom(): (r: seq<Option<string>>)
    ensures forall i :: 0 <= i < |r| ==> r[i].Some? && |r[i].value| >= 4 && r[i].value[..4] == "null"
  {
    var source := Gating.JavaText(None);
    [Some(source + "Agent Logs"), Some(source + "Logs"), Some(source + "DG"), Some(source + "RCP"),
     Some(source + "RCT")]
  }

  function CompareCopyTo(s: Gating.Settings): seq<Option<string>> {
    [s.agentLogsDestination, s.logDestination, s.mcmLogFolder, s.mcmLogFolder, s.mcmLogFolder]
  }

  function ComparePathsToArchive(s: Gating.Settings): seq<Option<string>> {
    [Some(Gating.JavaText(None) + "Logs"), s.agentProgramCache, Some(Gating.ProjectClientLog(s))]
  }

  /** With the path arrays as the initialisers leave them, the cycle reaches
      neither the copy's work nor the start of the service unless one of the
      "null..." folders exists: it throws `NothingToClean` or `NothingToCopy`. */
  lemma NullSourcesStopCycle(disk: Disk, undeletable: set<string>, listing: Listing, s: Gating.Settings,
                             now: Rebase.Stamp, cal: Rebase.Calendar, archiveDest: string)
    requires forall i :: 0 <= i < |CompareCopyFrom()| ==> !Usable(CompareCopyFrom()[i], disk.present)
    ensures var cycle := CycleResult(disk, undeletable, listing, ComparePathsToClean(s), CompareCopyFrom(),
                                     CompareCopyTo(s), false, now, cal, archiveDest, ComparePathsToArchive(s));
      cycle == Err(NothingToClean) || cycle == Err(NothingToCopy)
  {
  }

  // ---------------------------------------------------------------------
  // The test object

  class SqliteCompareTest {
    const project: Project
    var pass: bool
    const tableCountPass: array<bool>
    var report: seq<Entry>
    /** What is done to the two connections after they are opened. */
    var log: seq<Operation.DbEvent>
    const pathsToClean: seq<Option<string>>
    const copyFrom: seq<Option<string>>
    const copyTo: seq<Option<string>>
    const pathsToArchive: seq<Option<string>>
    const waitTime: int
    /** The canned-log folder; set only after the path arrays were built. */
    const sourcePath: string

    constructor (project: Project, s: Gating.Settings, testData: Record, scenarioName: string)
      ensures this.project == project && pass && report == [] && log == []
      ensures fresh(tableCountPass) && tableCountPass.Length == 3
      ensures forall i :: 0 <= i < 3 ==> tableCountPass[i]
      ensures pathsToClean == ComparePathsToClean(s) && pathsToArchive == ComparePathsToArchive(s)
      ensures copyFrom == CompareCopyFrom() && copyTo == CompareCopyTo(s) && |copyFrom| == |copyTo|
      ensures waitTime == s.waitCollection
      ensures sourcePath == Text(testData, "logsourcefilepart1") + "\\" + scenarioName + "\\"
    {
      this.project := project;
      pass := true;
      tableCountPass := new bool[3](_ => true);
      report := [];
      log := [];
      pathsToClean := ComparePathsToClean(s);
      copyFrom := CompareCopyFrom();
      copyTo := CompareCopyTo(s);
      pathsToArchive := ComparePathsToArchive(s);
      waitTime := s.waitCollection;
      sourcePath := Text(testData, "logsourcefilepart1") + "\\" + scenarioName + "\\";
    }

    /** The count phase: every table is counted, with no early exit; a table
        whose counts differ loses its count pass and clears `pass`. */
    method CountPhase(expected: Database, actual: Database) returns (fault: Option<Fault>)
      requires tableCountPass.Length == 3
      modifies this, tableCountPass
      ensures var spec := CountEntries(expected, actual);
        (fault.Some? <==> spec.Err?) && (spec.Err? ==> fault == Some(spec.error))
        && (spec.Ok? ==>
              report == old(report) + spec.value
              && pass == (old(pass) && forall i :: 0 <= i < 3 ==> Agrees(expected, actual, i))
              && forall i :: 0 <= i < 3 ==> tableCountPass[i] == (old(tableCountPass[i]) && Agrees(expected, actual, i)))
      ensures fault.Some? ==> fault == Some(SqlFault)
      ensures log == old(log)
    {
      var step := Counts(expected, actual);
      ghost var acc: seq<Entry> := [];
      for i := 0 to 3
        invariant Fold(step, i) == Ok(acc)
        invariant report == old(report) + acc
        invariant pass == (old(pass) && forall k :: 0 <= k < i ==> Agrees(expected, actual, k))
        invariant forall k :: 0 <= k < i ==> tableCountPass[k] == (old(tableCountPass[k]) && Agrees(expected, actual, k))
        invariant forall k :: i <= k < 3 ==> tableCountPass[k] == old(tableCountPass[k])
        invariant log == old(log)
      {
        var t := TableNames[i];
        if t !in expected || t !in actual {
          FoldFault(step, i, 3);
          return Some(SqlFault);
        }
        assert StepAt(step, i) == Ok([CountRow(t, |expected[t]|, |actual[t]|)]);
        CountTable(expected, actual, i);
        FoldNext(step, i, acc);
        acc := acc + StepAt(step, i).value;
      }
      return None;
    }

    /** One table of the count phase: both row counts are written, and a
        difference clears the table's count pass and `pass`. */
    method CountTable(expected: Database, actual: Database, i: nat)
      requires i < 3 && tableCountPass.Length == 3
      requires TableNames[i] in expected && TableNames[i] in actual
      modifies this, tableCountPass
      ensures var t := TableNames[i];
        report == old(report) + [CountRow(t, |expected[t]|, |actual[t]|)]
      ensures pass == (old(pass) && Agrees(expected, actual, i))
      ensures tableCountPass[i] == (old(tableCountPass[i]) && Agrees(expected, actual, i))
      ensures forall k :: 0 <= k < 3 && k != i ==> tableCountPass[k] == old(tableCountPass[k])
      ensures log == old(log)
    {
      var t := TableNames[i];
      var expectedCount := |expected[t]|;
      var actualCount := |actual[t]|;
      report := report + [CountRow(t, expectedCount, actualCount)];
      if expectedCount != actualCount {
        tableCountPass[i] := false;
        pass := false;
      }
    }

    /** One row pair: each column in schema order; a differing int or string
        adds a mismatch entry and clears `pass`, a blob column always adds a
        manual-check entry. */
    method CompareRow(table: string, n: nat, cols: seq<Column>, e: Row, a: Row) returns (fault: Option<Fault>)
      modifies this
      ensures var spec := RowEntries(table, n, cols, e, a);
        (fault.Some? <==> spec.Err?) && (spec.Err? ==> fault == Some(spec.error))
        && (spec.Ok? ==> report == old(report) + spec.value && pass == (old(pass) && NoMismatch(spec.value)))
      ensures log == old(log)
    {
      var step := Cells(table, n, cols, e, a);
      ghost var acc: seq<Entry> := [];
      for j := 0 to |cols|
        invariant Fold(step, j) == Ok(acc)
        invariant report == old(report) + acc
        invariant pass == (old(pass) && NoMismatch(acc))
        invariant log == old(log)
      {
        assert StepAt(step, j) == CellEntries(table, n, cols[j], e, a);
        fault := CompareCell(table, n, cols[j], e, a);
        if fault.Some? {
          FoldFault(step, j, |cols|);
          return;
        }
        FoldNext(step, j, acc);
        acc := acc + StepAt(step, j).value;
      }
      return None;
    }

    /** One column of a row pair: an int compared with `getInt`, a string
        with `equals` on the expected value, a blob never compared. */
    method CompareCell(table: string, n: nat, col: Column, e: Row, a: Row) returns (fault: Option<Fault>)
      modifies this
      ensures var spec := CellEntries(table, n, col, e, a);
        (fault.Some? <==> spec.Err?) && (spec.Err? ==> fault == Some(spec.error))
        && (spec.Ok? ==> report == old(report) + spec.value && pass == (old(pass) && NoMismatch(spec.value)))
      ensures log == old(log)
    {
      if col.kind == IntColumn || col.kind == StringColumn {
        if col.name !in e || col.name !in a {
          return Some(SqlFault);
        }
        if col.kind == StringColumn && e[col.name].Null? {
          return Some(NullFault);
        }
        var differs := if col.kind == IntColumn then AsInt(e[col.name]) != AsInt(a[col.name])
                       else AsText(e[col.name]) != AsText(a[col.name]);
        if differs {
          if Timestamp !in e || Timestamp !in a {
            return Some(SqlFault);
          }
          var entry := Mismatch(table, n, col.name, AsText(e[col.name]), AsText(e[Timestamp]),
                                AsText(a[col.name]), AsText(a[Timestamp]));
          report := report + [entry];
          pass := false;
          assert entry in [entry];
        }
      } else {
        if Timestamp !in e || Timestamp !in a {
          return Some(SqlFault);
        }
        report := report + [BlobCheck(table, n, col.name, AsText(e[Timestamp]), AsText(a[Timestamp]))];
      }
      return None;
    }

    /** The lockstep walk over one table, with a row counter from 1. */
    method CompareTable(table: string, cols: seq<Column>, es: seq<Row>, acts: seq<Row>) returns (fault: Option<Fault>)
      modifies this
      ensures var spec := TableEntries(table, cols, es, acts);
        (fault.Some? <==> spec.Err?) && (spec.Err? ==> fault == Some(spec.error))
        && (spec.Ok? ==> report == old(report) + spec.value && pass == (old(pass) && NoMismatch(spec.value)))
      ensures log == old(log)
    {
      var step := Rows(table, cols, es, acts);
      ghost var acc: seq<Entry> := [];
      var counter := 1;
      var r := 0;
      while r < |es| && r < |acts|
        invariant 0 <= r <= Min(|es|, |acts|) && counter == r + 1
        invariant Fold(step, r) == Ok(acc)
        invariant report == old(report) + acc
        invariant pass == (old(pass) && NoMismatch(acc))
        invariant log == old(log)
      {
        assert StepAt(step, r) == RowEntries(table, counter, cols, es[r], acts[r]);
        fault := CompareRow(table, counter, cols, es[r], acts[r]);
        if fault.Some? {
          FoldFault(step, r, Min(|es|, |acts|));
          return;
        }
        FoldNext(step, r, acc);
        acc := acc + StepAt(step, r).value;
        counter := counter + 1;
        r := r + 1;
      }
      assert r == Min(|es|, |acts|);
      assert TableEntries(table, cols, es, acts) == Ok(acc);
      return None;
    }

    /** Table `i` of the data phase, given its count verdict. */
    method DataTable(expected: Database, actual: Database, countPass: seq<bool>, i: nat) returns (fault: Option<Fault>)
      requires i < 3 && |countPass| == 3
      modifies this
      ensures var spec := TableReport(expected, actual, countPass[i], i);
        (fault.Some? <==> spec.Err?) && (spec.Err? ==> fault == Some(spec.error))
        && (spec.Ok? ==> report == old(report) + spec.value && pass == (old(pass) && NoMismatch(spec.value)))
      ensures log == old(log)
    {
      var t := TableNames[i];
      if t !in expected || t !in actual {
        return Some(SqlFault);
      }
      if countPass[i] {
        fault := CompareTable(t, Schema[i], expected[t], actual[t]);
      } else {
        report := report + [CountFailed(t)];
        fault := None;
      }
    }

    /** The data phase: tables whose counts agreed are walked, each other
        table reports one "count failed" entry. */
    method DataPhase(expected: Database, actual: Database) returns (fault: Option<Fault>)
      requires tableCountPass.Length == 3
      modifies this
      ensures var spec := DataEntries(expected, actual, tableCountPass[..]);
        (fault.Some? <==> spec.Err?) && (spec.Err? ==> fault == Some(spec.error))
        && (spec.Ok? ==> report == old(report) + spec.value && pass == (old(pass) && NoMismatch(spec.value)))
      ensures log == old(log)
    {
      var countPass := tableCountPass[..];
      var step := Tables(expected, actual, countPass);
      ghost var acc: seq<Entry> := [];
      for i := 0 to 3
        invariant Fold(step, i) == Ok(acc)
        invariant report == old(report) + acc
        invariant pass == (old(pass) && NoMismatch(acc))
        invariant log == old(log)
      {
        assert StepAt(step, i) == TableReport(expected, actual, countPass[i], i);
        fault := DataTable(expected, actual, countPass, i);
        if fault.Some? {
          FoldFault(step, i, 3);
          return;
        }
        FoldNext(step, i, acc);
        acc := acc + StepAt(step, i).value;
      }
      assert DataEntries(expected, actual, countPass) == Ok(acc);
      return None;
    }

    /** Both phases, then `assertTrue(pass)`; the two statements and
        connections are closed on every exit. */
    method Compare(expected: Database, actual: Database) returns (outcome: CompareOutcome)
      requires tableCountPass.Length == 3
      modifies this, tableCountPass
      ensures log == old(log) + Operation.Cleanup + Operation.Cleanup
      ensures var counts := CountEntries(expected, actual);
        counts.Err? ==> outcome == SqlErrorRaised
      ensures var counts := CountEntries(expected, actual);
        counts.Ok? ==> forall i :: 0 <= i < 3 ==>
          tableCountPass[i] == (old(tableCountPass[i]) && Agrees(expected, actual, i))
      ensures var counts := CountEntries(expected, actual);
        var data := DataEntries(expected, actual, tableCountPass[..]);
        counts.Ok? && data.Err? ==> outcome == (if data.error == SqlFault then SqlErrorRaised else NullPointer)
      ensures var counts := CountEntries(expected, actual);
        var data := DataEntries(expected, actual, tableCountPass[..]);
        counts.Ok? && data.Ok? ==>
          report == old(report) + counts.value + data.value
          && pass == (old(pass) && (forall i :: 0 <= i < 3 ==> Agrees(expected, actual, i)) && NoMismatch(data.value))
          && outcome == (if pass then Passed else AssertionFailed)
    {
      var fault := CountPhase(expected, actual);
      if fault.None? {
        fault := DataPhase(expected, actual);
      }
      log := log + Operation.Cleanup + Operation.Cleanup;
      if fault == Some(SqlFault) {
        return SqlErrorRaised;
      } else if fault == Some(NullFault) {
        return NullPointer;
      }
      return if pass then Passed else AssertionFailed;
    }

    /** `runAction`: the service cycle (without rebasing), then the
        comparison. A cycle that throws leaves the connections unclosed,
        since it runs before the `try`. */
    method RunAction(archiveDest: string, now: Rebase.Stamp, cal: Rebase.Calendar, expected: Database,
                     actual: Database)
      returns (outcome: CompareOutcome)
      requires |copyFrom| == |copyTo| && tableCountPass.Length == 3
      modifies this, tableCountPass, project
      ensures StopsAfter(old(project.trace), project.trace)
      ensures outcome.StagingFailed? <==> !exists c, d :: CyclePhases(project.trace, |old(project.trace)|, c, d, waitTime)
      ensures var cycle := CycleResult(old(project.disk), project.undeletable, project.listing, pathsToClean, copyFrom,
                                       copyTo, false, now, cal, archiveDest, pathsToArchive);
        (outcome.StagingFailed? <==> cycle.Err?)
        && (outcome.StagingFailed? ==> outcome.error == cycle.error)
        && (!outcome.StagingFailed? ==> project.disk == cycle.value)
      ensures outcome.StagingFailed? ==> log == old(log) && report == old(report) && pass == old(pass)
      ensures !outcome.StagingFailed? ==> log == old(log) + Operation.Cleanup + Operation.Cleanup
      ensures var counts := CountEntries(expected, actual);
        var data := DataEntries(expected, actual, tableCountPass[..]);
        !outcome.StagingFailed? && counts.Ok? && data.Ok? ==>
          report == old(report) + counts.value + data.value
          && pass == (old(pass) && (forall i :: 0 <= i < 3 ==> Agrees(expected, actual, i)) && NoMismatch(data.value))
          && outcome == (if pass then Passed else AssertionFailed)
    {
      var staged := project.PerformProjectAction(waitTime, pathsToClean, copyFrom, copyTo, archiveDest,
                                                 pathsToArchive, false, now, cal);
      if staged.Err? {
        return StagingFailed(staged.error);
      }
      outcome := Compare(expected, actual);
    }
  }
}

=== FILE: excel.dfy ===
/**
  The reading side of the spreadsheet handler: which workbook a test type
  lives in, how the global "Test Data" sheet becomes one record, and how each
  row of a test-case sheet becomes one record keyed by its normalised column
  title. The spreadsheet itself is an input value: the header cells that the
  row iterator yields, and for each later row either nothing (a row the sheet
  does not define) or its cells up to the last one, each present or null.
*/
module Excel {
  import opened Records

  datatype ExcelError =
    | InvalidArgument        // an unknown test type
    | NullRow                // a row between 1 and lastRowNum that the sheet does not define
    | NoTitle(column: nat)   // a non-null cell right of the last title cell
    | MissingCell(row: nat)  // NullPointerException: a global-data row without cell 0 or 1

  type Cells = seq<Option<string>>

  datatype Sheet = Sheet(header: seq<string>, rows: seq<Option<Cells>>)

  /** The workbook that holds the sheet of a test type. */
  function WorkbookFor(kind: string): (r: Result<string, ExcelError>)
    ensures r.Ok? <==> kind in ["DataCollection Tests", "DataPush Tests", "Purge Tests"]
    ensures r.Err? ==> r.error == InvalidArgument
  {
    if kind == "DataCollection Tests" then Ok("/Tests/DataCollectionTests.xlsx")
    else if kind == "DataPush Tests" then Ok("/Tests/DataPushTests.xlsx")
    else if kind == "Purge Tests" then Ok("/Tests/PurgeTests.xlsx")
    else Err(InvalidArgument)
  }

  /** The column titles of a test-case sheet, each normalised. */
  function Titles(header: seq<string>): (t: seq<string>)
    ensures |t| == |header|
  {
    seq(|header|, j requires 0 <= j < |header| => NormaliseKey(header[j]))
  }

  /** The (title, text) pairs `put` into a row's map, in column order; the
      first non-null cell without a title raises. */
  function CellPairs(titles: seq<string>, cells: Cells): Result<seq<(string, string)>, ExcelError> {
    if cells == [] then Ok([])
    else
      var n := |cells| - 1;
      var front := CellPairs(titles, cells[..n]);
      if front.Err? then front
      else if cells[n].None? then front
      else if n >= |titles| then Err(NoTitle(n))
      else Ok(front.value + [(titles[n], cells[n].value)])
  }

  /** The record one row becomes. */
  function RowRecord(titles: seq<string>, row: Option<Cells>): Result<Record, ExcelError> {
    if row.None? then Err(NullRow)
    else
      var pairs := CellPairs(titles, row.value);
      if pairs.Err? then Err(pairs.error) else Ok(Assign(pairs.value))
  }

  /** Once a prefix of the cells has raised, the whole row raises the same. */
  lemma {:induction false} ErrorPersists(titles: seq<string>, cells: Cells, m: nat)
    requires m <= |cells| && CellPairs(titles, cells[..m]).Err?
    ensures CellPairs(titles, cells) == CellPairs(titles, cells[..m])
    decreases |cells| - m
  {
    if m < |cells| {
      assert cells[..m + 1][..m] == cells[..m];
      ErrorPersists(titles, cells, m + 1);
    } else {
      assert cells[..m] == cells;
    }
  }

  /** A row is readable iff every non-null cell has a title. */
  lemma {:induction false} CellPairsOk(titles: seq<string>, cells: Cells)
    ensures CellPairs(titles, cells).Ok?
        <==> forall j :: 0 <= j < |cells| && cells[j].Some? ==> j < |titles|
  {
    if cells != [] {
      var n := |cells| - 1;
      CellPairsOk(titles, cells[..n]);
      assert forall j :: 0 <= j < n ==> cells[..n][j] == cells[j];
    }
  }

  /** A null cell adds no key: the record's keys are exactly the titles of the
      non-null cells. */
  lemma {:induction false} RowRecordKeys(titles: seq<string>, cells: Cells, k: string)
    requires CellPairs(titles, cells).Ok?
    ensures k in Assign(CellPairs(titles, cells).value)
        <==> exists j :: 0 <= j < |cells| && cells[j].Some? && j < |titles| && titles[j] == k
  {
    if cells != [] {
      var n := |cells| - 1;
      RowRecordKeys(titles, cells[..n], k);
      assert forall j :: 0 <= j < n ==> cells[..n][j] == cells[j];
      var front := CellPairs(titles, cells[..n]).value;
      if cells[n].Some? {
        assert Assign(front + [(titles[n], cells[n].value)]) == Assign(front)[titles[n] := cells[n].value] by {
          assert (front + [(titles[n], cells[n].value)])[..|front|] == front;
        }
      }
    }
  }

  /** Two columns whose titles normalise alike: the later non-null cell wins. */
  lemma {:induction false} RowRecordLastWins(titles: seq<string>, cells: Cells, j: nat)
    requires CellPairs(titles, cells).Ok?
    requires j < |cells| && j < |titles| && cells[j].Some?
    requires forall i :: j < i < |cells| && i < |titles| && cells[i].Some? ==> titles[i] != titles[j]
    ensures titles[j] in Assign(CellPairs(titles, cells).value)
    ensures Assign(CellPairs(titles, cells).value)[titles[j]] == cells[j].value
  {
    var n := |cells| - 1;
    var front := CellPairs(titles, cells[..n]).value;
    if cells[n].Some? {
      assert Assign(front + [(titles[n], cells[n].value)]) == Assign(front)[titles[n] := cells[n].value] by {
        assert (front + [(titles[n], cells[n].value)])[..|front|] == front;
      }
    }
    if j < n {
      assert forall i :: 0 <= i < n ==> cells[..n][i] == cells[i];
      RowRecordLastWins(titles, cells[..n], j);
    }
  }

  /** getOperationTestCases: one record per sheet row 1..lastRowNum, in row
      order; an unknown type raises InvalidArgument before anything is read,
      and otherwise the first row that cannot be read raises. */
  method GetOperationTestCases(kind: string, sheet: Sheet) returns (r: Result<seq<Record>, ExcelError>)
    ensures WorkbookFor(kind).Err? ==> r == Err(InvalidArgument)
    ensures r.Ok? <==> (WorkbookFor(kind).Ok? &&
                        forall i :: 0 <= i < |sheet.rows| ==> RowRecord(Titles(sheet.header), sheet.rows[i]).Ok?)
    ensures r.Ok? ==> (|r.value| == |sheet.rows| &&
                       forall i :: 0 <= i < |sheet.rows| ==> Ok(r.value[i]) == RowRecord(Titles(sheet.header), sheet.rows[i]))
    ensures r.Err? && WorkbookFor(kind).Ok? ==>
              exists i :: 0 <= i < |sheet.rows| && RowRecord(Titles(sheet.header), sheet.rows[i]) == Err(r.error)
                          && forall k :: 0 <= k < i ==> RowRecord(Titles(sheet.header), sheet.rows[k]).Ok?
  {
    var file := WorkbookFor(kind);
    if file.Err? {
      return Err(InvalidArgument);
    }
    var titles: seq<string> := [];
    for j := 0 to |sheet.header|
      invariant titles == Titles(sheet.header)[..j]
    {
      titles := titles + [NormaliseKey(sheet.header[j])];
    }
    assert titles == Titles(sheet.header);
    var cases: seq<Record> := [];
    for i := 0 to |sheet.rows|
      invariant |cases| == i
      invariant forall k :: 0 <= k < i ==> Ok(cases[k]) == RowRecord(titles, sheet.rows[k])
    {
      var row := ReadRow(titles, sheet.rows[i]);
      if row.Err? {
        return Err(row.error);
      }
      cases := cases + [row.value];
    }
    return Ok(cases);
  }

  /** One row of a test-case sheet: each non-null cell is put under its
      column's title, left to right. */
  method ReadRow(titles: seq<string>, row: Option<Cells>) returns (r: Result<Record, ExcelError>)
    ensures r == RowRecord(titles, row)
  {
    if row.None? {
      return Err(NullRow);
    }
    var cells := row.value;
    var testCase: Record := map[];
    ghost var pairs: seq<(string, string)> := [];
    for j := 0 to |cells|
      invariant CellPairs(titles, cells[..j]) == Ok(pairs)
      invariant testCase == Assign(pairs)
    {
      assert cells[..j + 1][..j] == cells[..j];
      if cells[j].Some? {
        if j >= |titles| {
          ErrorPersists(titles, cells, j + 1);
          return Err(NoTitle(j));
        }
        testCase := testCase[titles[j] := cells[j].value];
        assert (pairs + [(titles[j], cells[j].value)])[..|pairs|] == pairs;
        pairs := pairs + [(titles[j], cells[j].value)];
      }
    }
    assert cells[..|cells|] == cells;
    return Ok(testCase);
  }

  /** A row of the global sheet that `getTestData` can read: it has a cell 0
      and a cell 1. */
  predicate HasKeyAndValue(row: Cells) {
    |row| >= 2 && row[0].Some? && row[1].Some?
  }

  /** The (normalised key, value) pairs of the global sheet's rows. */
  function TestDataPairs(rows: seq<Cells>): (p: seq<(string, string)>)
    requires forall i :: 0 <= i < |rows| ==> HasKeyAndValue(rows[i])
    ensures |p| == |rows|
  {
    seq(|rows|, i requires 0 <= i < |rows| && HasKeyAndValue(rows[i]) =>
      (StripWhitespace(Lower(rows[i][0].value)), rows[i][1].value))
  }

  /** Every key of the global test data is normalised. */
  lemma TestDataKeysNormalised(rows: seq<Cells>)
    requires forall i :: 0 <= i < |rows| ==> HasKeyAndValue(rows[i])
    ensures forall k :: k in Assign(TestDataPairs(rows)) ==>
      forall c :: 0 <= c < |k| ==> !IsWhitespace(k[c]) && !IsUpper(k[c])
  {
    var pairs := TestDataPairs(rows);
    forall k | k in Assign(pairs)
      ensures forall c :: 0 <= c < |k| ==> !IsWhitespace(k[c]) && !IsUpper(k[c])
    {
      AssignKeys(pairs, k);
      var i :| 0 <= i < |pairs| && pairs[i].0 == k;
      NormaliseOrderIrrelevant(rows[i][0].value);
    }
  }

  /** getTestData: each row of the global sheet puts (normalised title,
      value); a later row with the same normalised title overwrites the
      earlier one; the first row without a cell 0 or 1 raises. */
  method GetTestData(rows: seq<Cells>) returns (r: Result<Record, ExcelError>)
    ensures r.Ok? <==> forall i :: 0 <= i < |rows| ==> HasKeyAndValue(rows[i])
    ensures r.Err? ==> r.error.MissingCell? && r.error.row < |rows| && !HasKeyAndValue(rows[r.error.row])
                       && forall i :: 0 <= i < r.error.row ==> HasKeyAndValue(rows[i])
    ensures r.Ok? ==> r.value == Assign(TestDataPairs(rows))
    ensures r.Ok? ==> forall k :: k in r.value ==> forall c :: 0 <= c < |k| ==> !IsWhitespace(k[c]) && !IsUpper(k[c])
  {
    ghost var pairs: seq<(string, string)> := [];
    var data: Record := map[];
    for i := 0 to |rows|
      invariant forall j :: 0 <= j < i ==> HasKeyAndValue(rows[j])
      invariant pairs == TestDataPairs(rows[..i])
      invariant data == Assign(pairs)
    {
      if |rows[i]| < 2 || rows[i][0].None? || rows[i][1].None? {
        return Err(MissingCell(i));
      }
      var key := StripWhitespace(Lower(rows[i][0].value));
      assert (pairs + [(key, rows[i][1].value)])[..i] == pairs;
      assert TestDataPairs(rows[..i + 1]) == pairs + [(key, rows[i][1].value)];
      data := data[key := rows[i][1].value];
      pairs := pairs + [(key, rows[i][1].value)];
    }
    assert rows[..|rows|] == rows;
    TestDataKeysNormalised(rows);
    return Ok(data);
  }
}

=== FILE: gating.dfy ===
/**
  The two service-driven test types. A data-collection case and a data-push
  case each run only when their record says "include"; when it names a log
  source folder they first drive one service cycle over their fixed path
  arrays, and then verify the database in their own dialect (SQLite for
  collection, MySQL for push). The fields TestBase reads from the global
  test data are given as `Settings`; the archive folder name, which is built
  from the working directory and the clock, is a parameter.
*/
module Gating {
  import opened Records
  import opened Sql
  import opened Operation
  import opened Rebase
  import opened Staging

  datatype TestKind = DataCollection | DataPush

  /** The paths and waits a TestBase holds; `None` is a null field. */
  datatype Settings = Settings(
    agentProgramCache: Option<string>,
    agentLogsDestination: Option<string>,
    logDestination: Option<string>,
    mcmLogFolder: Option<string>,
    waitCollection: int,
    waitPush: int)

  /** How `runAction` ends. */
  datatype RunOutcome =
    | NotIncluded                    // `pass = false` and a JUnit `fail`
    | StagingFailed(error: StageError)
    | Verified(outcome: Outcome)

  /** A possibly null string inside a Java concatenation. */
  function JavaText(s: Option<string>): string {
    if s.None? then "null" else s.value
  }

  /** The service's own log folder, next to its cache. */
  function ProjectClientLog(s: Settings): string {
    JavaText(s.agentProgramCache) + "/../Logs"
  }

  /** The canned-log folder of a case that names one. */
  function SourcePath(testData: Record, test: Record): string {
    Text(testData, "logsourcefilepart1") + Text(test, "logsourcepathpart2") + "/"
  }

  function CleanPaths(s: Settings): seq<Option<string>> {
    [s.agentLogsDestination, s.logDestination, s.mcmLogFolder, s.agentProgramCache, Some(ProjectClientLog(s))]
  }

  function CopyFrom(kind: TestKind, source: string): seq<Option<string>> {
    match kind
    case DataCollection =>
      [Some(source + "Agent Logs"), Some(source + "Logs"), Some(source + "DG"), Some(source + "RCP"),
       Some(source + "RCT")]
    case DataPush => [Some(source + "SQLite Files/project.sqlite")]
  }

  /** The destinations, paired by position with `CopyFrom`. */
  function CopyTo(kind: TestKind, s: Settings, source: string): (r: seq<Option<string>>)
    ensures |r| == |CopyFrom(kind, source)|
  {
    match kind
    case DataCollection => [s.agentLogsDestination, s.logDestination, s.mcmLogFolder, s.mcmLogFolder, s.mcmLogFolder]
    case DataPush => [s.agentProgramCache]
  }

  function ArchivePaths(kind: TestKind, s: Settings): seq<Option<string>> {
    match kind
    case DataCollection =>
      [s.logDestination, s.agentLogsDestination, s.mcmLogFolder, s.agentProgramCache, Some(ProjectClientLog(s))]
    case DataPush => [s.agentProgramCache, Some(ProjectClientLog(s))]
  }

  function DialectOf(kind: TestKind): string {
    match kind
    case DataCollection => "sqlite"
    case DataPush => "mysql"
  }

  function WaitOf(kind: TestKind, s: Settings): int {
    match kind
    case DataCollection => s.waitCollection
    case DataPush => s.waitPush
  }

  class ServiceTest {
    const kind: TestKind
    const operation: OperationTest
    const project: Project
    const pathsToClean: seq<Option<string>>
    const copyFrom: seq<Option<string>>
    const copyTo: seq<Option<string>>
    const pathsToArchive: seq<Option<string>>
    const waitTime: int
    const updateLogFileDates: bool

    /** The path arrays and the rebasing flag fixed at construction; only a
        data-collection case rebases, and only when its record asks. */
    constructor (kind: TestKind, operation: OperationTest, project: Project, s: Settings, testData: Record)
      ensures this.kind == kind && this.operation == operation && this.project == project
      ensures pathsToClean == CleanPaths(s) && pathsToArchive == ArchivePaths(kind, s)
      ensures copyFrom == CopyFrom(kind, SourcePath(testData, operation.test.data))
      ensures copyTo == CopyTo(kind, s, SourcePath(testData, operation.test.data))
      ensures |copyFrom| == |copyTo|
      ensures waitTime == WaitOf(kind, s)
      ensures updateLogFileDates <==> kind == DataCollection && Present(operation.test.data, "updatedatesinlogs")
    {
      this.kind := kind;
      this.operation := operation;
      this.project := project;
      var source := SourcePath(testData, operation.test.data);
      pathsToClean := CleanPaths(s);
      copyFrom := CopyFrom(kind, source);
      copyTo := CopyTo(kind, s, source);
      pathsToArchive := ArchivePaths(kind, s);
      waitTime := WaitOf(kind, s);
      updateLogFileDates := kind == DataCollection && Present(operation.test.data, "updatedatesinlogs");
    }

    /** `runAction`: a case without "include" fails untouched; a case with a
        log source drives the service cycle first, and a cycle that throws
        ends the case before the database is read; otherwise the database is
        verified in this type's dialect. */
    method RunAction(archiveDest: string, reply: nat -> DbReply, round: string -> int, now: Stamp, cal: Calendar)
      returns (result: RunOutcome)
      requires |copyFrom| == |copyTo|
      modifies operation, project
      ensures var data := operation.test.data;
        !Present(data, "include") ==>
          result == NotIncluded && !operation.pass && operation.log == old(operation.log)
          && project.trace == old(project.trace) && project.disk == old(project.disk)
      ensures var data := operation.test.data;
        Present(data, "include") && !Present(data, "logsourcepathpart2") ==>
          result.Verified? && project.trace == old(project.trace) && project.disk == old(project.disk)
      ensures var data := operation.test.data;
        Present(data, "include") && Present(data, "logsourcepathpart2") ==>
          StopsAfter(old(project.trace), project.trace)
          && (result.StagingFailed? <==> !exists c, d :: CyclePhases(project.trace, |old(project.trace)|, c, d, waitTime))
          && (var cycle := CycleResult(old(project.disk), project.undeletable, project.listing, pathsToClean, copyFrom,
                                       copyTo, updateLogFileDates, now, cal, archiveDest, pathsToArchive);
              (result.StagingFailed? <==> cycle.Err?)
              && (result.StagingFailed? ==> result.error == cycle.error)
              && (!result.StagingFailed? ==> project.disk == cycle.value))
      ensures result.StagingFailed? ==>
                operation.pass == old(operation.pass) && operation.log == old(operation.log)
      ensures result.Verified? && operation.test.actionType == "INSERT" ==>
                operation.InsertVerdict(InsertSql(operation.test), old(operation.pass), old(operation.log), reply,
                                        result.outcome)
      ensures result.Verified? && operation.test.actionType == "SELECT" ==>
                operation.SelectVerdict(DialectOf(kind), old(operation.log), reply, result.outcome)
      ensures result.Verified? && operation.test.actionType == "CLEAR" ==>
                operation.ClearVerdict(DialectOf(kind), round, old(operation.pass), old(operation.log), reply,
                                       result.outcome)
      ensures result.Verified? && kind == DataPush && operation.test.actionType == "CLEAR"
              && !Present(operation.test.data, "nodeid") ==>
                result.outcome == AssertionFailed && operation.pass == old(operation.pass)
    {
      var data := operation.test.data;
      if !Present(data, "include") {
        operation.pass := false;
        return NotIncluded;
      }
      if Present(data, "logsourcepathpart2") {
        var staged := project.PerformProjectAction(waitTime, pathsToClean, copyFrom, copyTo, archiveDest,
                                                   pathsToArchive, updateLogFileDates, now, cal);
        if staged.Err? {
          return StagingFailed(staged.error);
        }
      }
      var outcome := operation.InnerRunAction(DialectOf(kind), reply, round);
      return Verified(outcome);
    }
  }
}

=== FILE: operation.dfy ===
/**
  Running one operation test case against a database connection: the
  statement is built, executed, and the case's `pass` flag is set from what
  the database returns. The connection is an oracle: `reply(i)` is what the
  i-th statement executed on it returns. A reply of the wrong kind for the
  call (a result set for an update, an update count for a query) is what JDBC
  reports as an SQLException, as is `SqlError` itself.
*/
module Operation {
  import opened Records
  import opened Sql

  datatype DbReply = Updated(count: int) | Rows(rows: nat) | SqlError

  /** What the test does to the connection, in order. */
  datatype DbEvent = Execute(sql: string) | CloseStatement | Commit | CloseConnection

  /** How `innerRunAction` ends: normally, with a JUnit assertion error, or
      with the SQLException rethrown. */
  datatype Outcome = Completed | AssertionFailed | SqlErrorRaised

  /** The `finally` block: run on every exit path. */
  const Cleanup: seq<DbEvent> := [CloseStatement, Commit, CloseConnection]

  function Executions(sql: string, k: nat): (es: seq<DbEvent>)
    ensures |es| == k && forall j :: 0 <= j < k ==> es[j] == Execute(sql)
  {
    seq(k, _ => Execute(sql))
  }

  /** The number of times a loop `for (i = 0; i < n; i++)` runs. */
  function Times(n: int): nat {
    if n <= 0 then 0 else n
  }

  /** The index of the first of the first `n` replies that is not an update
      count, or `n` when there is none. */
  function FirstError(reply: nat -> DbReply, n: nat): (k: nat)
    ensures k <= n
    ensures forall j :: 0 <= j < k ==> reply(j).Updated?
    ensures k < n ==> !reply(k).Updated?
  {
    FirstErrorFrom(reply, 0, n)
  }

  function FirstErrorFrom(reply: nat -> DbReply, i: nat, n: nat): (k: nat)
    requires i <= n
    requires forall j :: 0 <= j < i ==> reply(j).Updated?
    ensures i <= k <= n
    ensures forall j :: 0 <= j < k ==> reply(j).Updated?
    ensures k < n ==> !reply(k).Updated?
    decreases n - i
  {
    if i == n || !reply(i).Updated? then i else FirstErrorFrom(reply, i + 1, n)
  }

  class OperationTest {
    const test: OpCase
    var pass: bool
    var log: seq<DbEvent>

    /** A constructed case starts passing, with nothing done on the connection. */
    constructor (c: OpCase)
      ensures test == c && pass && log == []
    {
      test := c;
      pass := true;
      log := [];
    }

    /** `innerRunAction`: dispatch on the action type; the cleanup events end
        the log on every path. */
    method InnerRunAction(dialect: string, reply: nat -> DbReply, round: string -> int) returns (outcome: Outcome)
      modifies this
      ensures test.actionType == "INSERT" ==> InsertVerdict(InsertSql(test), old(pass), old(log), reply, outcome)
      ensures test.actionType == "SELECT" ==> SelectVerdict(dialect, old(log), reply, outcome)
      ensures test.actionType == "CLEAR" ==> ClearVerdict(dialect, round, old(pass), old(log), reply, outcome)
      ensures !(test.actionType in ["INSERT", "SELECT", "CLEAR"]) ==>
                outcome == Completed && pass == old(pass) && log == old(log) + Cleanup
      ensures outcome == SqlErrorRaised ==> !pass
    {
      if test.actionType == "INSERT" {
        var sql := ConcatInsert(test);
        outcome := RunInsert(reply, sql);
      } else if test.actionType == "SELECT" {
        outcome := RunSelect(dialect, reply);
      } else if test.actionType == "CLEAR" {
        outcome := RunClear(dialect, reply, round);
      } else {
        outcome := Completed;
        log := log + Cleanup;
      }
    }

    /** INSERT: the statement runs `numberOfRows` times before any check; an
        SQLException at the k-th run stops there and fails the case; otherwise
        the case passes iff every run returned 1, and the first other count
        raises the assertion error. With no run at all, `pass` is untouched. */
    ghost predicate InsertVerdict(sql: string, pass0: bool, log0: seq<DbEvent>, reply: nat -> DbReply, outcome: Outcome)
      reads this
    {
      var n := Times(test.numberOfRows);
      var k := FirstError(reply, n);
      (k < n ==> outcome == SqlErrorRaised && !pass && log == log0 + Executions(sql, k + 1) + Cleanup)
      && (k == n ==> log == log0 + Executions(sql, n) + Cleanup)
      && (k == n && (exists j :: 0 <= j < n && reply(j).count != 1) ==> outcome == AssertionFailed && !pass)
      && (k == n && (forall j :: 0 <= j < n ==> reply(j).count == 1) ==> outcome == Completed && pass == (n > 0 || pass0))
    }

    /** SELECT: one query; the case passes iff it returns `numberOfRows` rows. */
    ghost predicate SelectVerdict(dialect: string, log0: seq<DbEvent>, reply: nat -> DbReply, outcome: Outcome)
      reads this
    {
      log == log0 + [Execute(SelectSql(test, dialect))] + Cleanup
      && (reply(0).Rows? ==>
            pass == (reply(0).rows == test.numberOfRows) && outcome == (if pass then Completed else AssertionFailed))
      && (!reply(0).Rows? ==> outcome == SqlErrorRaised && !pass)
    }

    /** CLEAR: a mysql case without a node id fails before anything is executed
        and leaves `pass` alone; otherwise one delete runs and the case passes
        iff it deleted nothing. No assertion is made either way. */
    ghost predicate ClearVerdict(dialect: string, round: string -> int, pass0: bool, log0: seq<DbEvent>,
                                 reply: nat -> DbReply, outcome: Outcome)
      reads this
    {
      var clear := ClearSql(test, dialect, round);
      (clear.Err? ==> outcome == AssertionFailed && pass == pass0 && log == log0 + Cleanup)
      && (clear.Ok? ==> log == log0 + [Execute(clear.value)] + Cleanup)
      && (clear.Ok? && reply(0).Updated? ==> outcome == Completed && pass == (reply(0).count == 0))
      && (clear.Ok? && !reply(0).Updated? ==> outcome == SqlErrorRaised && !pass)
    }

    /** The INSERT branch, given the statement `concatInsert` built. */
    method RunInsert(reply: nat -> DbReply, sql: string) returns (outcome: Outcome)
      modifies this
      ensures InsertVerdict(sql, old(pass), old(log), reply, outcome)
      ensures outcome == SqlErrorRaised ==> !pass
    {
      var n := Times(test.numberOfRows);
      var returnVals: seq<int> := [];
      ghost var log0 := log;
      var i := 0;
      while i < test.numberOfRows
        invariant 0 <= i <= n && |returnVals| == i
        invariant forall j :: 0 <= j < i ==> reply(j).Updated? && returnVals[j] == reply(j).count
        invariant log == log0 + Executions(sql, i)
        invariant pass == old(pass)
      {
        log := log + [Execute(sql)];
        var r := reply(i);
        if !r.Updated? {
          assert FirstError(reply, n) == i;
          assert Executions(sql, i) + [Execute(sql)] == Executions(sql, i + 1);
          pass := false;
          log := log + Cleanup;
          return SqlErrorRaised;
        }
        returnVals := returnVals + [r.count];
        assert Executions(sql, i) + [Execute(sql)] == Executions(sql, i + 1);
        i := i + 1;
      }
      assert FirstError(reply, n) == n;
      i := 0;
      while i < test.numberOfRows
        invariant 0 <= i <= n
        invariant forall j :: 0 <= j < i ==> returnVals[j] == 1
        invariant pass == (i > 0 || old(pass))
        invariant log == log0 + Executions(sql, n)
      {
        pass := returnVals[i] == 1;
        if !pass {
          log := log + Cleanup;
          return AssertionFailed;
        }
        i := i + 1;
      }
      log := log + Cleanup;
      return Completed;
    }

    method RunSelect(dialect: string, reply: nat -> DbReply) returns (outcome: Outcome)
      modifies this
      ensures SelectVerdict(dialect, old(log), reply, outcome)
    {
      var sql := ConcatSelect(test, dialect);
      log := log + [Execute(sql)];
      var r := reply(0);
      if !r.Rows? {
        pass := false;
        outcome := SqlErrorRaised;
      } else {
        var countOfResults := r.rows;
        pass := test.numberOfRows == countOfResults;
        outcome := if pass then Completed else AssertionFailed;
      }
      log := log + Cleanup;
    }

    method RunClear(dialect: string, reply: nat -> DbReply, round: string -> int) returns (outcome: Outcome)
      modifies this
      ensures ClearVerdict(dialect, round, old(pass), old(log), reply, outcome)
    {
      var clear := ClearSql(test, dialect, round);
      if clear.Err? {
        log := log + Cleanup;
        return AssertionFailed;
      }
      log := log + [Execute(clear.value)];
      var r := reply(0);
      if !r.Updated? {
        pass := false;
        outcome := SqlErrorRaised;
      } else {
        pass := 0 == r.count;
        outcome := Completed;
      }
      log := log + Cleanup;
    }
  }
}

=== FILE: rebase.dfy ===
/**
  The log timestamp rebaser: a two-pass line transformer that moves every
  timestamp of a log so that the last one lands on "now". A timestamp is a
  day number, a second of the day and a nano of the second; the calendar
  (ISO date text, Period arithmetic, the agent log's date format) is an
  oracle, the `Calendar` value. The clock reading `LocalDateTime.now()` is
  the parameter `now`, and a file is the sequence of its lines.
*/
module Rebase {
  import opened Records

  datatype Stamp = Stamp(day: int, sec: int, nano: int)

  predicate Valid(t: Stamp) {
    0 <= t.sec < 86400 && 0 <= t.nano < 1000000000
  }

  /** The calendar and date formats the rebaser relies on, left abstract:
      `date` parses ISO "yyyy-MM-dd" text strictly to a day number,
      `dateText` is `LocalDate.toString`, `minusPeriod(n, a, b)` is the day of
      `n.minus(Period.between(a, b))`, and `agentParse`/`agentText` are the
      agent log's "EEE MMM ppd HH:mm:ss yyyy" parser and formatter. */
  datatype Calendar = Calendar(
    date: string -> Option<int>,
    dateText: int -> string,
    minusPeriod: (int, int, int) -> int,
    agentParse: string -> Option<Stamp>,
    agentText: Stamp -> string)

  /** The one fact about Period arithmetic the properties need: subtracting
      the period between a date and itself changes nothing. */
  ghost predicate Lawful(cal: Calendar) {
    forall n: int, d: int :: cal.minusPeriod(n, d, d) == n
  }

  // ---------------------------------------------------------------------
  // getOffsetTime

  /** Java's `/` on longs: the quotient truncated toward zero. */
  function Quot(a: int, b: int): int
    requires b > 0
  {
    if a >= 0 then a / b else -((-a) / b)
  }

  /** Java's `%` on longs: the remainder takes the sign of the dividend. */
  function Rem(a: int, b: int): int
    requires b > 0
  {
    a - b * Quot(a, b)
  }

  datatype Offset = Offset(hours: int, minutes: int, seconds: int)

  /** `getOffsetTime`: the whole seconds of `Duration.between(temp, last)`,
      where `temp` is `last`'s date at `prev`'s hour, minute and second (nano
      zero), split into hours, minutes and seconds with truncating division. */
  function OffsetTime(prev: Stamp, last: Stamp): Offset {
    var nanos := (last.sec - prev.sec) * 1000000000 + last.nano;
    var seconds := nanos / 1000000000;
    Offset(Quot(seconds, 60 * 60), Quot(Rem(seconds, 60 * 60), 60), Rem(seconds, 60))
  }

  lemma WholeSeconds(d: int, nano: int)
    requires 0 <= nano < 1000000000
    ensures (d * 1000000000 + nano) / 1000000000 == d
  {
  }

  /** Dividing by 60 is determined by any quotient and remainder in range. */
  lemma Div60(a: int, q: int, r: int)
    requires 0 <= r < 60 && a == 60 * q + r
    ensures a / 60 == q && a % 60 == r
  {
  }

  /** The hours, minutes and seconds of a non-negative count of seconds. */
  lemma SplitNonneg(e: int)
    requires e >= 0
    ensures (e / 3600) * 3600 + ((e % 3600) / 60) * 60 + e % 60 == e
    ensures e / 3600 >= 0 && 0 <= (e % 3600) / 60 < 60 && 0 <= e % 60 < 60
  {
    var q, r := e / 3600, e % 3600;
    assert e == 3600 * q + r && 0 <= r < 3600;
    var m, s := r / 60, r % 60;
    assert r == 60 * m + s && 0 <= s < 60 && 0 <= m < 60;
    Div60(e, 60 * q + m, s);
  }

  lemma TruncatedSplit(d: int)
    ensures Quot(d, 3600) * 3600 + Quot(Rem(d, 3600), 60) * 60 + Rem(d, 60) == d
    ensures -60 < Quot(Rem(d, 3600), 60) < 60 && -60 < Rem(d, 60) < 60
    ensures d >= 0 ==> Quot(d, 3600) >= 0 && Quot(Rem(d, 3600), 60) >= 0 && Rem(d, 60) >= 0
    ensures d <= 0 ==> Quot(d, 3600) <= 0 && Quot(Rem(d, 3600), 60) <= 0 && Rem(d, 60) <= 0
  {
    var e := if d >= 0 then d else -d;
    SplitNonneg(e);
    var q, m, s := e / 3600, (e % 3600) / 60, e % 60;
    assert e % 3600 == e - 3600 * q;
    if d >= 0 {
      assert Quot(d, 3600) == q && Rem(d, 3600) == e % 3600;
      assert Quot(Rem(d, 3600), 60) == m && Rem(d, 60) == s;
    } else {
      assert Quot(d, 3600) == -q && Rem(d, 3600) == -(e % 3600);
      assert Quot(Rem(d, 3600), 60) == -m && Rem(d, 60) == -s;
    }
  }

  /** The offset adds back up to the difference of the two times of day. */
  lemma OffsetIdentity(prev: Stamp, last: Stamp)
    requires Valid(last)
    ensures var o := OffsetTime(prev, last);
      o.hours * 3600 + o.minutes * 60 + o.seconds == last.sec - prev.sec
  {
    var d := last.sec - prev.sec;
    WholeSeconds(d, last.nano);
    assert OffsetTime(prev, last) == Offset(Quot(d, 3600), Quot(Rem(d, 3600), 60), Rem(d, 60));
    TruncatedSplit(d);
  }

  /** Minutes and seconds stay below 60 in size, and all three parts carry
      the sign of the difference, as truncating division makes them. */
  lemma OffsetSigns(prev: Stamp, last: Stamp)
    requires Valid(last)
    ensures var o := OffsetTime(prev, last);
      -60 < o.minutes < 60 && -60 < o.seconds < 60
      && (last.sec >= prev.sec ==> o.hours >= 0 && o.minutes >= 0 && o.seconds >= 0)
      && (last.sec <= prev.sec ==> o.hours <= 0 && o.minutes <= 0 && o.seconds <= 0)
  {
    var d := last.sec - prev.sec;
    WholeSeconds(d, last.nano);
    assert OffsetTime(prev, last) == Offset(Quot(d, 3600), Quot(Rem(d, 3600), 60), Rem(d, 60));
    TruncatedSplit(d);
  }

  // ---------------------------------------------------------------------
  // LocalDateTime arithmetic on whole seconds

  function AbsSec(t: Stamp): int {
    t.day * 86400 + t.sec
  }

  function FromAbs(a: int, nano: int): (t: Stamp)
    ensures AbsSec(t) == a && 0 <= t.sec < 86400 && t.nano == nano
  {
    Stamp(a / 86400, a % 86400, nano)
  }

  /** `minusSeconds(k)` (and `minusHours`, `minusMinutes` as multiples). */
  function MinusSeconds(t: Stamp, k: int): Stamp {
    FromAbs(AbsSec(t) - k, t.nano)
  }

  lemma SameAbs(s: Stamp, t: Stamp)
    requires 0 <= s.sec < 86400 && 0 <= t.sec < 86400
    requires AbsSec(s) == AbsSec(t) && s.nano == t.nano
    ensures s == t
  {
    assert s.day == AbsSec(s) / 86400;
    assert t.day == AbsSec(t) / 86400;
  }

  /** The rebased time of a line stamped `prev` when the reference is `last`:
      now minus the date period, minus the offset hours, minutes and seconds,
      with the nanos cut off. */
  function Shifted(now: Stamp, prev: Stamp, last: Stamp, cal: Calendar): (t: Stamp)
    ensures Valid(t) && t.nano == 0
  {
    var o := OffsetTime(prev, last);
    var t := Stamp(cal.minusPeriod(now.day, prev.day, last.day), now.sec, now.nano);
    var t' := MinusSeconds(MinusSeconds(MinusSeconds(t, o.hours * 3600), o.minutes * 60), o.seconds);
    Stamp(t'.day, t'.sec, 0)
  }

  /** The shift, in whole seconds: the moved day at now's time of day, less
      the difference of the two times of day. */
  lemma ShiftedValue(now: Stamp, prev: Stamp, last: Stamp, cal: Calendar)
    requires Valid(last)
    ensures var t := Shifted(now, prev, last, cal);
      AbsSec(t) == cal.minusPeriod(now.day, prev.day, last.day) * 86400 + now.sec - (last.sec - prev.sec)
      && Valid(t) && t.nano == 0
  {
    OffsetIdentity(prev, last);
  }

  /** A line on the reference's date moves to now less the distance between
      its time of day and the reference's, in whole seconds. */
  lemma ShiftSameDate(now: Stamp, prev: Stamp, last: Stamp, cal: Calendar)
    requires Lawful(cal) && Valid(now) && Valid(last) && prev.day == last.day
    ensures Shifted(now, prev, last, cal) == FromAbs(AbsSec(now) - (last.sec - prev.sec), 0)
  {
    ShiftedValue(now, prev, last, cal);
    assert cal.minusPeriod(now.day, prev.day, prev.day) == now.day;
    SameAbs(Shifted(now, prev, last, cal), FromAbs(AbsSec(now) - (last.sec - prev.sec), 0));
  }

  /** A line stamped exactly like the reference moves to now, truncated to
      whole seconds. */
  lemma ShiftReference(now: Stamp, last: Stamp, cal: Calendar)
    requires Lawful(cal) && Valid(now) && Valid(last)
    ensures Shifted(now, last, last, cal) == Stamp(now.day, now.sec, 0)
  {
    ShiftSameDate(now, last, last, cal);
    SameAbs(FromAbs(AbsSec(now), 0), Stamp(now.day, now.sec, 0));
  }

  // ---------------------------------------------------------------------
  // The two timestamp patterns

  datatype Dialect = Iso | Agent

  /** `\d{4}-\d{2}-\d{2}T\d{2}:\d{2}:\d{2}`, one code per character: `d` is
      a digit, anything else itself. */
  const IsoPattern: string := "dddd-dd-ddTdd:dd:dd"

  /** `^[F-W][a-u][d-u] [A-S][a-u][b-y] [\d, ]\d \d{2}:\d{2}:\d{2} \d{4}`, one
      code per character: `W` is [F-W], `a` is [a-u], `e` is [d-u], `A` is
      [A-S], `y` is [b-y], `p` is [\d, ], `d` a digit. */
  const AgentPattern: string := "Wae Aay pd dd:dd:dd dddd"

  function PatternOf(dialect: Dialect): string {
    if dialect == Iso then IsoPattern else AgentPattern
  }

  predicate IsDigit(c: char) {
    '0' <= c <= '9'
  }

  predicate Fits(code: char, c: char) {
    if code == 'd' then IsDigit(c)
    else if code == 'W' then 'F' <= c <= 'W'
    else if code == 'a' then 'a' <= c <= 'u'
    else if code == 'e' then 'd' <= c <= 'u'
    else if code == 'A' then 'A' <= c <= 'S'
    else if code == 'y' then 'b' <= c <= 'y'
    else if code == 'p' then IsDigit(c) || c == ',' || c == ' '
    else c == code
  }

  /** The pattern occurs in `s` starting at `i`. */
  predicate MatchesAt(pattern: string, s: string, i: nat) {
    i + |pattern| <= |s| && forall k :: 0 <= k < |pattern| ==> Fits(pattern[k], s[i + k])
  }

  /** The characters Java's `.` does not match. */
  predicate IsLineTerminator(c: char) {
    c == '\n' || c == '\r' || c == '\U{0085}' || c == '\U{2028}' || c == '\U{2029}'
  }

  /** `s.matches(pattern + ".*")`. */
  predicate LineMatches(pattern: string, s: string) {
    MatchesAt(pattern, s, 0) && forall k :: |pattern| <= k < |s| ==> !IsLineTerminator(s[k])
  }

  // ---------------------------------------------------------------------
  // String.trim

  function TrimStartIndex(s: string): (k: nat)
    ensures k <= |s| && (forall j :: 0 <= j < k ==> s[j] <= ' ') && (k < |s| ==> s[k] > ' ')
  {
    if s == [] || s[0] > ' ' then 0 else 1 + TrimStartIndex(s[1..])
  }

  function TrimEndLength(s: string): (k: nat)
    ensures k <= |s| && (forall j :: k <= j < |s| ==> s[j] <= ' ') && (k > 0 ==> s[k - 1] > ' ')
  {
    if s == [] || s[|s| - 1] > ' ' then |s| else TrimEndLength(s[..|s| - 1])
  }

  /** `String.trim`: the characters up to U+0020 removed from both ends. */
  function Trim(s: string): (r: string)
    ensures |r| <= |s|
    ensures r != [] ==> r[0] > ' ' && r[|r| - 1] > ' '
  {
    var t := s[TrimStartIndex(s)..];
    t[..TrimEndLength(t)]
  }

  /** Both patterns start and end with a character above the space, so a line
      that matches untrimmed still matches once trimmed. */
  lemma MatchSurvivesTrim(dialect: Dialect, s: string)
    requires LineMatches(PatternOf(dialect), s)
    ensures LineMatches(PatternOf(dialect), Trim(s))
  {
    var p := PatternOf(dialect);
    assert Fits(p[0], s[0]);
    assert TrimStartIndex(s) == 0;
    var k := TrimEndLength(s);
    assert Fits(p[|p| - 1], s[|p| - 1]);
    assert s[|p| - 1] > ' ';
    assert Trim(s) == s[..k];
  }

  // ---------------------------------------------------------------------
  // LocalDateTime.parse on the first token of a line

  /** The text before the first `sep`: `split(sep)[0]`. */
  function Before(s: string, sep: char): (r: string)
    ensures |r| <= |s| && r == s[..|r|] && sep !in r
    ensures |r| < |s| ==> s[|r|] == sep
  {
    if s == [] || s[0] == sep then [] else [s[0]] + Before(s[1..], sep)
  }

  function DigitValue(c: char): (v: int)
    ensures IsDigit(c) ==> 0 <= v <= 9
  {
    c as int - '0' as int
  }

  function TwoDigits(s: string, i: nat): int
    requires i + 2 <= |s|
  {
    10 * DigitValue(s[i]) + DigitValue(s[i + 1])
  }

  function DigitsValue(s: string): nat
    requires forall k :: 0 <= k < |s| ==> IsDigit(s[k])
  {
    if s == [] then 0 else 10 * DigitsValue(s[..|s| - 1]) + DigitValue(s[|s| - 1])
  }

  function Pow10(n: nat): nat {
    if n == 0 then 1 else 10 * Pow10(n - 1)
  }

  /** The nano of second of an ISO fraction: nothing, or a point and up to
      nine digits. */
  function Fraction(rest: string): Option<int> {
    if rest == [] then Some(0)
    else if rest[0] == '.' && |rest| <= 10 && forall k :: 1 <= k < |rest| ==> IsDigit(rest[k]) then
      Some(DigitsValue(rest[1..]) * Pow10(10 - |rest|))
    else None
  }

  /** `LocalDateTime.parse(token)` on the tokens the rebaser hands it, which
      either begin with the ISO pattern or cannot parse at all: hour, minute
      and second in range, an optional fraction, and a date the calendar
      knows. */
  function ParseIso(token: string, cal: Calendar): Option<Stamp> {
    if !MatchesAt(IsoPattern, token, 0) then None
    else
      var h := TwoDigits(token, 11);
      var m := TwoDigits(token, 14);
      var s := TwoDigits(token, 17);
      var nano := Fraction(token[19..]);
      var day := cal.date(token[..10]);
      if h > 23 || m > 59 || s > 59 || nano.None? || day.None? then None
      else Some(Stamp(day.value, h * 3600 + m * 60 + s, nano.value))
  }

  /** The timestamp a matching line starts with: the ISO dialect parses the
      text before the first space, the agent dialect the text before the
      first comma. */
  function ParseStamp(line: string, dialect: Dialect, cal: Calendar): Option<Stamp> {
    if dialect == Iso then ParseIso(Before(line, ' '), cal) else cal.agentParse(Before(line, ','))
  }

  lemma FractionBounds(rest: string)
    ensures Fraction(rest).Some? ==> 0 <= Fraction(rest).value < 1000000000
  {
    if rest != [] && Fraction(rest).Some? {
      DigitsBound(rest[1..]);
      assert Pow10(10 - |rest|) * Pow10(|rest| - 1) == Pow10(9) by { Pow10Add(10 - |rest|, |rest| - 1); }
    }
  }

  lemma {:induction false} DigitsBound(s: string)
    requires forall k :: 0 <= k < |s| ==> IsDigit(s[k])
    ensures DigitsValue(s) < Pow10(|s|)
  {
    if s != [] {
      DigitsBound(s[..|s| - 1]);
    }
  }

  lemma {:induction false} Pow10Add(a: nat, b: nat)
    ensures Pow10(a) * Pow10(b) == Pow10(a + b)
  {
    if a > 0 {
      Pow10Add(a - 1, b);
    }
  }

  /** Every parsed ISO timestamp is a valid time of day. */
  lemma ParseIsoValid(token: string, cal: Calendar)
    ensures ParseIso(token, cal).Some? ==> Valid(ParseIso(token, cal).value)
  {
    if MatchesAt(IsoPattern, token, 0) {
      FractionBounds(token[19..]);
      assert Fits(IsoPattern[11], token[11]) && Fits(IsoPattern[12], token[12]);
      assert Fits(IsoPattern[14], token[14]) && Fits(IsoPattern[15], token[15]);
      assert Fits(IsoPattern[17], token[17]) && Fits(IsoPattern[18], token[18]);
    }
  }

  // ---------------------------------------------------------------------
  // Rendering the new timestamp

  function Two(n: int): (r: string)
    requires 0 <= n < 100
    ensures |r| == 2 && IsDigit(r[0]) && IsDigit(r[1])
  {
    [(48 + n / 10) as char, (48 + n % 10) as char]
  }

  /** `LocalDateTime.toString` of a time with no nanos: the seconds field is
      left out when it is zero. */
  function JavaIsoString(t: Stamp, cal: Calendar): string
    requires 0 <= t.sec < 86400
  {
    var hm := cal.dateText(t.day) + "T" + Two(t.sec / 3600) + ":" + Two(t.sec % 3600 / 60);
    if t.sec % 60 == 0 then hm else hm + ":" + Two(t.sec % 60)
  }

  /** The ISO replacement text: `toString`, with ":00" appended when the
      second is zero. */
  function IsoRender(t: Stamp, cal: Calendar): string
    requires 0 <= t.sec < 86400
  {
    if t.sec % 60 == 0 then JavaIsoString(t, cal) + ":00" else JavaIsoString(t, cal)
  }

  function Render(t: Stamp, dialect: Dialect, cal: Calendar): string
    requires 0 <= t.sec < 86400
  {
    if dialect == Iso then IsoRender(t, cal) else cal.agentText(t)
  }

  /** The rendered ISO text always carries hours, minutes and seconds. */
  lemma IsoRenderHasSeconds(t: Stamp, cal: Calendar)
    requires 0 <= t.sec < 86400
    ensures IsoRender(t, cal) == cal.dateText(t.day) + "T" + Two(t.sec / 3600) + ":" + Two(t.sec % 3600 / 60)
                                 + ":" + Two(t.sec % 60)
  {
    if t.sec % 60 == 0 {
      assert Two(0) == "00";
    }
  }

  /** Reading the rendered text back gives the same timestamp, for a date
      the calendar renders as ten characters and reads back. */
  lemma IsoRenderRoundTrip(t: Stamp, cal: Calendar)
    requires 0 <= t.sec < 86400 && t.nano == 0
    requires |cal.dateText(t.day)| == 10 && MatchesAt(IsoPattern[..10], cal.dateText(t.day), 0)
    requires cal.date(cal.dateText(t.day)) == Some(t.day)
    ensures ParseIso(IsoRender(t, cal), cal) == Some(t)
  {
    IsoRenderHasSeconds(t, cal);
    var date := cal.dateText(t.day);
    var h, m, s := t.sec / 3600, t.sec % 3600 / 60, t.sec % 60;
    SplitNonneg(t.sec);
    assert h < 24;
    TwoRoundTrip(h);
    TwoRoundTrip(m);
    TwoRoundTrip(s);
    IsoTextFields(date, Two(h), Two(m), Two(s));
  }

  lemma TwoRoundTrip(n: int)
    requires 0 <= n < 100
    ensures TwoDigits(Two(n), 0) == n
  {
  }

  /** The fields of a text laid out as date, "T", and three two-digit
      numbers separated by colons. */
  lemma IsoTextFields(date: string, a: string, b: string, c: string)
    requires |date| == 10 && MatchesAt(IsoPattern[..10], date, 0)
    requires |a| == 2 && |b| == 2 && |c| == 2
    requires IsDigit(a[0]) && IsDigit(a[1]) && IsDigit(b[0]) && IsDigit(b[1]) && IsDigit(c[0]) && IsDigit(c[1])
    ensures var text := date + "T" + a + ":" + b + ":" + c;
      MatchesAt(IsoPattern, text, 0) && text[..10] == date && text[19..] == []
      && TwoDigits(text, 11) == TwoDigits(a, 0) && TwoDigits(text, 14) == TwoDigits(b, 0)
      && TwoDigits(text, 17) == TwoDigits(c, 0)
  {
    var text := date + "T" + a + ":" + b + ":" + c;
    assert |text| == 19;
    forall k | 0 <= k < 10 ensures Fits(IsoPattern[k], text[k]) {
      assert text[k] == date[k] && IsoPattern[k] == IsoPattern[..10][k];
    }
    assert text[10] == 'T' && text[13] == ':' && text[16] == ':';
    assert text[11] == a[0] && text[12] == a[1] && text[14] == b[0] && text[15] == b[1];
    assert text[17] == c[0] && text[18] == c[1];
    assert text[..10] == date;
  }

  // ---------------------------------------------------------------------
  // replaceAll(pattern, text)

  /** Every occurrence of the ISO pattern, scanning left to right, replaced
      by `rep`. */
  function ReplaceIso(s: string, rep: string): string
    decreases |s|
  {
    if |s| < |IsoPattern| then s
    else if MatchesAt(IsoPattern, s, 0) then rep + ReplaceIso(s[|IsoPattern|..], rep)
    else [s[0]] + ReplaceIso(s[1..], rep)
  }

  /** The agent pattern is anchored with `^`: only a match at the start is
      replaced. */
  function ReplaceAgent(s: string, rep: string): string {
    if MatchesAt(AgentPattern, s, 0) then rep + s[|AgentPattern|..] else s
  }

  function Replace(s: string, dialect: Dialect, rep: string): string {
    if dialect == Iso then ReplaceIso(s, rep) else ReplaceAgent(s, rep)
  }

  /** A line without an occurrence of the ISO pattern is left as it is. */
  lemma {:induction false} ReplaceIsoNoOccurrence(s: string, rep: string)
    requires forall i: nat :: !MatchesAt(IsoPattern, s, i)
    ensures ReplaceIso(s, rep) == s
  {
    if |s| >= |IsoPattern| {
      forall i: nat ensures !MatchesAt(IsoPattern, s[1..], i) {
        if MatchesAt(IsoPattern, s[1..], i) {
          assert MatchesAt(IsoPattern, s, i + 1);
        }
      }
      ReplaceIsoNoOccurrence(s[1..], rep);
    }
  }

  /** Each occurrence found is replaced by the same text: the ISO stamps of a
      line standing side by side all become `rep`. */
  lemma ReplaceIsoStamps(a: string, b: string, rest: string, rep: string)
    requires |a| == |IsoPattern| && |b| == |IsoPattern| && MatchesAt(IsoPattern, a, 0) && MatchesAt(IsoPattern, b, 0)
    ensures ReplaceIso(a + b + rest, rep) == rep + rep + ReplaceIso(rest, rep)
  {
    assert a + b + rest == a + (b + rest);
    ReplaceIsoHead(a, b + rest, rep);
    ReplaceIsoHead(b, rest, rep);
  }

  lemma ReplaceIsoHead(a: string, rest: string, rep: string)
    requires |a| == |IsoPattern| && MatchesAt(IsoPattern, a, 0)
    ensures ReplaceIso(a + rest, rep) == rep + ReplaceIso(rest, rep)
  {
    var s := a + rest;
    forall k | 0 <= k < |IsoPattern| ensures Fits(IsoPattern[k], s[k]) {
      assert s[k] == a[k];
    }
    assert MatchesAt(IsoPattern, s, 0);
    assert s[|IsoPattern|..] == rest;
  }

  // ---------------------------------------------------------------------
  // The two passes

  /** A runtime exception that ends the rewrite: a timestamp that does not
      parse, or a matching line in a file whose first pass found no
      reference (a null dereference). */
  datatype RebaseError = ParseFailure | NoReference

  /** One line's rewrite: the text to write, or the exception it raises. */
  type LineRewrite = string -> Result<string, RebaseError>

  /** The first pass, over any pattern and parser: the timestamp of the last
      line that matches, or none; a matching line that does not parse ends
      the pass. */
  function LastMatch(raw: seq<string>, matches: string -> bool, parse: string -> Option<Stamp>)
    : Result<Option<Stamp>, RebaseError>
  {
    if raw == [] then Ok(None)
    else
      var front := LastMatch(raw[..|raw| - 1], matches, parse);
      var line := raw[|raw| - 1];
      if front.Err? || !matches(line) then front
      else if parse(line).None? then Err(ParseFailure)
      else Ok(parse(line))
  }

  /** The second pass, over any line rewrite: one output line per input
      line, in order, ended by the first line that raises. */
  function MapLines(lines: seq<string>, f: LineRewrite): (r: Result<seq<string>, RebaseError>)
    ensures r.Ok? <==> forall i :: 0 <= i < |lines| ==> f(lines[i]).Ok?
    ensures r.Ok? ==> |r.value| == |lines| && forall i :: 0 <= i < |lines| ==> f(lines[i]) == Ok(r.value[i])
    ensures r.Err? ==> exists i :: 0 <= i < |lines| && f(lines[i]) == Err(r.error)
  {
    if lines == [] then Ok([])
    else
      var n := |lines| - 1;
      var front := MapLines(lines[..n], f);
      assert forall i :: 0 <= i < n ==> lines[..n][i] == lines[i];
      if front.Err? then front
      else if f(lines[n]).Err? then Err(f(lines[n]).error)
      else Ok(front.value + [f(lines[n]).value])
  }

  /** One more line of the second pass: its rewrite extends the output, or
      its failure is the failure of the whole pass. */
  lemma MapLinesStep(lines: seq<string>, i: nat, f: LineRewrite, out: seq<string>, next: Result<string, RebaseError>)
    requires i < |lines| && MapLines(lines[..i], f) == Ok(out) && f(lines[i]) == next
    ensures next.Err? ==> MapLines(lines, f) == Err(next.error)
    ensures next.Ok? ==> MapLines(lines[..i + 1], f) == Ok(out + [next.value])
  {
    assert lines[..i + 1][..i] == lines[..i];
    if next.Err? {
      MapLinesPrefixErr(lines, i + 1, f);
    }
  }

  /** The second pass's rewrite of one line, as a function of the line. */
  function LineStep(dialect: Dialect, reference: Option<Stamp>, now: Stamp, cal: Calendar): LineRewrite {
    line => RebaseLine(line, dialect, reference, now, cal)
  }

  /** The reference is the timestamp of the LAST matching line, whatever the
      timestamps of the lines before it. */
  lemma {:induction false} LastMatchIsLast(raw: seq<string>, matches: string -> bool, parse: string -> Option<Stamp>)
    requires LastMatch(raw, matches, parse).Ok? && LastMatch(raw, matches, parse).value.Some?
    ensures exists i :: 0 <= i < |raw| && matches(raw[i]) && LastMatch(raw, matches, parse).value == parse(raw[i])
                        && forall j :: i < j < |raw| ==> !matches(raw[j])
  {
    var n := |raw| - 1;
    if !matches(raw[n]) {
      LastMatchIsLast(raw[..n], matches, parse);
      var i :| 0 <= i < n && matches(raw[..n][i]) && LastMatch(raw[..n], matches, parse).value == parse(raw[..n][i])
               && forall j :: i < j < n ==> !matches(raw[..n][j]);
      assert forall j :: i < j < n ==> raw[..n][j] == raw[j];
      assert raw[..n][i] == raw[i];
    }
  }

  /** There is no reference exactly when no line matches. */
  lemma {:induction false} LastMatchNone(raw: seq<string>, matches: string -> bool, parse: string -> Option<Stamp>)
    ensures LastMatch(raw, matches, parse) == Ok(None) <==> forall i :: 0 <= i < |raw| ==> !matches(raw[i])
  {
    if raw != [] {
      var n := |raw| - 1;
      LastMatchNone(raw[..n], matches, parse);
      assert forall i :: 0 <= i < n ==> raw[..n][i] == raw[i];
    }
  }

  lemma {:induction false} LastMatchPrefixErr(raw: seq<string>, m: nat, matches: string -> bool, parse: string -> Option<Stamp>)
    requires m <= |raw| && LastMatch(raw[..m], matches, parse).Err?
    ensures LastMatch(raw, matches, parse) == LastMatch(raw[..m], matches, parse)
    decreases |raw| - m
  {
    if m < |raw| {
      assert raw[..m + 1][..m] == raw[..m];
      LastMatchPrefixErr(raw, m + 1, matches, parse);
    } else {
      assert raw[..m] == raw;
    }
  }

  lemma {:induction false} MapLinesPrefixErr(lines: seq<string>, m: nat, f: LineRewrite)
    requires m <= |lines| && MapLines(lines[..m], f).Err?
    ensures MapLines(lines, f) == MapLines(lines[..m], f)
    decreases |lines| - m
  {
    if m < |lines| {
      assert lines[..m + 1][..m] == lines[..m];
      MapLinesPrefixErr(lines, m + 1, f);
    } else {
      assert lines[..m] == lines;
    }
  }

  /** The second pass on one line: a line that matches once trimmed has its
      timestamp(s) replaced by its shifted time; any other line is copied. */
  function RebaseLine(line: string, dialect: Dialect, reference: Option<Stamp>, now: Stamp, cal: Calendar)
    : Result<string, RebaseError>
  {
    if !LineMatches(PatternOf(dialect), Trim(line)) then Ok(line)
    else
      var prev := ParseStamp(line, dialect, cal);
      if prev.None? then Err(ParseFailure)
      else if reference.None? then Err(NoReference)
      else Ok(Replace(line, dialect, Render(Shifted(now, prev.value, reference.value, cal), dialect, cal)))
  }

  /** The first pass of a dialect: untrimmed lines, the dialect's parser. */
  function Reference(raw: seq<string>, dialect: Dialect, cal: Calendar): Result<Option<Stamp>, RebaseError> {
    LastMatch(raw, s => LineMatches(PatternOf(dialect), s), s => ParseStamp(s, dialect, cal))
  }

  /** The whole rewrite: the reference comes from the lines as read (`raw`),
      the rewriting works on the lines as prepared for the second pass
      (`prep`). */
  function Rebased(prep: seq<string>, raw: seq<string>, dialect: Dialect, now: Stamp, cal: Calendar)
    : Result<seq<string>, RebaseError>
  {
    var reference := Reference(raw, dialect, cal);
    if reference.Err? then Err(reference.error)
    else MapLines(prep, LineStep(dialect, reference.value, now, cal))
  }

  /** Each input line yields exactly one output line, and a line that does
      not match once trimmed is written unchanged. */
  lemma RebasedShape(prep: seq<string>, raw: seq<string>, dialect: Dialect, now: Stamp, cal: Calendar)
    requires Rebased(prep, raw, dialect, now, cal).Ok?
    ensures var out := Rebased(prep, raw, dialect, now, cal).value;
      |out| == |prep| && forall i :: 0 <= i < |prep| && !LineMatches(PatternOf(dialect), Trim(prep[i])) ==> out[i] == prep[i]
  {
    var reference := Reference(raw, dialect, cal).value;
    var f := LineStep(dialect, reference, now, cal);
    var out := MapLines(prep, f).value;
    forall i | 0 <= i < |prep| && !LineMatches(PatternOf(dialect), Trim(prep[i]))
      ensures out[i] == prep[i]
    {
      assert f(prep[i]) == Ok(out[i]);
    }
  }

  /** A file in which no line matches, trimmed or not, is reproduced line for
      line rather than rejected. */
  lemma UnmatchedFileReproduced(lines: seq<string>, dialect: Dialect, now: Stamp, cal: Calendar)
    requires forall i :: 0 <= i < |lines| ==> !LineMatches(PatternOf(dialect), Trim(lines[i]))
    ensures Rebased(lines, lines, dialect, now, cal) == Ok(lines)
  {
    var matches := s => LineMatches(PatternOf(dialect), s);
    forall i | 0 <= i < |lines|
      ensures !matches(lines[i])
    {
      if LineMatches(PatternOf(dialect), lines[i]) {
        MatchSurvivesTrim(dialect, lines[i]);
      }
    }
    LastMatchNone(lines, matches, s => ParseStamp(s, dialect, cal));
    var f := LineStep(dialect, None, now, cal);
    assert forall i :: 0 <= i < |lines| ==> f(lines[i]) == Ok(lines[i]);
    var r := MapLines(lines, f);
    assert r.value == lines;
  }

  /** A line whose timestamp equals the reference is rewritten to now,
      truncated to whole seconds. */
  lemma ReferenceLineBecomesNow(line: string, dialect: Dialect, last: Stamp, now: Stamp, cal: Calendar)
    requires Lawful(cal) && Valid(now) && Valid(last)
    requires LineMatches(PatternOf(dialect), Trim(line)) && ParseStamp(line, dialect, cal) == Some(last)
    ensures RebaseLine(line, dialect, Some(last), now, cal)
         == Ok(Replace(line, dialect, Render(Stamp(now.day, now.sec, 0), dialect, cal)))
  {
    ShiftReference(now, last, cal);
  }

  /** A line on the reference's calendar date is rewritten to now less the
      distance between the two times of day. */
  lemma SameDateLineShifted(line: string, dialect: Dialect, prev: Stamp, last: Stamp, now: Stamp, cal: Calendar)
    requires Lawful(cal) && Valid(now) && Valid(last) && prev.day == last.day
    requires LineMatches(PatternOf(dialect), Trim(line)) && ParseStamp(line, dialect, cal) == Some(prev)
    ensures RebaseLine(line, dialect, Some(last), now, cal)
         == Ok(Replace(line, dialect, Render(FromAbs(AbsSec(now) - (last.sec - prev.sec), 0), dialect, cal)))
  {
    ShiftSameDate(now, prev, last, cal);
  }

  // ---------------------------------------------------------------------
  // The two copies of the rebaser

  /** The first pass of both copies: read every line, keep the timestamp of
      the last matching one. */
  method FindReference(raw: seq<string>, dialect: Dialect, cal: Calendar) returns (r: Result<Option<Stamp>, RebaseError>)
    ensures r == Reference(raw, dialect, cal)
  {
    var pattern := PatternOf(dialect);
    ghost var matches := s => LineMatches(PatternOf(dialect), s);
    ghost var parse := s => ParseStamp(s, dialect, cal);
    var finalDateTime: Option<Stamp> := None;
    var i := 0;
    while i < |raw|
      invariant 0 <= i <= |raw|
      invariant LastMatch(raw[..i], matches, parse) == Ok(finalDateTime)
    {
      assert raw[..i + 1][..i] == raw[..i];
      if LineMatches(pattern, raw[i]) {
        var parsed := ParseStamp(raw[i], dialect, cal);
        if parsed.None? {
          LastMatchPrefixErr(raw, i + 1, matches, parse);
          return Err(ParseFailure);
        }
        finalDateTime := parsed;
      }
      i := i + 1;
    }
    assert raw[..i] == raw;
    return Ok(finalDateTime);
  }

  /** `updateLogLineDates(logPath, agent)`: the reference from the lines as
      read, then every line rewritten from the same lines. */
  method UpdateLogLineDates(lines: seq<string>, agent: bool, now: Stamp, cal: Calendar)
    returns (r: Result<seq<string>, RebaseError>)
    ensures r == Rebased(lines, lines, if agent then Agent else Iso, now, cal)
  {
    var dialect := if agent then Agent else Iso;
    var reference := FindReference(lines, dialect, cal);
    if reference.Err? {
      return Err(reference.error);
    }
    var written;
    r, written := RewriteLines(lines, dialect, reference.value, now, cal);
  }

  /** The lines written before the first line whose rewrite raises: all of
      them when none does. */
  function Emitted(lines: seq<string>, f: LineRewrite): (w: seq<string>)
    ensures |w| <= |lines|
    ensures forall i :: 0 <= i < |w| ==> f(lines[i]) == Ok(w[i])
    ensures |w| < |lines| ==> f(lines[|w|]).Err?
    decreases |lines|
  {
    if lines == [] || f(lines[0]).Err? then []
    else
      var rest := Emitted(lines[1..], f);
      assert forall i :: 0 <= i < |rest| ==> lines[1..][i] == lines[i + 1];
      [f(lines[0]).value] + rest
  }

  /** The written lines are fixed by where the first failing line is. */
  lemma EmittedUnique(lines: seq<string>, f: LineRewrite, w: seq<string>)
    requires |w| <= |lines| && forall i :: 0 <= i < |w| ==> f(lines[i]) == Ok(w[i])
    requires |w| < |lines| ==> f(lines[|w|]).Err?
    ensures w == Emitted(lines, f)
  {
    var e := Emitted(lines, f);
    assert |e| == |w| by {
      forall i | 0 <= i < |w| && 0 <= i < |e|
        ensures f(lines[i]) == Ok(w[i]) == Ok(e[i])
      {
      }
    }
  }

  /** A pass that stops at line `i` has written the results of the lines
      before it. */
  lemma EmittedAtFailure(lines: seq<string>, f: LineRewrite, i: nat, out: seq<string>)
    requires i < |lines| && MapLines(lines[..i], f) == Ok(out) && f(lines[i]).Err?
    ensures out == Emitted(lines, f)
  {
    assert forall j :: 0 <= j < i ==> lines[..i][j] == lines[j];
    EmittedUnique(lines, f, out);
  }

  /** A rewrite that succeeds writes its result; one that fails writes the
      lines before the failing line, and fails with that line's error. */
  lemma EmittedBeforeError(lines: seq<string>, f: LineRewrite)
    ensures MapLines(lines, f).Ok? ==> Emitted(lines, f) == MapLines(lines, f).value
    ensures MapLines(lines, f).Err? ==>
      |Emitted(lines, f)| < |lines| && f(lines[|Emitted(lines, f)|]) == Err(MapLines(lines, f).error)
  {
    var w := Emitted(lines, f);
    var r := MapLines(lines, f);
    if r.Ok? {
      assert |w| == |lines|;
    } else {
      var k := |w|;
      assert MapLines(lines[..k], f).Ok? by {
        assert forall i :: 0 <= i < k ==> lines[..k][i] == lines[i];
      }
      MapLinesStep(lines, k, f, MapLines(lines[..k], f).value, f(lines[k]));
    }
  }

  /** `kpiFileEdit`: the reference from the lines of input.log as read; the
      second pass first removes every byte order mark from a line. It also
      gives what output.log holds afterwards: untouched (`None`) when the
      first pass raises, since the file is opened only for the second pass;
      otherwise the lines written before any failure, which the `finally`
      block flushes when it closes the file. */
  method KpiFileEdit(input: seq<string>, now: Stamp, cal: Calendar)
    returns (r: Result<seq<string>, RebaseError>, output: Option<seq<string>>)
    ensures r == Rebased(WithoutBoms(input), input, Iso, now, cal)
    ensures Reference(input, Iso, cal).Err? ==> output.None?
    ensures Reference(input, Iso, cal).Ok? ==>
      output == Some(Emitted(WithoutBoms(input), LineStep(Iso, Reference(input, Iso, cal).value, now, cal)))
    ensures r.Ok? ==> output == Some(r.value)
  {
    var lastDateTime := FindReference(input, Iso, cal);
    if lastDateTime.Err? {
      return Err(lastDateTime.error), None;
    }
    var written;
    r, written := RewriteLines(WithoutBoms(input), Iso, lastDateTime.value, now, cal);
    EmittedBeforeError(WithoutBoms(input), LineStep(Iso, lastDateTime.value, now, cal));
    output := Some(written);
  }

  /** The second pass of both copies: each line is written once, rewritten
      when it matches after trimming; `written` is what reached the output
      file when the pass ends, normally or by a line that raises. */
  method RewriteLines(lines: seq<string>, dialect: Dialect, reference: Option<Stamp>, now: Stamp, cal: Calendar)
    returns (r: Result<seq<string>, RebaseError>, written: seq<string>)
    ensures r == MapLines(lines, LineStep(dialect, reference, now, cal))
    ensures written == Emitted(lines, LineStep(dialect, reference, now, cal))
  {
    ghost var f := LineStep(dialect, reference, now, cal);
    var out: seq<string> := [];
    for i := 0 to |lines|
      invariant MapLines(lines[..i], f) == Ok(out)
    {
      var tempLine := RewriteLine(lines[i], dialect, reference, now, cal);
      MapLinesStep(lines, i, f, out, tempLine);
      if tempLine.Err? {
        EmittedAtFailure(lines, f, i, out);
        return Err(tempLine.error), out;
      }
      out := out + [tempLine.value];
    }
    assert lines[..|lines|] == lines;
    EmittedBeforeError(lines, f);
    return Ok(out), out;
  }

  /** The body of the second loop for one line, step by step as the code
      computes the new time. */
  method RewriteLine(line: string, dialect: Dialect, reference: Option<Stamp>, now: Stamp, cal: Calendar)
    returns (r: Result<string, RebaseError>)
    ensures r == RebaseLine(line, dialect, reference, now, cal)
  {
    if !LineMatches(PatternOf(dialect), Trim(line)) {
      return Ok(line);
    }
    var prevDateTime := ParseStamp(line, dialect, cal);
    if prevDateTime.None? {
      return Err(ParseFailure);
    }
    if reference.None? {
      return Err(NoReference);
    }
    var prev := prevDateTime.value;
    var last := reference.value;
    var offsetTime := OffsetTime(prev, last);
    var tempDateTime := Stamp(cal.minusPeriod(now.day, prev.day, last.day), now.sec, now.nano);
    tempDateTime := MinusSeconds(tempDateTime, offsetTime.hours * 3600);
    tempDateTime := MinusSeconds(tempDateTime, offsetTime.minutes * 60);
    tempDateTime := MinusSeconds(tempDateTime, offsetTime.seconds);
    tempDateTime := Stamp(tempDateTime.day, tempDateTime.sec, 0);
    return Ok(Replace(line, dialect, Render(tempDateTime, dialect, cal)));
  }

  /** `replace("﻿", "")`: every byte order mark removed. */
  function StripBom(s: string): (r: string)
    ensures '\U{FEFF}' !in r
  {
    if s == [] then []
    else if s[0] == '\U{FEFF}' then StripBom(s[1..])
    else [s[0]] + StripBom(s[1..])
  }

  function WithoutBoms(lines: seq<string>): seq<string> {
    seq(|lines|, i requires 0 <= i < |lines| => StripBom(lines[i]))
  }

  lemma {:induction false} StripBomNoMark(s: string)
    requires '\U{FEFF}' !in s
    ensures StripBom(s) == s
  {
    if s != [] {
      assert s[0] != '\U{FEFF}';
      StripBomNoMark(s[1..]);
    }
  }

  /** On a file without byte order marks the KPI copy and the general
      rebaser in its ISO dialect produce the same lines. */
  lemma KpiAgreesWithTestBase(input: seq<string>, now: Stamp, cal: Calendar)
    requires forall i :: 0 <= i < |input| ==> '\U{FEFF}' !in input[i]
    ensures Rebased(WithoutBoms(input), input, Iso, now, cal) == Rebased(input, input, Iso, now, cal)
  {
    forall i | 0 <= i < |input| ensures WithoutBoms(input)[i] == input[i] {
      StripBomNoMark(input[i]);
    }
    assert WithoutBoms(input) == input;
  }
}

=== FILE: records.dfy ===
/**
  Values shared by the whole harness: the Option/Result wrappers that stand
  for Java's null and exceptions, the string-keyed record that one spreadsheet
  row becomes, `keyInHashMap`, and the normalisation the spreadsheet reader
  applies to column titles.
*/
module Records {

  datatype Option<T> = None | Some(value: T)

  datatype Result<T, E> = Ok(value: T) | Err(error: E)

  /** One test-case row: normalised column title -> cell text. A key that is
      not in the map is what Java's `HashMap.get` reports as null. */
  type Record = map<string, string>

  /** `keyInHashMap`: the key is present and its value is non-empty. */
  predicate Present(m: Record, key: string) {
    key in m && m[key] != ""
  }

  /** A lookup as it appears inside a Java string concatenation: a missing
      key is rendered as the four letters "null". */
  function Text(m: Record, key: string): string {
    if key in m then m[key] else "null"
  }

  /** `String.endsWith`. */
  predicate EndsWith(s: string, suffix: string) {
    |suffix| <= |s| && s[|s| - |suffix|..] == suffix
  }

  // ---------------------------------------------------------------------
  // Characters and case

  predicate IsUpper(c: char) {
    'A' <= c <= 'Z'
  }

  /** The characters of Java's regular-expression class `\s`. */
  predicate IsWhitespace(c: char) {
    c == ' ' || c == '\t' || c == '\n' || c == '\U{000B}' || c == '\U{000C}' || c == '\r'
  }

  function LowerChar(c: char): char {
    if IsUpper(c) then (c as int + 32) as char else c
  }

  /** `String.toLowerCase` on the ASCII letters. */
  function Lower(s: string): string {
    seq(|s|, i requires 0 <= i < |s| => LowerChar(s[i]))
  }

  /** `replaceAll("\\s*", "")`: every whitespace character removed. */
  function StripWhitespace(s: string): (r: string)
    ensures |r| <= |s|
    ensures forall i :: 0 <= i < |r| ==> !IsWhitespace(r[i])
  {
    if s == [] then []
    else if IsWhitespace(s[0]) then StripWhitespace(s[1..])
    else [s[0]] + StripWhitespace(s[1..])
  }

  /** The title normalisation of the test-case reader: whitespace removed,
      then lower-cased. */
  function NormaliseKey(s: string): (r: string)
    ensures forall i :: 0 <= i < |r| ==> !IsWhitespace(r[i]) && !IsUpper(r[i])
  {
    var t := StripWhitespace(s);
    assert forall i :: 0 <= i < |t| ==> !IsWhitespace(t[i]);
    Lower(t)
  }

  /** Lower-casing does not turn a character into whitespace or back, so
      stripping then lower-casing (the test-case reader) and lower-casing then
      stripping (the global-data reader) normalise every title alike. */
  lemma {:induction false} NormaliseOrderIrrelevant(s: string)
    ensures StripWhitespace(Lower(s)) == NormaliseKey(s)
  {
    if s != [] {
      NormaliseOrderIrrelevant(s[1..]);
      assert Lower(s) == [LowerChar(s[0])] + Lower(s[1..]);
      if !IsWhitespace(s[0]) {
        assert Lower([s[0]] + StripWhitespace(s[1..]))
            == [LowerChar(s[0])] + Lower(StripWhitespace(s[1..]));
      }
    }
  }

  /** Normalising twice is normalising once. */
  lemma {:induction false} NormaliseIdempotent(s: string)
    ensures NormaliseKey(NormaliseKey(s)) == NormaliseKey(s)
  {
    NormalForm(NormaliseKey(s));
  }

  /** A title already free of whitespace and capitals is its own normal form. */
  lemma {:induction false} NormalForm(s: string)
    requires forall i :: 0 <= i < |s| ==> !IsWhitespace(s[i]) && !IsUpper(s[i])
    ensures NormaliseKey(s) == s
  {
    if s != [] {
      NormalForm(s[1..]);
      assert StripWhitespace(s) == [s[0]] + StripWhitespace(s[1..]);
      assert Lower([s[0]] + StripWhitespace(s[1..]))
          == [LowerChar(s[0])] + Lower(StripWhitespace(s[1..]));
    }
  }

  /** For a column name without whitespace (every name of the SQL vocabulary)
      the reader's normal form of the name is exactly `name.toLowerCase()`, the
      key the statement builder looks up. */
  lemma {:induction false} NormaliseMatchesLookup(name: string)
    requires forall i :: 0 <= i < |name| ==> !IsWhitespace(name[i])
    ensures NormaliseKey(name) == Lower(name)
  {
    if name != [] {
      NormaliseMatchesLookup(name[1..]);
      assert StripWhitespace(name) == [name[0]] + StripWhitespace(name[1..]);
      assert Lower([name[0]] + StripWhitespace(name[1..]))
          == [LowerChar(name[0])] + Lower(StripWhitespace(name[1..]));
      assert Lower(name) == [LowerChar(name[0])] + Lower(name[1..]);
    }
  }

  // ---------------------------------------------------------------------
  // HashMap.put in order: a later pair overwrites an earlier one

  function Assign(pairs: seq<(string, string)>): map<string, string> {
    if pairs == [] then map[]
    else Assign(pairs[..|pairs| - 1])[pairs[|pairs| - 1].0 := pairs[|pairs| - 1].1]
  }

  /** A key is in the map iff some pair names it. */
  lemma {:induction false} AssignKeys(pairs: seq<(string, string)>, k: string)
    ensures k in Assign(pairs) <==> exists i :: 0 <= i < |pairs| && pairs[i].0 == k
  {
    if pairs != [] {
      var front := pairs[..|pairs| - 1];
      AssignKeys(front, k);
      if k in Assign(front) {
        var i :| 0 <= i < |front| && front[i].0 == k;
        assert pairs[i].0 == k;
      }
      if exists i :: 0 <= i < |pairs| && pairs[i].0 == k {
        var i :| 0 <= i < |pairs| && pairs[i].0 == k;
        if i < |front| { assert front[i].0 == k; }
      }
    }
  }

  /** The value of a key is that of the LAST pair naming it. */
  lemma {:induction false} AssignLastWins(pairs: seq<(string, string)>, j: nat)
    requires j < |pairs|
    requires forall i :: j < i < |pairs| ==> pairs[i].0 != pairs[j].0
    ensures pairs[j].0 in Assign(pairs) && Assign(pairs)[pairs[j].0] == pairs[j].1
  {
    if j < |pairs| - 1 {
      var front := pairs[..|pairs| - 1];
      AssignLastWins(front, j);
    }
  }
}

=== FILE: sql.dfy ===
/**
  The statement builder of an operation test case: validation of the case at
  construction, the type-aware quoting of values, and the text of the INSERT,
  SELECT and DELETE statements built from the case's record over the fixed
  19-name column vocabulary. `Math.round(Double.parseDouble(..))` of a field
  is the given function `round`.
*/
module Sql {
  import opened Records

  /** The column vocabulary, in the order the builder visits it. */
  const KeySet: seq<string> := [
    "NodeId", "ObservationId", "DataPointId", "CollectionTimestamp",
    "ObservationHash", "ArchiveId", "StartLine", "EndArchive", "EndLine", "FileName", "Offset", "ContentsHash",
    "ModificationTime", "Content", "AttributeId", "AttributeValue", "AttributeValueString", "PropertyId",
    "PropertyValue"]

  /** Columns whose values are written between single quotes. */
  const QuoteList: seq<string> := [
    "ActionType", "DatabaseType", "TableName",
    "DataPointId", "ObservationHash", "FileName", "Content", "AttributeValue", "AttributeValueString",
    "PropertyValue", "LogSamplePath", "LogDestinationPath", "ModificationTime", "CollectionTimestamp"]

  /** Timestamp columns left unquoted in an INSERT. */
  const ExcludeForInsert: seq<string> := ["StartArchiveCollectionTimestamp", "ModificationTime", "CollectionTimestamp"]

  /** A JUnit `fail(..)`: the case cannot run. */
  datatype Failure = MissingActionType | MissingNumberOfRows | MissingNodeId

  /** A constructed operation test case. */
  datatype OpCase = OpCase(data: Record, testCaseNumber: string, actionType: string, tableName: string, numberOfRows: int)

  predicate CountsRows(action: string) {
    action == "SELECT" || action == "INSERT"
  }

  /** The constructor of an operation test case. */
  function MakeCase(test: Record, round: string -> int): (r: Result<OpCase, Failure>)
    ensures r == Err(MissingActionType) <==> !Present(test, "actiontype")
    ensures r == Err(MissingNumberOfRows)
        <==> Present(test, "actiontype") && CountsRows(test["actiontype"]) && !Present(test, "numberofrows")
    ensures r.Ok? ==> r.value.data == test && r.value.actionType == test["actiontype"] && r.value.actionType != ""
    ensures r.Ok? ==> r.value.tableName == Text(test, "tablename")
    ensures r.Ok? && CountsRows(r.value.actionType) ==> r.value.numberOfRows == round(test["numberofrows"])
    ensures r.Ok? && !CountsRows(r.value.actionType) ==> r.value.numberOfRows == -1
  {
    if !Present(test, "actiontype") then Err(MissingActionType)
    else
      var action := test["actiontype"];
      if Present(test, "numberofrows") && CountsRows(action) then
        Ok(OpCase(test, Text(test, "testcasenumber"), action, Text(test, "tablename"), round(test["numberofrows"])))
      else if CountsRows(action) then Err(MissingNumberOfRows)
      else Ok(OpCase(test, Text(test, "testcasenumber"), action, Text(test, "tablename"), -1))
  }

  // ---------------------------------------------------------------------
  // Quoting

  /** `quoteAdd` wraps the value in single quotes. */
  predicate Quoted(action: string, key: string) {
    key in QuoteList && !(key in ExcludeForInsert && action == "INSERT")
  }

  function QuoteAdd(c: OpCase, key: string): string {
    var v := Text(c.data, Lower(key));
    if Quoted(c.actionType, key) then "'" + v + "'" else v
  }

  /** Over the vocabulary: seven text columns are always quoted, the two
      timestamp columns are quoted except in an INSERT, the rest never. */
  lemma QuotingRule(action: string, key: string)
    requires key in KeySet
    ensures Quoted(action, key) <==>
              key in ["DataPointId", "ObservationHash", "FileName", "Content",
                      "AttributeValue", "AttributeValueString", "PropertyValue"]
              || (action != "INSERT" && key in ["ModificationTime", "CollectionTimestamp"])
  {
  }

  // ---------------------------------------------------------------------
  // String helpers with the meaning of the builder's `replaceAll("X$", ..)`

  /** `s.replaceAll(suffix + "$", repl)`: the strings built here never end in a
      line terminator, so `$` matches only at the very end. */
  function ReplaceSuffix(s: string, suffix: string, repl: string): string {
    if EndsWith(s, suffix) then s[..|s| - |suffix|] + repl else s
  }

  /** Every item followed by `sep`, as the builder's loops append them. */
  function Terminated(items: seq<string>, sep: string): string {
    if items == [] then "" else Terminated(items[..|items| - 1], sep) + items[|items| - 1] + sep
  }

  /** The items with `sep` between them. */
  function Join(items: seq<string>, sep: string): string {
    if items == [] then "" else if |items| == 1 then items[0]
    else Join(items[..|items| - 1], sep) + sep + items[|items| - 1]
  }

  lemma {:induction false} TerminatedIsJoined(items: seq<string>, sep: string)
    requires items != []
    ensures Terminated(items, sep) == Join(items, sep) + sep
  {
    if |items| > 1 {
      TerminatedIsJoined(items[..|items| - 1], sep);
    }
  }

  lemma ReplaceSeparator(prefix: string, sep: string, repl: string)
    ensures ReplaceSuffix(prefix + sep, sep, repl) == prefix + repl
  {
    assert (prefix + sep)[|prefix + sep| - |sep|..] == sep;
    assert (prefix + sep)[..|prefix + sep| - |sep|] == prefix;
  }

  // ---------------------------------------------------------------------
  // The statements

  /** The vocabulary names whose lower-cased key holds a non-empty value, in
      vocabulary order. */
  function PresentColumns(keys: seq<string>, data: Record): seq<string> {
    if keys == [] then []
    else
      var front := PresentColumns(keys[..|keys| - 1], data);
      var k := keys[|keys| - 1];
      if Present(data, Lower(k)) then front + [k] else front
  }

  lemma {:induction false} PresentColumnsMembers(keys: seq<string>, data: Record, k: string)
    ensures k in PresentColumns(keys, data) <==> k in keys && Present(data, Lower(k))
  {
    if keys != [] {
      PresentColumnsMembers(keys[..|keys| - 1], data, k);
      assert keys == keys[..|keys| - 1] + [keys[|keys| - 1]];
    }
  }

  function Values(c: OpCase, cols: seq<string>): (vs: seq<string>)
    ensures |vs| == |cols|
  {
    seq(|cols|, j requires 0 <= j < |cols| => QuoteAdd(c, cols[j]))
  }

  function Conditions(c: OpCase, op: string, cols: seq<string>): (cs: seq<string>)
    ensures |cs| == |cols|
  {
    seq(|cols|, j requires 0 <= j < |cols| => cols[j] + op + QuoteAdd(c, cols[j]))
  }

  /** The text `concatInsert` produces. */
  function InsertSql(c: OpCase): string {
    var cols := PresentColumns(KeySet, c.data);
    var head := ReplaceSuffix("INSERT INTO " + c.tableName + "(" + Terminated(cols, ", "), ", ", ") ");
    ReplaceSuffix(head + "VALUES(" + Terminated(Values(c, cols), ","), ",", ")")
  }

  /** `" = "` for mysql, `" == "` for every other dialect. */
  function EqualsOperator(dialect: string): string {
    if dialect == "mysql" then " = " else " == "
  }

  /** The text `concatSelect` produces. */
  function SelectSql(c: OpCase, dialect: string): string {
    var cols := PresentColumns(KeySet, c.data);
    var body := "SELECT * FROM " + c.tableName + " WHERE " + Terminated(Conditions(c, EqualsOperator(dialect), cols), " AND ");
    ReplaceSuffix(ReplaceSuffix(body, "AND ", ""), "WHERE ", "")
  }

  /** Java's decimal rendering of an int. */
  function Decimal(n: int): string
    decreases if n < 0 then 1 - n else n
  {
    if n < 0 then "-" + Decimal(-n)
    else if n < 10 then [(48 + n) as char]
    else Decimal(n / 10) + [(48 + n % 10) as char]
  }

  /** The text `concatClear` produces, or its `fail`. */
  function ClearSql(c: OpCase, dialect: string, round: string -> int): (r: Result<string, Failure>)
    ensures r.Err? <==> dialect == "mysql" && !Present(c.data, "nodeid")
    ensures r.Err? ==> r.error == MissingNodeId
    ensures r.Ok? && dialect != "mysql" ==> r.value == "DELETE FROM " + c.tableName
    ensures r.Ok? && dialect == "mysql" ==>
              r.value == "DELETE FROM " + c.tableName + " WHERE NodeId = " + Decimal(round(c.data["nodeid"]))
  {
    var sql := "DELETE FROM " + c.tableName;
    if dialect == "mysql" && Present(c.data, "nodeid") then Ok(sql + " WHERE NodeId = " + Decimal(round(c.data["nodeid"])))
    else if dialect == "mysql" then Err(MissingNodeId)
    else Ok(sql)
  }

  // ---------------------------------------------------------------------
  // What the statements look like

  /** INSERT lists exactly the present columns, and the VALUES list has one
      value per column in the same order; with no present column the two
      trailing-separator rewrites find nothing to rewrite. */
  lemma InsertShape(c: OpCase)
    ensures var cols := PresentColumns(KeySet, c.data);
      InsertSql(c) ==
        if cols == [] then "INSERT INTO " + c.tableName + "(VALUES("
        else "INSERT INTO " + c.tableName + "(" + Join(cols, ", ") + ") VALUES(" + Join(Values(c, cols), ",") + ")"
  {
    var cols := PresentColumns(KeySet, c.data);
    var open := "INSERT INTO " + c.tableName + "(";
    if cols == [] {
      assert !EndsWith(open, ", ") by { assert open[|open| - 1] == '('; }
      assert ReplaceSuffix(open + Terminated(cols, ", "), ", ", ") ") == open;
      assert !EndsWith(open + "VALUES(", ",") by { assert (open + "VALUES(")[|open| + 6] == '('; }
      assert open + "VALUES(" + Terminated(Values(c, cols), ",") == open + "VALUES(";
    } else {
      TerminatedIsJoined(cols, ", ");
      ReplaceSeparator(open + Join(cols, ", "), ", ", ") ");
      TerminatedIsJoined(Values(c, cols), ",");
      var head := open + Join(cols, ", ") + ") ";
      ReplaceSeparator(head + "VALUES(" + Join(Values(c, cols), ","), ",", ")");
      assert head + "VALUES(" + Terminated(Values(c, cols), ",")
          == head + "VALUES(" + Join(Values(c, cols), ",") + ",";
    }
  }

  /** SELECT joins `column op value` with AND; with no present column the
      WHERE keyword is dropped. (The second rewrite would also cut a final
      unquoted value that itself ends in "WHERE", hence the precondition.) */
  lemma SelectShape(c: OpCase, dialect: string)
    requires var cols := PresentColumns(KeySet, c.data);
      cols != [] ==> !EndsWith(QuoteAdd(c, cols[|cols| - 1]), "WHERE")
    ensures var cols := PresentColumns(KeySet, c.data);
      SelectSql(c, dialect) ==
        if cols == [] then "SELECT * FROM " + c.tableName + " "
        else "SELECT * FROM " + c.tableName + " WHERE " + Join(Conditions(c, EqualsOperator(dialect), cols), " AND ") + " "
  {
    SelectText(c, EqualsOperator(dialect), PresentColumns(KeySet, c.data));
  }

  lemma SelectText(c: OpCase, op: string, cols: seq<string>)
    requires op in [" = ", " == "]
    requires cols != [] ==> !EndsWith(QuoteAdd(c, cols[|cols| - 1]), "WHERE")
    ensures var body := "SELECT * FROM " + c.tableName + " WHERE " + Terminated(Conditions(c, op, cols), " AND ");
      ReplaceSuffix(ReplaceSuffix(body, "AND ", ""), "WHERE ", "") ==
        if cols == [] then "SELECT * FROM " + c.tableName + " "
        else "SELECT * FROM " + c.tableName + " WHERE " + Join(Conditions(c, op, cols), " AND ") + " "
  {
    var conds := Conditions(c, op, cols);
    if cols == [] {
      assert conds == [];
      NoConditions(c.tableName);
    } else {
      var n := |cols| - 1;
      ConditionsLast(c, op, cols);
      LastConditionNotWhere("SELECT * FROM " + c.tableName + " WHERE ", conds, " AND ", cols[n], op, QuoteAdd(c, cols[n]));
      SomeConditions("SELECT * FROM " + c.tableName + " WHERE ", conds);
    }
  }

  lemma ConditionsLast(c: OpCase, op: string, cols: seq<string>)
    requires cols != []
    ensures var n := |cols| - 1; Conditions(c, op, cols)[n] == cols[n] + op + QuoteAdd(c, cols[n])
  {
  }

  /** Joined conditions end in "WHERE" only if the last condition's value does. */
  lemma LastConditionNotWhere(open: string, conds: seq<string>, sep: string, col: string, op: string, v: string)
    requires conds != [] && conds[|conds| - 1] == col + op + v
    requires op in [" = ", " == "] && !EndsWith(v, "WHERE")
    ensures !EndsWith(open + Join(conds, sep), "WHERE")
  {
    var n := |conds| - 1;
    if n == 0 {
      Concat3(open, col + op, v);
      NotWhere(open + col, op, v);
    } else {
      var f := Join(conds[..n], sep);
      assert Join(conds, sep) == f + sep + conds[n];
      Concat6(open, f, sep, col, op, v);
      NotWhere(open + f + sep + col, op, v);
    }
  }

  lemma Concat3(a: string, b: string, c: string)
    ensures a + (b + c) == a + b + c
  {
  }

  lemma Concat6(a: string, f: string, b: string, c: string, d: string, e: string)
    ensures a + (f + b + (c + d + e)) == a + f + b + c + d + e
  {
  }

  lemma NoConditions(table: string)
    ensures ReplaceSuffix(ReplaceSuffix("SELECT * FROM " + table + " WHERE " + "", "AND ", ""), "WHERE ", "")
         == "SELECT * FROM " + table + " "
  {
    var head := "SELECT * FROM " + table + " ";
    var open := "SELECT * FROM " + table + " WHERE " + "";
    assert open == head + "WHERE ";
    assert !EndsWith(open, "AND ") by { assert open[|open| - 2] == 'E'; }
    ReplaceSeparator(head, "WHERE ", "");
  }

  lemma SomeConditions(open: string, conds: seq<string>)
    requires conds != [] && !EndsWith(open + Join(conds, " AND "), "WHERE")
    ensures ReplaceSuffix(ReplaceSuffix(open + Terminated(conds, " AND "), "AND ", ""), "WHERE ", "")
         == open + Join(conds, " AND ") + " "
  {
    TerminatedIsJoined(conds, " AND ");
    var stem := open + Join(conds, " AND ");
    assert open + Terminated(conds, " AND ") == stem + " " + "AND ";
    ReplaceSeparator(stem + " ", "AND ", "");
    NotEndsWithExtended(stem, "WHERE", ' ');
    assert "WHERE" + [' '] == "WHERE ";
  }

  /** A condition `x op v` ends in "WHERE" only if its value does: the
      operator ends in a space. */
  lemma NotWhere(x: string, op: string, v: string)
    requires op in [" = ", " == "] && !EndsWith(v, "WHERE")
    ensures !EndsWith(x + op + v, "WHERE")
  {
    var s := x + op + v;
    if |v| < 5 {
      assert s[|s| - |v| - 1] == ' ';
    } else {
      assert s[|s| - 5..] == v[|v| - 5..];
    }
  }

  lemma {:induction false} JoinEndsWithLast(items: seq<string>, sep: string)
    requires items != []
    ensures EndsWith(Join(items, sep), items[|items| - 1])
  {
    var j := Join(items, sep);
    var x := items[|items| - 1];
    if |items| > 1 {
      assert j == Join(items[..|items| - 1], sep) + sep + x;
    }
    assert j[|j| - |x|..] == x;
  }

  /** If `s` ends with `t`, anything `s` ends with (shorter than `t`) `t` ends with too. */
  lemma EndsWithShared(s: string, t: string, u: string)
    requires EndsWith(s, t) && EndsWith(s, u) && |u| <= |t|
    ensures EndsWith(t, u)
  {
    assert t[|t| - |u|..] == s[|s| - |u|..];
  }

  lemma NotEndsWithExtended(s: string, u: string, ch: char)
    requires !EndsWith(s, u)
    ensures !EndsWith(s + [ch], u + [ch])
  {
    if EndsWith(s + [ch], u + [ch]) {
      EndsWithDropLast(s, u, ch);
    }
  }

  lemma EndsWithDropLast(s: string, u: string, ch: char)
    requires EndsWith(s + [ch], u + [ch])
    ensures EndsWith(s, u)
  {
    assert s[|s| - |u|..] == (s + [ch])[|s| - |u|..|s|];
    assert (s + [ch])[|s| - |u|..|s|] == (u + [ch])[..|u|];
  }

  lemma SelectOperator(dialect: string)
    ensures EqualsOperator(dialect) == " = " <==> dialect == "mysql"
    ensures dialect != "mysql" ==> EqualsOperator(dialect) == " == "
  {
  }

  // ---------------------------------------------------------------------
  // The builder's loops

  lemma PresentColumnsSnoc(keys: seq<string>, i: nat, data: Record)
    requires i < |keys|
    ensures PresentColumns(keys[..i + 1], data)
         == if Present(data, Lower(keys[i])) then PresentColumns(keys[..i], data) + [keys[i]]
            else PresentColumns(keys[..i], data)
  {
    assert keys[..i + 1][..i] == keys[..i];
  }

  lemma TerminatedSnoc(items: seq<string>, x: string, sep: string)
    ensures Terminated(items + [x], sep) == Terminated(items, sep) + x + sep
  {
    assert (items + [x])[..|items|] == items;
  }

  lemma ValuesSnoc(c: OpCase, cols: seq<string>, k: string)
    ensures Values(c, cols + [k]) == Values(c, cols) + [QuoteAdd(c, k)]
  {
  }

  lemma ConditionsSnoc(c: OpCase, op: string, cols: seq<string>, k: string)
    ensures Conditions(c, op, cols + [k]) == Conditions(c, op, cols) + [k + op + QuoteAdd(c, k)]
  {
  }

  lemma Concat4(a: string, b: string, c: string, d: string)
    ensures a + (b + c + d) == a + b + c + d
  {
  }

  /** `concatInsert`. */
  method ConcatInsert(c: OpCase) returns (sql: string)
    ensures sql == InsertSql(c)
  {
    var open := "INSERT INTO " + c.tableName + "(";
    ghost var cols: seq<string> := [];
    sql := open;
    for i := 0 to |KeySet|
      invariant cols == PresentColumns(KeySet[..i], c.data)
      invariant sql == open + Terminated(cols, ", ")
    {
      var key := KeySet[i];
      PresentColumnsSnoc(KeySet, i, c.data);
      if Present(c.data, Lower(key)) {
        TerminatedSnoc(cols, key, ", ");
        Concat4(open, Terminated(cols, ", "), key, ", ");
        sql := sql + key + ", ";
        cols := cols + [key];
      }
    }
    assert KeySet[..|KeySet|] == KeySet;
    sql := ReplaceSuffix(sql, ", ", ") ");
    ghost var head := sql;
    var values := sql + "VALUES(";
    ghost var vs: seq<string> := [];
    sql := values;
    for i := 0 to |KeySet|
      invariant vs == Values(c, PresentColumns(KeySet[..i], c.data))
      invariant sql == values + Terminated(vs, ",")
    {
      var key := KeySet[i];
      PresentColumnsSnoc(KeySet, i, c.data);
      if Present(c.data, Lower(key)) {
        ValuesSnoc(c, PresentColumns(KeySet[..i], c.data), key);
        TerminatedSnoc(vs, QuoteAdd(c, key), ",");
        Concat4(values, Terminated(vs, ","), QuoteAdd(c, key), ",");
        sql := sql + QuoteAdd(c, key) + ",";
        vs := vs + [QuoteAdd(c, key)];
      }
    }
    sql := ReplaceSuffix(sql, ",", ")");
  }

  /** `concatSelect`. */
  method ConcatSelect(c: OpCase, dialect: string) returns (sql: string)
    ensures sql == SelectSql(c, dialect)
  {
    var op := if dialect == "mysql" then " = " else " == ";
    var open := "SELECT * FROM " + c.tableName + " WHERE ";
    ghost var conds: seq<string> := [];
    sql := open;
    for i := 0 to |KeySet|
      invariant conds == Conditions(c, op, PresentColumns(KeySet[..i], c.data))
      invariant sql == open + Terminated(conds, " AND ")
    {
      var key := KeySet[i];
      PresentColumnsSnoc(KeySet, i, c.data);
      if Present(c.data, Lower(key)) {
        var cond := key + op + QuoteAdd(c, key);
        ConditionsSnoc(c, op, PresentColumns(KeySet[..i], c.data), key);
        TerminatedSnoc(conds, cond, " AND ");
        Concat4(open, Terminated(conds, " AND "), cond, " AND ");
        sql := sql + cond + " AND ";
        conds := conds + [cond];
      }
    }
    assert KeySet[..|KeySet|] == KeySet;
    sql := ReplaceSuffix(sql, "AND ", "");
    sql := ReplaceSuffix(sql, "WHERE ", "");
  }
}

=== FILE: staging.dfy ===
/**
  The service cycle of a test: stop the service, clean the folders it
  writes to, copy the canned logs in (optionally rebasing their timestamps),
  start it, wait, archive what it produced and stop it again. The
  filesystem is a `Disk` value the class holds: the paths that exist, those
  that are directories and the lines of each regular file that can be read.
  The class also holds the paths the filesystem refuses to delete and
  `listing`, the order in which `Files.walk` lists the regular files inside
  a directory.
  The service and the sleeps leave only events in the ghost trace. Paths
  are `Option`s: `None` is a Java null.
*/
module Staging {
  import opened Records
  import opened Rebase

  datatype Event =
    | Stop
    | Start
    | Wait(minutes: int)
    | Cleaned(path: string)
    | CleanFailed(path: string)
    | Copied(source: string, destination: string)
    | Rebased(path: string)
    | RebaseUnreadable(path: string)
    | Archived(path: string, destination: string)
    | MissingDatabase(path: string)

  /** Why a stage throws out of `performProjectAction`. */
  datatype StageError =
    | NothingToClean              // IOException: no folder to clean existed
    | NothingToCopy               // IOException: no source existed
    | NullDestination             // NullPointerException: `new File(null)` for a copy destination
    | NullArchivePath             // NullPointerException: `new File(null)` for an entry to archive
    | RebaseFailed(error: RebaseError)

  /** What the filesystem holds. A regular file that exists but is missing
      from `files` cannot be read. */
  datatype Disk = Disk(present: set<string>, dirs: set<string>, files: map<string, seq<string>>)

  /** Given the regular files that exist and a directory, the order in which
      `Files.walk` lists the regular files inside it. */
  type Listing = (set<string>, string) -> seq<string>

  predicate CleanEvent(e: Event) {
    e.Cleaned? || e.CleanFailed?
  }

  predicate CopyEvent(e: Event) {
    e.Copied? || e.Rebased? || e.RebaseUnreadable?
  }

  predicate ArchiveEvent(e: Event) {
    e.Archived? || e.MissingDatabase?
  }

  predicate IsSeparator(c: char) {
    c == '/' || c == '\\'
  }

  /** Path `f` lies inside directory `d`, at any depth. */
  predicate Under(f: string, d: string) {
    |d| < |f| && f[..|d|] == d && IsSeparator(f[|d|])
  }

  lemma UnderTrans(f: string, e: string, d: string)
    requires Under(f, e) && Under(e, d)
    ensures Under(f, d)
  {
    assert f[..|d|] == f[..|e|][..|d|];
  }

  /** A listing that lists every regular file inside the directory, once,
      and nothing else. */
  ghost predicate Lists(listing: Listing) {
    (forall s, d, f :: f in listing(s, d) <==> f in s && Under(f, d))
    && (forall s, d, i, j :: 0 <= i < j < |listing(s, d)| ==> listing(s, d)[i] != listing(s, d)[j])
  }

  /** The files the rebasing walk visits for `path`: the regular files inside
      it when it is a directory, the path itself otherwise. */
  function Walk(disk: Disk, listing: Listing, path: string): seq<string> {
    if path in disk.dirs then listing(disk.present - disk.dirs, path) else [path]
  }

  /** The log files whose timestamps are rebased. */
  predicate Selected(path: string) {
    EndsWith(path, ".log") || EndsWith(path, ".dg") || EndsWith(path, ".rcp") || EndsWith(path, ".rct")
  }

  /** `path.matches(".*agentProgramV3.log$")` on a selected path: it ends in
      that name and `.*` can cross every character before it. */
  predicate IsAgentLog(path: string) {
    EndsWith(path, "agentProgramV3.log") && forall k :: 0 <= k < |path| ==> !IsLineTerminator(path[k])
  }

  function DialectFor(path: string): Dialect {
    if IsAgentLog(path) then Agent else Iso
  }

  /** One file of the rebasing walk: an unselected path is skipped, a file
      that cannot be read is reported and skipped, a rewrite that raises ends
      the walk. */
  function RebaseStep(files: map<string, seq<string>>, path: string, now: Stamp, cal: Calendar)
    : Result<map<string, seq<string>>, RebaseError>
  {
    if !Selected(path) || path !in files then Ok(files)
    else
      var lines := files[path];
      var r := Rebase.Rebased(lines, lines, DialectFor(path), now, cal);
      if r.Err? then Err(r.error) else Ok(files[path := r.value])
  }

  /** The rebasing walk over `paths`, in order. */
  function RebaseAll(files: map<string, seq<string>>, paths: seq<string>, now: Stamp, cal: Calendar)
    : Result<map<string, seq<string>>, RebaseError>
    decreases |paths|
  {
    if paths == [] then Ok(files)
    else
      var step := RebaseStep(files, paths[0], now, cal);
      if step.Err? then step else RebaseAll(step.value, paths[1..], now, cal)
  }

  /** The walk changes no file outside its selected paths and creates or
      removes none. */
  lemma {:induction false} RebaseAllTouchesOnlySelected(files: map<string, seq<string>>, paths: seq<string>,
                                                         now: Stamp, cal: Calendar, k: string)
    requires RebaseAll(files, paths, now, cal).Ok?
    requires k in files && (k !in paths || !Selected(k))
    ensures var out := RebaseAll(files, paths, now, cal).value;
      out.Keys == files.Keys && out[k] == files[k]
    decreases |paths|
  {
    if paths != [] {
      var step := RebaseStep(files, paths[0], now, cal);
      assert k != paths[0] || !Selected(k);
      assert step.value.Keys == files.Keys && step.value[k] == files[k];
      if k in paths[1..] {
        assert k in paths;
      }
      RebaseAllTouchesOnlySelected(step.value, paths[1..], now, cal, k);
    }
  }

  /** A selected, readable file that the walk lists once is rewritten to the
      rebasing of its own lines, in the dialect its name selects. */
  lemma {:induction false} RebaseAllRewritesListed(files: map<string, seq<string>>, paths: seq<string>,
                                                   now: Stamp, cal: Calendar, k: string)
    requires RebaseAll(files, paths, now, cal).Ok?
    requires k in files && Selected(k) && k in paths
    requires forall i, j :: 0 <= i < j < |paths| ==> paths[i] != paths[j]
    ensures var r := Rebase.Rebased(files[k], files[k], DialectFor(k), now, cal);
      var out := RebaseAll(files, paths, now, cal).value;
      r.Ok? && k in out && out[k] == r.value
    decreases |paths|
  {
    var step := RebaseStep(files, paths[0], now, cal);
    if paths[0] == k {
      forall j | 0 <= j < |paths[1..]|
        ensures paths[1..][j] != k
      {
        assert paths[1..][j] == paths[j + 1];
      }
      RebaseAllTouchesOnlySelected(step.value, paths[1..], now, cal, k);
    } else {
      assert step.value[k] == files[k];
      assert k in paths[1..] by {
        var j :| 0 <= j < |paths| && paths[j] == k;
        assert paths[1..][j - 1] == k;
      }
      RebaseAllRewritesListed(step.value, paths[1..], now, cal, k);
    }
  }

  /** A selected file listed once, and in which no line matches its
      dialect's pattern, is rewritten to exactly its old lines. */
  lemma {:induction false} RebaseAllUnmatchedFile(files: map<string, seq<string>>, paths: seq<string>,
                                                  now: Stamp, cal: Calendar, k: string)
    requires RebaseAll(files, paths, now, cal).Ok? && k in files
    requires forall i :: 0 <= i < |files[k]| ==> !LineMatches(PatternOf(DialectFor(k)), Trim(files[k][i]))
    ensures var out := RebaseAll(files, paths, now, cal).value;
      k in out && out[k] == files[k]
    decreases |paths|
  {
    if paths != [] {
      var step := RebaseStep(files, paths[0], now, cal);
      if paths[0] == k && Selected(k) {
        UnmatchedFileReproduced(files[k], DialectFor(k), now, cal);
      }
      assert step.value[k] == files[k] && step.value.Keys == files.Keys;
      RebaseAllUnmatchedFile(step.value, paths[1..], now, cal, k);
    }
  }

  /** The name of a path: the text after its last separator. */
  function Name(path: string): string {
    if path == [] then []
    else if IsSeparator(path[|path| - 1]) then []
    else Name(path[..|path| - 1]) + [path[|path| - 1]]
  }

  /** `String.contains`. */
  predicate Contains(s: string, part: string)
    decreases |s|
  {
    |part| <= |s| && (s[..|part|] == part || Contains(s[1..], part))
  }

  /** An entry of a path array that counts as usable: non-null and existing. */
  predicate Usable(p: Option<string>, present: set<string>) {
    p.Some? && p.value in present
  }

  // ---------------------------------------------------------------- clean

  /** `f` cannot be deleted: it is, or holds, an existing path that the
      filesystem refuses to delete. */
  predicate Stuck(present: set<string>, undeletable: set<string>, f: string) {
    exists u :: u in present && u in undeletable && (u == f || Under(u, f))
  }

  /** `cleanDirectory(p)` throws: something inside `p` cannot be deleted. */
  predicate CleanFails(present: set<string>, undeletable: set<string>, p: string) {
    exists u :: u in present && u in undeletable && Under(u, p)
  }

  /** `cleanDirectory(p)` deletes `f`: it lies inside `p` and holds nothing
      that cannot be deleted (a folder is emptied before it is deleted, so it
      goes only when all of it can go). */
  predicate Deleted(present: set<string>, undeletable: set<string>, p: string, f: string) {
    Under(f, p) && !Stuck(present, undeletable, f)
  }

  /** The paths that remain after `cleanDirectory(p)`. */
  function Remaining(present: set<string>, undeletable: set<string>, p: string): set<string> {
    set f | f in present && !Deleted(present, undeletable, p, f)
  }

  /** `cleanDirectory(p)`: every child of `p` is deleted in turn and a
      failure is thrown only after the last one, so everything inside `p`
      that can be deleted is gone whether or not the call throws; `p` itself
      stays. */
  function Emptied(disk: Disk, undeletable: set<string>, p: string): Disk {
    Disk(Remaining(disk.present, undeletable, p),
         set f | f in disk.dirs && !Deleted(disk.present, undeletable, p, f),
         map k | k in disk.files && !Deleted(disk.present, undeletable, p, k) :: disk.files[k])
  }

  /** Cleaning keeps every path that cannot be deleted, so whether a later
      path is stuck, or a later clean fails, does not change. */
  lemma RemainingKeepsStuck(present: set<string>, undeletable: set<string>, p: string)
    ensures Remaining(present, undeletable, p) <= present
    ensures forall u :: u in present && u in undeletable ==> u in Remaining(present, undeletable, p)
    ensures forall f :: Stuck(Remaining(present, undeletable, p), undeletable, f) <==> Stuck(present, undeletable, f)
    ensures forall q :: CleanFails(Remaining(present, undeletable, p), undeletable, q)
                        <==> CleanFails(present, undeletable, q)
  {
    forall u | u in present && u in undeletable
      ensures u in Remaining(present, undeletable, p)
    {
    }
  }

  /** What one clean does: the folder stays, nothing outside it changes, no
      undeletable path goes; a clean that does not fail leaves the folder
      empty, and one that fails leaves something inside it. */
  lemma EmptiedShape(disk: Disk, undeletable: set<string>, p: string)
    ensures var e := Emptied(disk, undeletable, p);
      (p in disk.present ==> p in e.present)
      && (forall f :: f in disk.present && !Under(f, p) ==> f in e.present)
      && (forall k :: k in disk.files && !Under(k, p) ==> k in e.files && e.files[k] == disk.files[k])
      && (forall u :: u in disk.present && u in undeletable ==> u in e.present)
      && (forall f :: f in disk.present && Under(f, p) && !Stuck(disk.present, undeletable, f) ==> f !in e.present)
      && (!CleanFails(disk.present, undeletable, p) ==> forall f :: f in e.present ==> !Under(f, p))
      && (CleanFails(disk.present, undeletable, p) ==> exists u :: u in e.present && Under(u, p))
  {
    RemainingKeepsStuck(disk.present, undeletable, p);
    var e := Emptied(disk, undeletable, p);
    if !CleanFails(disk.present, undeletable, p) {
      forall f | f in e.present
        ensures !Under(f, p)
      {
        if Under(f, p) {
          var u :| u in disk.present && u in undeletable && (u == f || Under(u, f));
          if u != f {
            UnderTrans(u, f, p);
          }
        }
      }
    }
  }

  /** `f` lies inside an entry of `paths` that existed beforehand. */
  predicate ClearedBy(paths: seq<Option<string>>, present: set<string>, f: string) {
    exists i :: 0 <= i < |paths| && Usable(paths[i], present) && Under(f, paths[i].value)
  }

  /** `CleanFolderPaths` deletes `f`: it lies inside an entry that existed
      and holds nothing that cannot be deleted. */
  predicate Cleared(paths: seq<Option<string>>, present: set<string>, undeletable: set<string>, f: string) {
    ClearedBy(paths, present, f) && !Stuck(present, undeletable, f)
  }

  /** The disk after `CleanFolderPaths`: what it deletes is gone, everything
      else is as it was. */
  function AfterClean(disk: Disk, paths: seq<Option<string>>, undeletable: set<string>): Disk {
    Disk(set f | f in disk.present && !Cleared(paths, disk.present, undeletable, f),
         set f | f in disk.dirs && !Cleared(paths, disk.present, undeletable, f),
         map k | k in disk.files && !Cleared(paths, disk.present, undeletable, k) :: disk.files[k])
  }

  /** The events `CleanFolderPaths` leaves, entry by entry: a null or
      missing entry (also one an earlier entry deleted) is passed over, a
      folder whose cleaning throws is reported as failed, any other as
      cleaned. */
  function CleanEvents(paths: seq<Option<string>>, present: set<string>, undeletable: set<string>): seq<Event>
    decreases |paths|
  {
    if paths == [] then []
    else if !Usable(paths[0], present) then CleanEvents(paths[1..], present, undeletable)
    else
      var p := paths[0].value;
      [if CleanFails(present, undeletable, p) then CleanFailed(p) else Cleaned(p)]
      + CleanEvents(paths[1..], Remaining(present, undeletable, p), undeletable)
  }

  /** Cleaning reports only clean events, at most one per entry, each about
      an existing path, and a failure exactly for a folder holding something
      that cannot be deleted. */
  lemma {:induction false} CleanEventsShape(paths: seq<Option<string>>, present: set<string>, undeletable: set<string>)
    ensures |CleanEvents(paths, present, undeletable)| <= |paths|
    ensures forall e :: e in CleanEvents(paths, present, undeletable) ==>
      CleanEvent(e) && e.path in present && (e.CleanFailed? <==> CleanFails(present, undeletable, e.path))
    decreases |paths|
  {
    if paths != [] {
      CleanEventsShape(paths[1..], present, undeletable);
      if Usable(paths[0], present) {
        RemainingKeepsStuck(present, undeletable, paths[0].value);
        CleanEventsShape(paths[1..], Remaining(present, undeletable, paths[0].value), undeletable);
      }
    }
  }

  /** An existing entry that lies inside no earlier existing entry is
      reported: cleaned, or failed when it holds something that cannot be
      deleted. */
  lemma {:induction false} CleanEventsReport(paths: seq<Option<string>>, present: set<string>,
                                             undeletable: set<string>, i: nat)
    requires i < |paths| && Usable(paths[i], present)
    requires forall j :: 0 <= j < i && Usable(paths[j], present) ==> !Under(paths[i].value, paths[j].value)
    ensures (if CleanFails(present, undeletable, paths[i].value) then CleanFailed(paths[i].value)
             else Cleaned(paths[i].value)) in CleanEvents(paths, present, undeletable)
    decreases i
  {
    if i > 0 {
      var later := if Usable(paths[0], present) then Remaining(present, undeletable, paths[0].value) else present;
      if Usable(paths[0], present) {
        RemainingKeepsStuck(present, undeletable, paths[0].value);
      }
      assert paths[1..][i - 1] == paths[i];
      forall j | 0 <= j < i - 1 && Usable(paths[1..][j], later)
        ensures !Under(paths[1..][i - 1].value, paths[1..][j].value)
      {
        assert paths[1..][j] == paths[j + 1];
      }
      CleanEventsReport(paths[1..], later, undeletable, i - 1);
    }
  }

  /** Nothing usable: the clean changes nothing. */
  lemma AfterCleanNone(disk: Disk, paths: seq<Option<string>>, undeletable: set<string>)
    requires forall j :: 0 <= j < |paths| ==> !Usable(paths[j], disk.present)
    ensures AfterClean(disk, paths, undeletable) == disk
  {
    var after := AfterClean(disk, paths, undeletable);
    assert after.present == disk.present;
    assert after.dirs == disk.dirs;
    assert after.files == disk.files;
  }

  /** A clean keeps every path that cannot be deleted. */
  lemma AfterCleanKeepsStuck(disk: Disk, paths: seq<Option<string>>, undeletable: set<string>)
    ensures AfterClean(disk, paths, undeletable).present <= disk.present
    ensures forall f :: Stuck(AfterClean(disk, paths, undeletable).present, undeletable, f)
                        <==> Stuck(disk.present, undeletable, f)
  {
    var after := AfterClean(disk, paths, undeletable);
    forall u | u in disk.present && u in undeletable
      ensures u in after.present
    {
      assert Stuck(disk.present, undeletable, u) by { assert u == u; }
    }
  }

  /** One more entry of the clean: it cleans its folder when, at its turn,
      the entry exists. */
  lemma CleanStep(disk: Disk, paths: seq<Option<string>>, undeletable: set<string>, i: nat)
    requires i < |paths|
    ensures var cur := AfterClean(disk, paths[..i], undeletable);
      AfterClean(disk, paths[..i + 1], undeletable)
        == if Usable(paths[i], cur.present) then Emptied(cur, undeletable, paths[i].value) else cur
  {
    var cur := AfterClean(disk, paths[..i], undeletable);
    var p := paths[i];
    var adds := Usable(p, disk.present);
    AfterCleanKeepsStuck(disk, paths[..i], undeletable);
    forall f
      ensures ClearedBy(paths[..i + 1], disk.present, f)
              <==> ClearedBy(paths[..i], disk.present, f) || (adds && Under(f, p.value))
    {
      if ClearedBy(paths[..i + 1], disk.present, f) {
        var j :| 0 <= j < i + 1 && Usable(paths[..i + 1][j], disk.present) && Under(f, paths[..i + 1][j].value);
        if j < i {
          assert paths[..i][j] == paths[..i + 1][j];
        }
      }
      if ClearedBy(paths[..i], disk.present, f) {
        var j :| 0 <= j < i && Usable(paths[..i][j], disk.present) && Under(f, paths[..i][j].value);
        assert paths[..i + 1][j] == paths[..i][j];
      }
      if adds && Under(f, p.value) {
        assert paths[..i + 1][i] == p;
      }
    }
    if !Usable(p, cur.present) && adds {
      assert ClearedBy(paths[..i], disk.present, p.value);
      var j :| 0 <= j < i && Usable(paths[..i][j], disk.present) && Under(p.value, paths[..i][j].value);
      forall f | Under(f, p.value)
        ensures ClearedBy(paths[..i], disk.present, f)
      {
        UnderTrans(f, p.value, paths[..i][j].value);
      }
    }
    var next := AfterClean(disk, paths[..i + 1], undeletable);
    if Usable(p, cur.present) {
      var emptied := Emptied(cur, undeletable, p.value);
      assert next.present == emptied.present;
      assert next.dirs == emptied.dirs;
      assert next.files == emptied.files;
    } else {
      assert next.present == cur.present;
      assert next.dirs == cur.dirs;
      assert next.files == cur.files;
    }
  }

  // ----------------------------------------------------------------- copy

  /** Where the copy of `f`, inside directory `source`, lands inside `dest`:
      under the same relative path. */
  function Rehome(f: string, source: string, dest: string): string
    requires |source| <= |f|
  {
    dest + f[|source|..]
  }

  lemma RehomeInjective(source: string, dest: string)
    ensures forall f, g {:trigger Rehome(f, source, dest), Rehome(g, source, dest)} ::
      Under(f, source) && Under(g, source) && Rehome(f, source, dest) == Rehome(g, source, dest) ==> f == g
  {
    forall f, g | Under(f, source) && Under(g, source) && Rehome(f, source, dest) == Rehome(g, source, dest)
      ensures f == g
    {
      assert f[|source|..] == Rehome(f, source, dest)[|dest|..];
      assert g[|source|..] == Rehome(g, source, dest)[|dest|..];
      assert f == f[..|source|] + f[|source|..];
      assert g == g[..|source|] + g[|source|..];
    }
  }

  /** Where the entries of `s` inside `source` land inside `dest`. */
  function Landed(s: set<string>, source: string, dest: string): set<string> {
    set f | f in s && Under(f, source) :: Rehome(f, source, dest)
  }

  /** The files inside `source`, each with its lines, at their place inside
      `dest`. */
  function Brought(files: map<string, seq<string>>, source: string, dest: string): map<string, seq<string>> {
    RehomeInjective(source, dest);
    map f | f in files && Under(f, source) :: Rehome(f, source, dest) := files[f]
  }

  lemma BroughtAt(files: map<string, seq<string>>, source: string, dest: string, f: string)
    requires f in files && Under(f, source)
    ensures Rehome(f, source, dest) in Brought(files, source, dest)
    ensures Brought(files, source, dest)[Rehome(f, source, dest)] == files[f]
  {
    RehomeInjective(source, dest);
  }

  /** The folders above `path`: each non-empty prefix of it that a
      separator follows. */
  function Ancestors(path: string): (r: set<string>)
    ensures forall a :: a in r ==> |a| < |path|
  {
    set i | 0 < i < |path| && IsSeparator(path[i]) :: path[..i]
  }

  /** The ancestors of `path` are exactly the non-empty paths it lies under. */
  lemma AncestorsUnder(path: string)
    ensures forall a :: a in Ancestors(path) <==> a != "" && Under(path, a)
  {
    forall a | a != "" && Under(path, a)
      ensures a in Ancestors(path)
    {
      assert path[..|a|] == a;
    }
  }

  /** A regular file inside `source` lands on `k`, inside `dest`. */
  predicate Replaced(disk: Disk, source: string, dest: string, k: string) {
    Under(k, dest) && source + k[|dest|..] in disk.present - disk.dirs
  }

  /** `copyFoldersOrFiles(source, dest)`: a directory's contents go inside
      `dest` under their relative paths (`copyDirectory`), a file goes into
      `dest` under its own name (`copyFileToDirectory`); `dest` exists as a
      directory afterwards, and so does every folder above it, the missing
      ones created (`mkdirs`). A copied file replaces what was at its place,
      and the copy of a file that cannot be read cannot be read either. */
  function CopyInto(disk: Disk, source: string, dest: string): Disk {
    var made := Ancestors(dest) - disk.present;
    if source in disk.dirs then
      Disk(disk.present + Ancestors(dest) + {dest} + Landed(disk.present, source, dest),
           disk.dirs + made + {dest} + Landed(disk.dirs, source, dest),
           (map k | k in disk.files && !Replaced(disk, source, dest, k) :: disk.files[k])
           + Brought(disk.files, source, dest))
    else
      var target := dest + "/" + Name(source);
      Disk(disk.present + Ancestors(dest) + {dest, target}, disk.dirs + made + {dest},
           if source in disk.files then disk.files[target := disk.files[source]]
           else map k | k in disk.files && k != target :: disk.files[k])
  }

  lemma UnderAppend(dest: string, rest: string)
    requires |rest| > 0 && IsSeparator(rest[0])
    ensures Under(dest + rest, dest)
  {
    assert (dest + rest)[..|dest|] == dest;
  }

  /** A copy leaves `dest` and every folder above it existing, a missing one
      as a new folder; it adds only those and what lies inside `dest`, and
      changes no file outside `dest`. */
  lemma CopyIntoInside(disk: Disk, source: string, dest: string)
    ensures var c := CopyInto(disk, source, dest);
      disk.present <= c.present && disk.dirs <= c.dirs && dest in c.present
      && (forall a :: a != "" && Under(dest, a) ==> a in c.present && (a !in disk.present ==> a in c.dirs))
      && (forall f :: f in c.present ==> f in disk.present || f == dest || Under(f, dest) || Under(dest, f))
      && (forall k :: k in disk.files && !Under(k, dest) ==> k in c.files && c.files[k] == disk.files[k])
      && (forall k :: k in c.files ==> k in disk.files || Under(k, dest))
  {
    var c := CopyInto(disk, source, dest);
    AncestorsUnder(dest);
    if source in disk.dirs {
      forall f | f in disk.present && Under(f, source)
        ensures Under(Rehome(f, source, dest), dest)
      {
        UnderAppend(dest, f[|source|..]);
      }
    } else {
      UnderAppend(dest, "/" + Name(source));
      assert dest + "/" + Name(source) == dest + ("/" + Name(source));
    }
  }

  /** The copy of a directory brings each readable file inside it to the
      same place inside `dest`, as a regular file with the same lines. */
  lemma CopyDirBrings(disk: Disk, source: string, dest: string, f: string)
    requires source in disk.dirs && f in disk.files && f in disk.present - disk.dirs && Under(f, source)
    requires Rehome(f, source, dest) !in disk.dirs
    ensures var c := CopyInto(disk, source, dest); var t := Rehome(f, source, dest);
      Under(t, dest) && t in c.present && t !in c.dirs && t in c.files && c.files[t] == disk.files[f]
  {
    var t := Rehome(f, source, dest);
    UnderAppend(dest, f[|source|..]);
    BroughtAt(disk.files, source, dest, f);
    RehomeInjective(source, dest);
    var c := CopyInto(disk, source, dest);
    assert t !in Landed(disk.dirs, source, dest);
  }

  /** The copy of a readable file puts its lines into `dest` under its name. */
  lemma CopyFileBrings(disk: Disk, source: string, dest: string)
    requires source !in disk.dirs && source in disk.files
    requires dest + "/" + Name(source) !in disk.dirs
    ensures var c := CopyInto(disk, source, dest); var t := dest + "/" + Name(source);
      Under(t, dest) && t in c.present && t !in c.dirs && t in c.files && c.files[t] == disk.files[source]
  {
    UnderAppend(dest, "/" + Name(source));
    assert dest + "/" + Name(source) == dest + ("/" + Name(source));
  }

  /** One usable entry of `copyToProjectPaths`: the copy, then, when asked,
      the rebasing walk over the destination. */
  function CopyEntry(disk: Disk, source: string, dest: string, updateLogFileDates: bool, now: Stamp, cal: Calendar,
                     listing: Listing): Result<Disk, StageError>
  {
    var copied := CopyInto(disk, source, dest);
    if !updateLogFileDates then Ok(copied)
    else
      var rebased := RebaseAll(copied.files, Walk(copied, listing, dest), now, cal);
      if rebased.Err? then Err(RebaseFailed(rebased.error)) else Ok(copied.(files := rebased.value))
  }

  /** `copyToProjectPaths` on the disk: each source that exists at its turn
      is copied to the destination at its position; a null destination or a
      failing rebase ends the copy. */
  function CopyAll(disk: Disk, sources: seq<Option<string>>, dests: seq<Option<string>>, updateLogFileDates: bool,
                   now: Stamp, cal: Calendar, listing: Listing): (r: Result<Disk, StageError>)
    requires |sources| == |dests|
    ensures r.Err? ==> r.error.NullDestination? || r.error.RebaseFailed?
    decreases |sources|
  {
    if sources == [] then Ok(disk)
    else if !Usable(sources[0], disk.present) then
      CopyAll(disk, sources[1..], dests[1..], updateLogFileDates, now, cal, listing)
    else if dests[0].None? then Err(NullDestination)
    else
      var step := CopyEntry(disk, sources[0].value, dests[0].value, updateLogFileDates, now, cal, listing);
      if step.Err? then step else CopyAll(step.value, sources[1..], dests[1..], updateLogFileDates, now, cal, listing)
  }

  /** With rebasing asked for, a log file that a folder copy brings in
      carries the rebased lines of its fixture. */
  lemma CopiedLogRebased(disk: Disk, source: string, dest: string, now: Stamp, cal: Calendar, listing: Listing,
                         f: string)
    requires Lists(listing)
    requires source in disk.dirs && f in disk.files && f in disk.present - disk.dirs && Under(f, source)
    requires Rehome(f, source, dest) !in disk.dirs && Selected(Rehome(f, source, dest))
    requires CopyEntry(disk, source, dest, true, now, cal, listing).Ok?
    ensures var t := Rehome(f, source, dest);
      var r := Rebase.Rebased(disk.files[f], disk.files[f], DialectFor(t), now, cal);
      var out := CopyEntry(disk, source, dest, true, now, cal, listing).value;
      r.Ok? && t in out.files && out.files[t] == r.value
  {
    var t := Rehome(f, source, dest);
    var c := CopyInto(disk, source, dest);
    CopyDirBrings(disk, source, dest, f);
    var walked := Walk(c, listing, dest);
    assert walked == listing(c.present - c.dirs, dest);
    assert t in walked;
    RebaseAllRewritesListed(c.files, walked, now, cal, t);
  }

  // -------------------------------------------------------------- archive

  /** `archiveTestData` on the disk, with the events it leaves: an existing
      entry is copied into `dest`, a missing entry whose name mentions
      "sqlite" is reported, any other missing entry is passed over; a null
      entry ends the walk. */
  function ArchiveAll(disk: Disk, paths: seq<Option<string>>, dest: string): (Disk, seq<Event>)
    decreases |paths|
  {
    if paths == [] || paths[0].None? then (disk, [])
    else
      var p := paths[0].value;
      if p in disk.present then
        var rest := ArchiveAll(CopyInto(disk, p, dest), paths[1..], dest);
        (rest.0, [Archived(p, dest)] + rest.1)
      else
        var rest := ArchiveAll(disk, paths[1..], dest);
        (rest.0, if Contains(Name(p), "sqlite") then [MissingDatabase(p)] + rest.1 else rest.1)
  }

  /** Where `from` points after archiving: the last entry before the first
      null one, or where it pointed before. */
  function LastArchived(paths: seq<Option<string>>, from: Option<string>): Option<string>
    decreases |paths|
  {
    if paths == [] || paths[0].None? then from else LastArchived(paths[1..], paths[0])
  }

  /** What one non-null entry of `archiveTestData` does: the copy into
      `dest` of an existing entry, or the report of a missing database. */
  function ArchiveOne(disk: Disk, p: string, dest: string): (Disk, seq<Event>) {
    if p in disk.present then (CopyInto(disk, p, dest), [Archived(p, dest)])
    else (disk, if Contains(Name(p), "sqlite") then [MissingDatabase(p)] else [])
  }

  lemma ArchiveAllStep(disk: Disk, paths: seq<Option<string>>, dest: string)
    requires paths != []
    ensures paths[0].None? ==> ArchiveAll(disk, paths, dest) == (disk, [])
    ensures paths[0].Some? ==>
      var one := ArchiveOne(disk, paths[0].value, dest);
      var rest := ArchiveAll(one.0, paths[1..], dest);
      ArchiveAll(disk, paths, dest) == (rest.0, one.1 + rest.1)
  {
    if paths[0].Some? && paths[0].value !in disk.present && !Contains(Name(paths[0].value), "sqlite") {
      assert [] + ArchiveAll(disk, paths[1..], dest).1 == ArchiveAll(disk, paths[1..], dest).1;
    }
  }

  /** Archiving reports only archive events, at most one per entry. */
  lemma {:induction false} ArchiveAllShape(disk: Disk, paths: seq<Option<string>>, dest: string)
    ensures |ArchiveAll(disk, paths, dest).1| <= |paths|
    ensures forall e :: e in ArchiveAll(disk, paths, dest).1 ==> ArchiveEvent(e)
    decreases |paths|
  {
    if paths != [] && paths[0].Some? {
      var p := paths[0].value;
      if p in disk.present {
        ArchiveAllShape(CopyInto(disk, p, dest), paths[1..], dest);
      } else {
        ArchiveAllShape(disk, paths[1..], dest);
      }
    }
  }

  /** Every entry that existed before the call, and that no null entry
      precedes, is archived into `dest`. */
  lemma {:induction false} ArchiveAllCoversExisting(disk: Disk, paths: seq<Option<string>>, dest: string, i: nat)
    requires i < |paths| && forall j :: 0 <= j <= i ==> paths[j].Some?
    requires paths[i].value in disk.present
    ensures Archived(paths[i].value, dest) in ArchiveAll(disk, paths, dest).1
    decreases |paths|
  {
    if i > 0 {
      var p := paths[0].value;
      var later := if p in disk.present then CopyInto(disk, p, dest) else disk;
      CopyIntoInside(disk, p, dest);
      assert paths[1..][i - 1] == paths[i];
      ArchiveAllCoversExisting(later, paths[1..], dest, i - 1);
    }
  }

  /** A missing entry outside `dest` whose name does not mention "sqlite"
      leaves no trace. */
  lemma {:induction false} ArchiveAllSilentOnMissing(disk: Disk, paths: seq<Option<string>>, dest: string, p: string)
    requires p != dest && !Under(p, dest) && !Under(dest, p) && p !in disk.present && !Contains(Name(p), "sqlite")
    ensures forall e :: e in ArchiveAll(disk, paths, dest).1 ==> e != Archived(p, dest) && e != MissingDatabase(p)
    decreases |paths|
  {
    if paths != [] && paths[0].Some? {
      var q := paths[0].value;
      if q in disk.present {
        CopyIntoInside(disk, q, dest);
        ArchiveAllSilentOnMissing(CopyInto(disk, q, dest), paths[1..], dest, p);
      } else {
        ArchiveAllSilentOnMissing(disk, paths[1..], dest, p);
      }
    }
  }

  /** Archiving changes no file outside `dest`. */
  lemma {:induction false} ArchiveAllKeepsOutside(disk: Disk, paths: seq<Option<string>>, dest: string, k: string)
    requires k in disk.files && !Under(k, dest)
    ensures var out := ArchiveAll(disk, paths, dest).0;
      k in out.files && out.files[k] == disk.files[k]
    decreases |paths|
  {
    if paths != [] && paths[0].Some? {
      var q := paths[0].value;
      if q in disk.present {
        CopyIntoInside(disk, q, dest);
        ArchiveAllKeepsOutside(CopyInto(disk, q, dest), paths[1..], dest, k);
      } else {
        ArchiveAllKeepsOutside(disk, paths[1..], dest, k);
      }
    }
  }

  // ---------------------------------------------------------------- cycle

  /** What a stage leaves: the disk, or the exception it throws. */
  function Outcome(r: Result<(), StageError>, disk: Disk): Result<Disk, StageError> {
    if r.Ok? then Ok(disk) else Err(r.error)
  }

  /** `CleanFolderPaths` on the disk: it throws iff no entry existed. */
  function CleanResult(disk: Disk, paths: seq<Option<string>>, undeletable: set<string>): Result<Disk, StageError> {
    if forall i :: 0 <= i < |paths| ==> !Usable(paths[i], disk.present) then Err(NothingToClean)
    else Ok(AfterClean(disk, paths, undeletable))
  }

  /** `copyToProjectPaths` on the disk: it throws iff no source existed, or
      when the copy itself throws. */
  function CopyResult(disk: Disk, sources: seq<Option<string>>, dests: seq<Option<string>>, updateLogFileDates: bool,
                      now: Stamp, cal: Calendar, listing: Listing): Result<Disk, StageError>
    requires |sources| == |dests|
  {
    if forall i :: 0 <= i < |sources| ==> !Usable(sources[i], disk.present) then Err(NothingToCopy)
    else CopyAll(disk, sources, dests, updateLogFileDates, now, cal, listing)
  }

  /** `archiveTestData` on the disk: it throws iff an entry is null. */
  function ArchiveResult(disk: Disk, paths: seq<Option<string>>, dest: string): Result<Disk, StageError> {
    if exists i :: 0 <= i < |paths| && paths[i].None? then Err(NullArchivePath)
    else Ok(ArchiveAll(disk, paths, dest).0)
  }

  /** What one cycle does to the disk, or the exception that ends it: the
      stages in order, the first that throws ending the cycle. */
  function CycleResult(disk: Disk, undeletable: set<string>, listing: Listing, pathsToClean: seq<Option<string>>,
                       copyFrom: seq<Option<string>>, copyTo: seq<Option<string>>, updateLogFileDates: bool,
                       now: Stamp, cal: Calendar, archiveDest: string, pathsToArchive: seq<Option<string>>)
    : Result<Disk, StageError>
    requires |copyFrom| == |copyTo|
  {
    var cleaned := CleanResult(disk, pathsToClean, undeletable);
    if cleaned.Err? then cleaned
    else
      var copied := CopyResult(cleaned.value, copyFrom, copyTo, updateLogFileDates, now, cal, listing);
      if copied.Err? then copied
      else ArchiveResult(copied.value, pathsToArchive, archiveDest)
  }

  /** The phases of one service cycle, as they follow `start` in the trace:
      stop, clean events up to `c`, copy events up to `d`, start, the wait,
      archive events, stop. */
  ghost predicate CyclePhases(t: seq<Event>, start: nat, c: nat, d: nat, waitTime: int) {
    start < c <= d && d + 2 < |t| && t[start] == Stop
    && (forall j :: start < j < c ==> CleanEvent(t[j]))
    && (forall j :: c <= j < d ==> CopyEvent(t[j]))
    && t[d] == Start && t[d + 1] == Wait(waitTime)
    && (forall j :: d + 2 <= j < |t| - 1 ==> ArchiveEvent(t[j]))
    && t[|t| - 1] == Stop
  }

  /** `t` carries on from `t0` with clean events only. */
  ghost predicate CleansAfter(t0: seq<Event>, t: seq<Event>) {
    |t| >= |t0| && t[..|t0|] == t0 && forall j :: |t0| <= j < |t| ==> CleanEvent(t[j])
  }

  /** `t` carries on from `t0` with copy events only. */
  ghost predicate CopiesAfter(t0: seq<Event>, t: seq<Event>) {
    |t| >= |t0| && t[..|t0|] == t0 && forall j :: |t0| <= j < |t| ==> CopyEvent(t[j])
  }

  lemma CleansAfterStep(t0: seq<Event>, t: seq<Event>, e: Event)
    requires CleansAfter(t0, t) && CleanEvent(e)
    ensures CleansAfter(t0, t + [e])
  {
    assert (t + [e])[..|t0|] == t[..|t0|];
  }

  lemma CopiesAfterStep(t0: seq<Event>, t: seq<Event>, e: Event)
    requires CopiesAfter(t0, t) && CopyEvent(e)
    ensures CopiesAfter(t0, t + [e])
  {
    assert (t + [e])[..|t0|] == t[..|t0|];
  }

  lemma CopiesAfterTrans(t0: seq<Event>, t1: seq<Event>, t2: seq<Event>)
    requires CopiesAfter(t0, t1) && CopiesAfter(t1, t2)
    ensures CopiesAfter(t0, t2)
  {
    assert t2[..|t0|] == t2[..|t1|][..|t0|];
    forall j | |t0| <= j < |t1| ensures CopyEvent(t2[j]) {
      assert t2[j] == t1[j];
    }
  }

  /** `t` carries on from `t0` with a stop. */
  ghost predicate StopsAfter(t0: seq<Event>, t: seq<Event>) {
    |t| > |t0| && t[..|t0|] == t0 && t[|t0|] == Stop
  }

  /** Whatever is appended later, the stop stays where it was. */
  lemma StopsAfterKept(t0: seq<Event>, t1: seq<Event>, t: seq<Event>)
    requires StopsAfter(t0, t1) && |t| >= |t1| && t[..|t1|] == t1
    ensures StopsAfter(t0, t)
  {
    assert t[..|t0|] == t1[..|t0|];
    assert t[|t0|] == t1[|t0|];
  }

  /** A stop followed by clean events and then copy events holds no start. */
  lemma NoStartAfter(t0: seq<Event>, t1: seq<Event>, t2: seq<Event>)
    requires CleansAfter(t0 + [Stop], t1) && CopiesAfter(t1, t2)
    ensures StopsAfter(t0, t2)
    ensures forall j :: |t0| <= j < |t2| ==> t2[j] != Start
  {
    assert t1[|t0|] == (t0 + [Stop])[|t0|];
    assert t1[..|t0|] == (t0 + [Stop])[..|t0|];
    StopsAfterKept(t0, t1, t2);
    forall j | |t0| <= j < |t1| ensures t2[j] != Start {
      assert t2[j] == t1[j];
    }
  }

  /** A stop followed by clean events. */
  lemma CleansAfterStop(t0: seq<Event>, events: seq<Event>)
    requires forall e :: e in events ==> CleanEvent(e)
    ensures CleansAfter(t0 + [Stop], t0 + [Stop] + events)
  {
    var t := t0 + [Stop] + events;
    assert t[..|t0 + [Stop]|] == t0 + [Stop];
    forall j | |t0 + [Stop]| <= j < |t|
      ensures CleanEvent(t[j])
    {
      assert t[j] == events[j - |t0 + [Stop]|];
    }
  }

  /** A stop, clean events up to `t1`, copy events up to `t2`, then start,
      wait, archive events and a stop, make up one cycle. */
  lemma CycleAssembled(t0: seq<Event>, t1: seq<Event>, t2: seq<Event>, events: seq<Event>, t: seq<Event>,
                       waitTime: int)
    requires CleansAfter(t0 + [Stop], t1) && CopiesAfter(t1, t2)
    requires t == t2 + [Start, Wait(waitTime)] + events + [Stop]
    requires forall e :: e in events ==> ArchiveEvent(e)
    ensures StopsAfter(t0, t)
    ensures CyclePhases(t, |t0|, |t1|, |t2|, waitTime)
  {
    NoStartAfter(t0, t1, t2);
    assert t[..|t2|] == t2;
    StopsAfterKept(t0, t2, t);
    forall j | |t0| < j < |t1| ensures CleanEvent(t[j]) {
      assert t[j] == t2[j] == t1[j];
    }
    forall j | |t1| <= j < |t2| ensures CopyEvent(t[j]) {
      assert t[j] == t2[j];
    }
    forall j | |t2| + 2 <= j < |t| - 1 ensures ArchiveEvent(t[j]) {
      assert t[j] == events[j - |t2| - 2];
    }
  }

  /** A clean or copy that throws: a stop and no start, hence no cycle. */
  lemma EndedBeforeStart(t0: seq<Event>, t1: seq<Event>, t2: seq<Event>, waitTime: int)
    requires CleansAfter(t0 + [Stop], t1) && CopiesAfter(t1, t2)
    ensures StopsAfter(t0, t2)
    ensures forall j :: |t0| <= j < |t2| ==> t2[j] != Start
    ensures !exists c, d :: CyclePhases(t2, |t0|, c, d, waitTime)
  {
    NoStartAfter(t0, t1, t2);
    NoCycleWithoutStart(t2, |t0|, waitTime);
  }

  /** A null archive entry: the start and the wait happened, the final stop
      did not, hence no cycle. */
  lemma EndedInArchive(t0: seq<Event>, t2: seq<Event>, events: seq<Event>, t: seq<Event>, waitTime: int)
    requires StopsAfter(t0, t2) && t == t2 + [Start, Wait(waitTime)] + events
    requires forall e :: e in events ==> ArchiveEvent(e)
    ensures StopsAfter(t0, t)
    ensures exists d :: |t0| < d < |t| - 1 && t[d] == Start && t[d + 1] == Wait(waitTime)
    ensures !exists c, d :: CyclePhases(t, |t0|, c, d, waitTime)
  {
    assert t[..|t2|] == t2;
    StopsAfterKept(t0, t2, t);
    assert t[|t2|] == Start && t[|t2| + 1] == Wait(waitTime);
    if events != [] {
      assert t[|t| - 1] == events[|events| - 1];
      assert events[|events| - 1] in events;
    }
    NoCycleWithoutFinalStop(t, |t0|, waitTime);
  }

  /** A trace with no start after `start` holds no cycle from there. */
  lemma NoCycleWithoutStart(t: seq<Event>, start: nat, waitTime: int)
    requires forall j :: start <= j < |t| ==> t[j] != Start
    ensures !exists c, d :: CyclePhases(t, start, c, d, waitTime)
  {
  }

  /** A trace that does not end in a stop holds no cycle. */
  lemma NoCycleWithoutFinalStop(t: seq<Event>, start: nat, waitTime: int)
    requires |t| > 0 && t[|t| - 1] != Stop
    ensures !exists c, d :: CyclePhases(t, start, c, d, waitTime)
  {
  }

  class Project {
    var disk: Disk
    const undeletable: set<string>
    const listing: Listing
    var from: Option<string>
    var to: Option<string>
    ghost var trace: seq<Event>

    constructor (disk: Disk, undeletable: set<string>, listing: Listing)
      ensures this.disk == disk && this.undeletable == undeletable && this.listing == listing
      ensures from == None && to == None && trace == []
    {
      this.disk := disk;
      this.undeletable := undeletable;
      this.listing := listing;
      from := None;
      to := None;
      trace := [];
    }

    /** `CleanFolderPaths`: every folder that exists at its turn is cleaned
        (a folder whose cleaning throws is reported, keeping what could not
        be deleted); the call throws iff no entry existed. */
    method Clean(paths: seq<Option<string>>) returns (r: Result<(), StageError>)
      modifies this
      ensures r.Err? <==> forall i :: 0 <= i < |paths| ==> !Usable(paths[i], old(disk).present)
      ensures r.Err? ==> r.error == NothingToClean && disk == old(disk)
      ensures disk == AfterClean(old(disk), paths, undeletable)
      ensures Outcome(r, disk) == CleanResult(old(disk), paths, undeletable)
      ensures trace == old(trace) + CleanEvents(paths, old(disk).present, undeletable)
      ensures from == old(from) && to == old(to)
    {
      var countValidCleanPaths := 0;
      for i := 0 to |paths|
        invariant disk == AfterClean(old(disk), paths[..i], undeletable)
        invariant old(trace) + CleanEvents(paths, old(disk).present, undeletable)
                  == trace + CleanEvents(paths[i..], disk.present, undeletable)
        invariant countValidCleanPaths == 0 <==> forall j :: 0 <= j < i ==> !Usable(paths[j], old(disk).present)
        invariant from == old(from) && to == old(to)
      {
        CleanStep(old(disk), paths, undeletable, i);
        assert paths[i..][1..] == paths[i + 1..];
        if countValidCleanPaths == 0 {
          AfterCleanNone(old(disk), paths[..i], undeletable);
        }
        if paths[i].Some? && paths[i].value in disk.present {
          countValidCleanPaths := countValidCleanPaths + 1;
          CleanFolder(paths[i].value);
        }
      }
      assert paths[..|paths|] == paths;
      if countValidCleanPaths == 0 {
        AfterCleanNone(old(disk), paths, undeletable);
        return Err(NothingToClean);
      }
      return Ok(());
    }

    /** `cleanDirectory` on one existing folder: everything inside it that
        can be deleted is deleted and the folder kept; the call is reported
        as failed when something inside could not be deleted. */
    method CleanFolder(p: string)
      modifies this
      ensures disk == Emptied(old(disk), undeletable, p)
      ensures trace == old(trace) + [if CleanFails(old(disk).present, undeletable, p) then CleanFailed(p) else Cleaned(p)]
      ensures from == old(from) && to == old(to)
    {
      var failed := CleanFails(disk.present, undeletable, p);
      disk := Emptied(disk, undeletable, p);
      trace := trace + [if failed then CleanFailed(p) else Cleaned(p)];
    }

    /** The one-argument `updateLogLineDates`: every regular file inside a
        directory (or the path itself, when it is not one) in walk order. */
    method RebaseTree(source: string, now: Stamp, cal: Calendar) returns (r: Result<(), RebaseError>)
      modifies this
      ensures var expected := RebaseAll(old(disk).files, Walk(old(disk), listing, source), now, cal);
        (r.Err? <==> expected.Err?) && (r.Err? ==> r.error == expected.error)
        && (r.Ok? ==> disk == old(disk).(files := expected.value))
      ensures disk.present == old(disk).present && disk.dirs == old(disk).dirs
      ensures from == old(from) && to == old(to)
      ensures CopiesAfter(old(trace), trace)
    {
      var paths := Walk(disk, listing, source);
      for i := 0 to |paths|
        invariant RebaseAll(old(disk).files, paths, now, cal) == RebaseAll(disk.files, paths[i..], now, cal)
        invariant disk.present == old(disk).present && disk.dirs == old(disk).dirs
        invariant from == old(from) && to == old(to)
        invariant CopiesAfter(old(trace), trace)
      {
        var path := paths[i];
        assert paths[i..][1..] == paths[i + 1..];
        if Selected(path) {
          if path !in disk.files {
            CopiesAfterStep(old(trace), trace, RebaseUnreadable(path));
            trace := trace + [RebaseUnreadable(path)];
          } else {
            var updated := UpdateLogLineDates(disk.files[path], IsAgentLog(path), now, cal);
            if updated.Err? {
              return Err(updated.error);
            }
            disk := disk.(files := disk.files[path := updated.value]);
            CopiesAfterStep(old(trace), trace, Rebased(path));
            trace := trace + [Rebased(path)];
          }
        }
      }
      return Ok(());
    }

    /** One usable entry of `copyToProjectPaths`: `from` is set, a null
        destination throws, otherwise the copy and, when asked, the rebasing
        walk over the destination. */
    method CopyOne(source: string, destination: Option<string>, updateLogFileDates: bool, now: Stamp, cal: Calendar)
      returns (r: Result<(), StageError>)
      modifies this
      ensures from == Some(source) && to == (if destination.Some? then destination else old(to))
      ensures destination.None? ==> r == Err(NullDestination) && disk == old(disk)
      ensures destination.Some? ==>
                var expected := CopyEntry(old(disk), source, destination.value, updateLogFileDates, now, cal, listing);
                (r.Ok? <==> expected.Ok?) && (r.Ok? ==> disk == expected.value)
                && (r.Err? ==> r.error == expected.error)
      ensures CopiesAfter(old(trace), trace)
    {
      from := Some(source);
      if destination.None? {
        return Err(NullDestination);
      }
      to := destination;
      var dest := destination.value;
      CopyFoldersOrFiles(source, dest);
      CopiesAfterStep(trace, trace, Copied(source, dest));
      trace := trace + [Copied(source, dest)];
      if updateLogFileDates {
        ghost var t1 := trace;
        assert dest in disk.dirs;
        var rebased := RebaseTree(dest, now, cal);
        CopiesAfterTrans(old(trace), t1, trace);
        if rebased.Err? {
          return Err(RebaseFailed(rebased.error));
        }
      }
      return Ok(());
    }

    /** `copyToProjectPaths`: source i is copied to destination i when it
        exists at its turn, then rebased if asked; the call throws iff no
        source existed. */
    method Copy(sources: seq<Option<string>>, destinations: seq<Option<string>>, updateLogFileDates: bool,
                now: Stamp, cal: Calendar)
      returns (r: Result<(), StageError>)
      requires |sources| == |destinations|
      modifies this
      ensures r == Err(NothingToCopy) <==> forall i :: 0 <= i < |sources| ==> !Usable(sources[i], old(disk).present)
      ensures r == Err(NothingToCopy) ==> disk == old(disk)
      ensures Outcome(r, disk) == CopyResult(old(disk), sources, destinations, updateLogFileDates, now, cal, listing)
      ensures CopiesAfter(old(trace), trace)
    {
      var countValidSourcePaths := 0;
      for i := 0 to |sources|
        invariant CopyAll(old(disk), sources, destinations, updateLogFileDates, now, cal, listing)
                  == CopyAll(disk, sources[i..], destinations[i..], updateLogFileDates, now, cal, listing)
        invariant countValidSourcePaths == 0 ==> disk == old(disk)
        invariant countValidSourcePaths == 0 <==> forall j :: 0 <= j < i ==> !Usable(sources[j], old(disk).present)
        invariant CopiesAfter(old(trace), trace)
      {
        assert sources[i..][1..] == sources[i + 1..];
        assert destinations[i..][1..] == destinations[i + 1..];
        if sources[i].Some? && sources[i].value in disk.present {
          countValidSourcePaths := countValidSourcePaths + 1;
          ghost var t1 := trace;
          var copied := CopyOne(sources[i].value, destinations[i], updateLogFileDates, now, cal);
          CopiesAfterTrans(old(trace), t1, trace);
          if copied.Err? {
            return copied;
          }
        }
      }
      if countValidSourcePaths == 0 {
        return Err(NothingToCopy);
      }
      return Ok(());
    }

    /** `copyFoldersOrFiles`: a directory's contents, or a file, copied into
        `dest`. */
    method CopyFoldersOrFiles(source: string, dest: string)
      modifies this
      ensures disk == CopyInto(old(disk), source, dest)
      ensures dest in disk.dirs
      ensures from == old(from) && to == old(to) && trace == old(trace)
    {
      disk := CopyInto(disk, source, dest);
    }

    /** `archiveTestData`: each entry is copied into `archiveDest` when it
        exists; a missing one is reported when its name mentions "sqlite"
        and otherwise passed over. Only a null entry makes the call throw. */
    method Archive(archiveDest: string, paths: seq<Option<string>>) returns (r: Result<(), StageError>)
      modifies this
      ensures r.Err? <==> exists i :: 0 <= i < |paths| && paths[i].None?
      ensures r.Err? ==> r.error == NullArchivePath
      ensures disk == ArchiveAll(old(disk), paths, archiveDest).0
      ensures trace == old(trace) + ArchiveAll(old(disk), paths, archiveDest).1
      ensures from == LastArchived(paths, old(from))
      ensures to == if paths != [] && paths[0].Some? then Some(archiveDest) else old(to)
    {
      ghost var done: seq<Event> := [];
      assert paths[0..] == paths;
      assert done + ArchiveAll(disk, paths, archiveDest).1 == ArchiveAll(disk, paths, archiveDest).1;
      for i := 0 to |paths|
        invariant forall j :: 0 <= j < i ==> paths[j].Some?
        invariant trace == old(trace) + done
        invariant ArchiveAll(old(disk), paths, archiveDest)
                  == (ArchiveAll(disk, paths[i..], archiveDest).0, done + ArchiveAll(disk, paths[i..], archiveDest).1)
        invariant LastArchived(paths, old(from)) == LastArchived(paths[i..], from)
        invariant to == if i > 0 then Some(archiveDest) else old(to)
      {
        ArchiveAllStep(disk, paths[i..], archiveDest);
        assert paths[i..][1..] == paths[i + 1..];
        if paths[i].None? {
          return Err(NullArchivePath);
        }
        var path := paths[i].value;
        ghost var one := ArchiveOne(disk, path, archiveDest);
        ghost var rest := ArchiveAll(one.0, paths[i + 1..], archiveDest).1;
        assert done + (one.1 + rest) == (done + one.1) + rest;
        ArchiveEntry(path, archiveDest);
        done := done + one.1;
      }
      assert paths[|paths|..] == [];
      return Ok(());
    }

    /** One entry of `archiveTestData`: `from` and `to` are set, then the
        entry is copied when it exists, or reported when it is a missing
        database. */
    method ArchiveEntry(path: string, archiveDest: string)
      modifies this
      ensures disk == ArchiveOne(old(disk), path, archiveDest).0
      ensures trace == old(trace) + ArchiveOne(old(disk), path, archiveDest).1
      ensures from == Some(path) && to == Some(archiveDest)
    {
      from := Some(path);
      to := Some(archiveDest);
      if path in disk.present {
        CopyFoldersOrFiles(path, archiveDest);
        trace := trace + [Archived(path, archiveDest)];
      } else if Contains(Name(path), "sqlite") {
        trace := trace + [MissingDatabase(path)];
      }
    }

    /** `performProjectAction`: stop, clean, copy, start, wait, archive, stop.
        A clean or copy that throws ends the cycle before the service is
        started again; a null archive entry ends it after the start. */
    method PerformProjectAction(waitTime: int, pathsToClean: seq<Option<string>>, copyFrom: seq<Option<string>>,
                                copyTo: seq<Option<string>>, archiveDest: string, pathsToArchive: seq<Option<string>>,
                                updateLogFileDates: bool, now: Stamp, cal: Calendar)
      returns (r: Result<(), StageError>)
      requires |copyFrom| == |copyTo|
      modifies this
      ensures StopsAfter(old(trace), trace)
      ensures Outcome(r, disk) == CycleResult(old(disk), undeletable, listing, pathsToClean, copyFrom, copyTo,
                                              updateLogFileDates, now, cal, archiveDest, pathsToArchive)
      ensures r == Err(NothingToClean) ==> disk == old(disk)
      ensures r.Ok? <==> exists c, d :: CyclePhases(trace, |old(trace)|, c, d, waitTime)
      ensures r.Err? && r.error != NullArchivePath ==> forall j :: |old(trace)| <= j < |trace| ==> trace[j] != Start
      ensures r == Err(NullArchivePath) ==>
                exists d :: |old(trace)| < d < |trace| - 1 && trace[d] == Start && trace[d + 1] == Wait(waitTime)
    {
      ghost var t0 := trace;
      trace := trace + [Stop];
      var cleaned := Clean(pathsToClean);
      CleanEventsShape(pathsToClean, old(disk).present, undeletable);
      CleansAfterStop(t0, CleanEvents(pathsToClean, old(disk).present, undeletable));
      if cleaned.Err? {
        EndedBeforeStart(t0, trace, trace, waitTime);
        return cleaned;
      }
      ghost var t1 := trace;
      var copied := Copy(copyFrom, copyTo, updateLogFileDates, now, cal);
      if copied.Err? {
        EndedBeforeStart(t0, t1, trace, waitTime);
        return copied;
      }
      ghost var t2 := trace;
      trace := trace + [Start, Wait(waitTime)];
      ghost var events := ArchiveAll(disk, pathsToArchive, archiveDest).1;
      ArchiveAllShape(disk, pathsToArchive, archiveDest);
      NoStartAfter(t0, t1, t2);
      var archived := Archive(archiveDest, pathsToArchive);
      if archived.Err? {
        EndedInArchive(t0, t2, events, trace, waitTime);
        return archived;
      }
      trace := trace + [Stop];
      CycleAssembled(t0, t1, t2, events, trace, waitTime);
      return Ok(());
    }
  }
}
